=== FILE: README.md ===
# armpp register fields, peripherals and frequencies in Dafny

armpp is a C++20 hardware abstraction layer for ARM Cortex-M3 microcontrollers. This
project models its core and proves properties of the model:

- **Register fields** (`hal/registers.hpp`, `util/mask.hpp`). A 32-bit register word
  holds bit-fields at a given offset and size. Each field is read and written by one of
  three strategies:
  - a padded bit-field;
  - an unpadded bit-field at offset 0;
  - a "bitwise logic" strategy, whose write ORs the value into the register and so
    never clears a bit.

  On top of these sit the read-write, read-only and write-only wrappers with their
  comparison operators, and the field arrays that spread many equal fields over
  several words and hand out element accessors.
- **Peripherals.** NVIC, SCB, timer, SysTick and UART. Each register is a union of
  field views over one word. Each peripheral is a structure of such words at fixed
  offsets, driven by the operations of the peripheral class.
- **Number formatting.** `util/to_chars.hpp` renders integers into a character buffer.
  The UART's integer `write` uses it.
- **Compile-time arithmetic and frequencies.** The ratio helpers of `util/traits.hpp`,
  and `frequency<Period>` of `frequency.hpp`: a `std::uint32_t` count of a whole
  period in hertz, with casts, comparisons, arithmetic and the conversion to the
  duration of one cycle.
- **The system clock** of `hal/system.hpp` and `src/system.cpp`.
- **Flag sets** of `util/flags.hpp`.

## How the model is built

- A register word is `Bits.Word`: a sequence of 32 booleans, bit 0 first. `ToNat` and
  `FromNat` connect it to its numeric value.
- Unsigned 32-bit arithmetic is written on `nat` with an explicit `% 2^32`.
- Conversions to `std::int32_t`, C++'s truncating `/` and `%`, and the normalisation
  of `std::ratio` are spelled out as functions.
- A peripheral is an immutable datatype of words. Each member function becomes a pure
  function from the old registers to the new ones.
- Hardware reactions to writes (a set-enable bit turning an interrupt on, a
  counter counting) are not modelled. Memory holds what the program writes.
- Where the code is evidently wrong, both readings are kept. A member ending in
  `AsWritten` follows the code as it stands. The corrected definition carries the
  intended property, and a contract or lemma relates the two (see Findings).

The modules follow the source:

| Module | Models |
|---|---|
| `Bits` | `util/mask.hpp` and the word helpers |
| `Registers` | the field strategies and field wrappers of `hal/registers.hpp` |
| `FieldArrays` | the field arrays and their accessors |
| `Layout` | the field-list and struct-layout vocabulary shared by the peripherals |
| `CommonTypes` | `hal/common_types.hpp` |
| `Nvic`, `Scb`, `Timer`, `SysTick`, `Uart` | the peripherals and their `.cpp` files |
| `ToChars` | `util/to_chars.hpp` |
| `Traits` | `util/traits.hpp` |
| `Chrono` | the `int32` durations and `duration_cast` that `frequency` uses |
| `Frequency` | `frequency.hpp` |
| `SystemClock` | the system clock |
| `Flags` | `util/flags.hpp` |

## Model

| member | source | states |
|---|---|---|
| Bits.BitSequenceBits | include/armpp/util/mask.hpp:8-17 | `bit_sequence<Length>` has exactly its low `Length` bits set |
| Bits.BitSequenceValue | include/armpp/util/mask.hpp:8-17 | `bit_sequence<Length>` is 2^Length - 1 |
| Bits.BitMaskBits | include/armpp/util/mask.hpp:25-29 | `bit_mask<Offset, Length>` has exactly bits Offset to Offset+Length-1 set |
| Bits.BitMaskAsRuns | include/armpp/util/mask.hpp:25-29 | the mask is Offset clear bits, then Length set bits, then clear bits to bit 31 |
| Bits.BitMaskPopCount | include/armpp/util/mask.hpp:25-29 | the mask has exactly Length bits set |
| Bits.BitMaskValue | include/armpp/util/mask.hpp:25-29 | the mask is (2^Length - 1) · 2^Offset, the sequence shifted left by Offset |
| Bits.MaskConstants | include/armpp/util/mask.hpp:22-35 | the four static assertions: 0b1, 0b111, 0b11 and 0b11111000 |
| Bits.ShrValue | include/armpp/hal/registers.hpp:312 | `>>` on a 32-bit word divides its value by 2^k |
| Bits.ShlValue | include/armpp/hal/registers.hpp:336 | `<<` on a 32-bit word keeps the low 32-k bits and multiplies them by 2^k |
| Bits.LowBitsValue | include/armpp/hal/registers.hpp:846 | `& bit_sequence<Size>` keeps the value modulo 2^Size |
| Bits.FromNatToNat | include/armpp/hal/common_types.hpp:7-8 | storing a number in a `raw_register` keeps it modulo 2^32 |
| Bits.ToNatFromNat | include/armpp/hal/common_types.hpp:7-8 | a register word is determined by its numeric value |
| Registers.DefaultAccessMode | include/armpp/hal/registers.hpp:114-120 | integral field types default to the bit-field strategy and enumerations to the bitwise-logic strategy, and nothing else maps to either |
| Registers.StorageOf | include/armpp/hal/registers.hpp:163-357 | which `register_data` specialisation a field gets: masked exactly for bitwise logic, unpadded exactly for a bit-field at offset 0, padded otherwise, each with the field's offset and width |
| Registers.GetBits | include/armpp/hal/registers.hpp:177-181 | a field read yields the field's bits moved down to bit 0 and clears every higher bit, in every strategy |
| Registers.GetValue | include/armpp/hal/registers.hpp:308-316 | a field read is (word / 2^offset) mod 2^size |
| Registers.ReadAgreesAcrossModes | include/armpp/hal/registers.hpp:308-316 | the masked read `(reg & mask) >> Offset` returns what the bit-field read returns |
| Registers.SetFrame | include/armpp/hal/registers.hpp:163-357 | a field write leaves every bit outside the field unchanged, in every strategy |
| Registers.BitFieldSetBits | include/armpp/hal/registers.hpp:197-205 | a bit-field write stores the low bits of the value in the field |
| Registers.MaskedSetBits | include/armpp/hal/registers.hpp:332-340 | a masked write sets each field bit to its old value OR the value's bit |
| Registers.BitFieldRoundTrip | include/armpp/hal/registers.hpp:170-205 | reading a bit-field after writing v gives v modulo 2^size |
| Registers.BitFieldOverwrite | include/armpp/hal/registers.hpp:197-205 | of two bit-field writes the last wins |
| Registers.BitFieldSetCurrent | include/armpp/hal/registers.hpp:177-205 | writing back the value just read changes nothing |
| Registers.MaskedSetMonotone | include/armpp/hal/registers.hpp:332-340 | a masked write never clears a bit |
| Registers.MaskedAccumulates | include/armpp/hal/registers.hpp:308-340 | reading a masked field after writing v gives the old field value OR (v mod 2^size) |
| Registers.MaskedSetIsOrThenStore | include/armpp/hal/registers.hpp:332-340 | a masked write equals a bit-field write of (old field value OR v) |
| Registers.MaskedSetIdempotent | include/armpp/hal/registers.hpp:332-340 | repeating a masked write changes nothing more |
| Registers.SetFromClearedField | include/armpp/hal/registers.hpp:163-357 | from a cleared field both strategies read back v modulo 2^size |
| Registers.MaskedScenario | include/armpp/hal/registers.hpp:294-340 | a 3-bit enumeration at bit 5 written 5 on a zero word gives 0xA0; writing 2 next gives 0xE0 (the OR of both), not the 0x40 an overwrite would give |
| Registers.BoolFieldScenario | include/armpp/hal/registers.hpp:727-729 | a `bool` field at bit 3 takes the bit-field strategy; writing `true` gives 8 and reads back `true` |
| Registers.Read | include/armpp/hal/registers.hpp:553-626 | reading is allowed unless the field is write-only and yields the field's bits |
| Registers.Write | include/armpp/hal/registers.hpp:553-626 | writing is allowed unless the field is read-only and changes no bit outside the field |
| Registers.ReadWriteRoundTrip | include/armpp/hal/registers.hpp:553-570 | on a read-write bit-field, reading after writing v gives the low bits of v |
| Registers.FieldEquals | include/armpp/hal/registers.hpp:401-405 | two fields compare equal exactly when the words agree on every field bit |
| Registers.ReadsEqualBits | include/armpp/hal/registers.hpp:401-405 | two reads are equal exactly when the words agree on the field's bits |
| Registers.FieldNotEquals | include/armpp/hal/registers.hpp:424-428 | two fields compare unequal exactly when some field bit differs |
| Registers.FieldEqualsValueAsWritten | include/armpp/hal/registers.hpp:412-416 | as written, `field == value` compares `get()` with itself and is always true |
| Registers.FieldEqualsValue | include/armpp/hal/registers.hpp:412-416 | `field == value` holds exactly when the value equals the field's numeric value |
| Registers.FieldEqualsValueCounterexample | include/armpp/hal/registers.hpp:412-416 | a 4-bit field holding 3 compares equal to 5 as written but not as intended |
| Registers.FieldNotEqualsValueAsWritten | include/armpp/hal/registers.hpp:436-440 | as written, `field != value` compares `get()` with itself and is always false |
| Registers.FieldNotEqualsValue | include/armpp/hal/registers.hpp:436-440 | `field != value` holds exactly when the value differs from the field's value |
| Registers.FieldLess | include/armpp/hal/registers.hpp:448-452 | `field < field` orders the fields' numeric values |
| Registers.FieldLessValue | include/armpp/hal/registers.hpp:460-464 | `field < value` holds exactly when the field's value is below the value |
| Registers.ValueLessField | include/armpp/hal/registers.hpp:528-534 | the order the free `value < field` is meant to give: it holds exactly when the value is below the field's value (as declared the operator calls protected members of the base through a base reference and does not compile) |
| Registers.ValueComparisonTrichotomy | include/armpp/hal/registers.hpp:460-534 | with the corrected operators, exactly one of field < value, field == value and value < field holds |
| FieldArrays.WordIndexInRange | include/armpp/hal/registers.hpp:924-943 | in a valid array (the bound as written, and the last element starting inside the words) every index below FieldCount selects an existing word |
| FieldArrays.StrideMakesValid | include/armpp/hal/registers.hpp:924-925 | with a nonzero storage size the bound as written already makes the array valid |
| FieldArrays.ValidIffInRange | include/armpp/hal/registers.hpp:924-925 | under the bound as written, an array is valid exactly when every element starts inside its words |
| FieldArrays.ZeroStrideAliases | include/armpp/hal/registers.hpp:924-925 | a zero-stride array whose offset lies inside its words is valid, and all its elements start at the same bit |
| FieldArrays.ZeroStrideEscapes | include/armpp/hal/registers.hpp:924-925 | as written, the constraint admits an array with storage size 0 and initial offset 32, whose only element lies in a word past the end; the corrected validity rejects it |
| FieldArrays.ArrayGetBits | include/armpp/hal/registers.hpp:932-944 | element i is the FieldSize bits at bit i·stride + offset of the words |
| FieldArrays.ArrayGetValue | include/armpp/hal/registers.hpp:932-944 | element i is (word / 2^bit offset) mod 2^FieldSize of its word |
| FieldArrays.GetAccessor | include/armpp/hal/registers.hpp:945-956 | an accessor is bound exactly for an index below FieldCount, to an existing word and an offset below 32 |
| FieldArrays.AccessorReadsElement | include/armpp/hal/registers.hpp:839-847 | reading through the accessor returns the array element, 0 for an unbound accessor |
| FieldArrays.OutOfRangeInert | include/armpp/hal/registers.hpp:932-956 | past FieldCount a read gives 0 and a write changes nothing |
| FieldArrays.AccessorSetFrame | include/armpp/hal/registers.hpp:849-857 | an accessor write touches only its own word and clears no bit |
| FieldArrays.AccessorSetBits | include/armpp/hal/registers.hpp:849-857 | an accessor write ORs the value's low Size bits in at its offset |
| FieldArrays.ArraySetThenGet | include/armpp/hal/registers.hpp:839-857 | reading an element after writing v gives the old element OR (v mod 2^FieldSize) |
| FieldArrays.ArraySetFromZero | include/armpp/hal/registers.hpp:839-857 | from a zero element, writing v reads back v modulo 2^FieldSize |
| FieldArrays.ArraySetOthersUnchanged | include/armpp/hal/registers.hpp:920-956 | when elements do not overlap, writing one element leaves every other element unchanged |
| FieldArrays.IndexRead | include/armpp/hal/registers.hpp:962-1010 | `operator[] const` is available unless the array is write-only and gives 0 past the end |
| FieldArrays.IndexWrite | include/armpp/hal/registers.hpp:962-1029 | writing through `operator[]` is available unless the array is read-only and changes nothing past the end |
| Layout.WriteFlag | include/armpp/hal/registers.hpp:727-729 | assigning a `bool` field sets its bit to the value and keeps every other bit |
| Layout.WriteFlagIsFieldWrite | include/armpp/hal/registers.hpp:727-729 | that is the generic field write of a 1-bit bit-field |
| Layout.ReadFlag | include/armpp/hal/registers.hpp:738-740 | reading a `bool` field is true exactly when the field read is nonzero |
| Layout.EnumFlagBit | include/armpp/hal/registers.hpp:308-316 | a 1-bit enumeration field reads as its "1" enumerator exactly when its bit is set |
| Layout.RaiseFlag | include/armpp/hal/registers.hpp:332-340 | writing the "1" enumerator to a 1-bit masked field sets its bit and keeps every other bit |
| Layout.RaiseFlagIsFieldWrite | include/armpp/hal/registers.hpp:332-340 | that is the generic masked write of a 1-bit field |
| Layout.OffsetIsSum | include/armpp/hal/nvic.hpp:51-74 | in a structure of consecutive members, a member's offset is the total size of the members before it |
| CommonTypes.RegisterBitsIsWordWidth | include/armpp/hal/common_types.hpp:7-8 | `register_bits` is 32 |
| CommonTypes.SetValue | include/armpp/hal/common_types.hpp:12 | `set_t::set` is 1 and `no_effect` is 0 |
| CommonTypes.ClearValue | include/armpp/hal/common_types.hpp:13 | `clear_t::clear` is 1 and `no_effect` is 0 |
| CommonTypes.EnabledValue | include/armpp/hal/common_types.hpp:14 | `enabled_t::enabled` is 1 and `disabled` is 0 |
| CommonTypes.ActiveValue | include/armpp/hal/common_types.hpp:15 | `active_t::active` is 1 and `inactive` is 0 |
| CommonTypes.PendedValue | include/armpp/hal/common_types.hpp:16 | `pended_t::pended` is 1 and `not_pended` is 0 |
| CommonTypes.BitWord | include/armpp/hal/common_types.hpp:12-16 | a one-bit enumerator stored in a word is 1 or 0 in bit 0 |
| CommonTypes.EnumRoundTrip | include/armpp/hal/common_types.hpp:14-15 | storing an `enabled_t` or `active_t` and reading it back gives the same enumerator |
| CommonTypes.CpuIdTilesWord | include/armpp/hal/common_types.hpp:18-27 | the five `cpu_id` fields follow each other from bit 0 to bit 31 |
| CommonTypes.CpuIdCoversWord | include/armpp/hal/common_types.hpp:18-27 | every bit of the word belongs to some `cpu_id` field |
| CommonTypes.CpuIdFieldsDetermineWord | include/armpp/hal/common_types.hpp:18-27 | two words with equal `cpu_id` fields are equal |
| CommonTypes.SystemExceptionsNegative | include/armpp/hal/common_types.hpp:41-58 | the Cortex-M3 exception numbers are negative, above -15 and strictly increasing |
| CommonTypes.AsUint32 | include/armpp/hal/common_types.hpp:41 | converting an `irqn_t` to `std::uint32_t` keeps a non-negative value and adds 2^32 to a negative one |
| Nvic.ArraysValid | include/armpp/hal/nvic.hpp:12-43 | the NVIC arrays meet the field-array constraint; the 240 eight-bit priorities fill exactly 60 words |
| Nvic.EnableIrq | include/armpp/hal/nvic.hpp:114-119 | `enable_irq` writes only ISER |
| Nvic.DisableIrq | include/armpp/hal/nvic.hpp:121-126 | `disable_irq` writes only ICER |
| Nvic.SetPending | include/armpp/hal/nvic.hpp:135-140 | `set_pending` writes only ISPR |
| Nvic.ClearPending | include/armpp/hal/nvic.hpp:142-147 | `clear_pending` writes only ICPR |
| Nvic.IrqEnabled | include/armpp/hal/nvic.hpp:128-133 | `irq_enabled(n)` is bit n mod 32 of ISER word n / 32, and false for an out-of-range or negative number |
| Nvic.IsPending | include/armpp/hal/nvic.hpp:149-154 | `is_pending(n)` is bit n mod 32 of ISPR word n / 32, and false out of range |
| Nvic.IsActive | include/armpp/hal/nvic.hpp:156-161 | `is_active(n)` is bit n mod 32 of IABR word n / 32, and false out of range |
| Nvic.EnableLocation | include/armpp/hal/nvic.hpp:15-18 | interrupt n of a 1-bit array lives at bit n mod 32 of word n / 32 |
| Nvic.PriorityLocation | include/armpp/hal/nvic.hpp:40-41 | the priority of interrupt n lives at bit 8·(n mod 4) of word n / 4, inside that word |
| Nvic.SetBitEffect | include/armpp/hal/nvic.hpp:114-119 | writing `set` to element n ORs in exactly bit n mod 32 of word n / 32; nothing changes out of range |
| Nvic.EnableThenEnabled | include/armpp/hal/nvic.hpp:114-133 | after `enable_irq(n)`, `irq_enabled(n)` holds exactly when n is a valid interrupt |
| Nvic.EnableOthersUnchanged | include/armpp/hal/nvic.hpp:114-133 | `enable_irq(n)` does not change whether any other interrupt reads as enabled |
| Nvic.NegativeIrqInert | include/armpp/hal/nvic.hpp:114-161 | a negative number cast to `std::uint32_t` is out of range: every write changes nothing and every query is false |
| Nvic.SetPendingThenPending | include/armpp/hal/nvic.hpp:135-154 | after `set_pending(n)`, `is_pending(n)` holds exactly when n is valid |
| Nvic.DisableWritesClearBit | include/armpp/hal/nvic.hpp:121-133 | `disable_irq(n)` sets bit n of the clear-enable array and leaves the set-enable array alone |
| Nvic.GetIrqPriority | src/nvic.cpp:26-36 | a system exception delegates to the SCB with `irqn_to_index`; an interrupt reads its 8-bit priority, 0 past 240 |
| Nvic.PriorityReadBound | include/armpp/hal/nvic.hpp:40-41 | an NVIC priority read is below 256 |
| Nvic.SetIrqPriority | src/nvic.cpp:38-47 | a system exception delegates to the SCB with the same priority; an interrupt writes only the priority array |
| Nvic.SetPriorityThenGet | src/nvic.cpp:26-47 | reading a priority after writing p gives the old priority OR (p mod 256), because the array ORs |
| Nvic.SetPriorityFromZero | src/nvic.cpp:26-47 | from a zero priority, writing p reads back p mod 256 |
| Nvic.SetPriorityOthersUnchanged | src/nvic.cpp:26-47 | writing one interrupt's priority leaves every other interrupt's priority unchanged |
| Nvic.PriorityOutOfRange | src/nvic.cpp:26-47 | past interrupt 240, a write changes nothing and a read gives 0 |
| Nvic.NvicLayout | include/armpp/hal/nvic.hpp:51-88 | the NVIC members are contiguous; ICER, ISPR, ICPR, IABR, IP and STIR sit at their documented addresses |
| Nvic.NvicOffsets | include/armpp/hal/nvic.hpp:51-74 | the word offsets of the NVIC members are 32, 64, 96, 128, 192 and 896 |
| Nvic.NvicContiguous | include/armpp/hal/nvic.hpp:175-178 | the NVIC is 897 words, ending at 0xe000ef04 |
| Scb.UnionsValid | include/armpp/hal/scb.hpp:9-629 | every field of every SCB register union lies inside its word |
| Scb.AliasedFields | include/armpp/hal/scb.hpp:32-104 | as declared, `pendstclr` and `pendsvclr` share bit 25, `pendstset`, `pendsvset` and `nmipendset` share bit 26, `edniannes` overlaps `sysresetreq`, and `dibyzero` shares bit 15 with `bfarvalid` |
| Scb.PendSvSetPendsSysTick | include/armpp/hal/scb.hpp:79-93 | as declared, setting `pendsvset` is setting `pendstset`: it raises bit 26 and leaves bit 28, the PendSV set bit, alone; the union has fields sharing bits |
| Scb.InterruptControlStateIntended | include/armpp/hal/scb.hpp:32-104 | with PENDSVCLR at bit 27, PENDSVSET at 28 and NMIPENDSET at 31, the register keeps every field name and permission and no two fields share a bit |
| Scb.PendSvSetIntended | include/armpp/hal/scb.hpp:86-103 | with the intended positions, setting `pendsvset` raises bit 28 and leaves the SysTick bit 26 alone |
| Scb.EndiannessReadsResetRequest | include/armpp/hal/scb.hpp:180-191 | as declared, `edniannes` reads bit 2, the `sysresetreq` bit |
| Scb.AppInterruptAndResetControlIntended | include/armpp/hal/scb.hpp:151-195 | with ENDIANNESS at bit 15, `edniannes` shares no bit with any other field and the rest is unchanged |
| Scb.EndiannessIntended | include/armpp/hal/scb.hpp:185-191 | the intended `edniannes` reads bit 15 |
| Scb.DivByZeroReadsBusFault | include/armpp/hal/scb.hpp:457-493 | as declared, `dibyzero` reads bit 15, exactly what `bfarvalid` reads, and the union has fields sharing bits |
| Scb.ConfigurableFaultStatusIntended | include/armpp/hal/scb.hpp:372-496 | with DIVBYZERO at bit 25, no two fields of the register share a bit and the other fields are unchanged |
| Scb.DivByZeroIntended | include/armpp/hal/scb.hpp:488-493 | the intended `dibyzero` reads bit 25 |
| Scb.PrigroupIsMasked | include/armpp/hal/scb.hpp:184 | `prigroup` is an enumeration field with the masked strategy, so a write cannot clear any bit |
| Scb.HandlerPrioritiesFit | include/armpp/hal/scb.hpp:289-299 | the 12 eight-bit handler priorities fill exactly 3 words and every handler index is below 12 |
| Scb.IrqnToIndex | src/nvic.cpp:7-11 | `irqn_to_index` is (n mod 16) - 4; on -16..-1 it is n + 12 |
| Scb.IrqnToIndexHandlers | src/nvic.cpp:13-14 | each exception number maps to its `system_handler_index_t`, including the two static assertions |
| Scb.IrqnToIndexInjective | src/nvic.cpp:7-11 | distinct system exception numbers map to distinct indices between -4 and 11 |
| Scb.AsInt32 | src/nvic.cpp:10 | a 32-bit result read as a signed index is congruent to it modulo 2^32 |
| Scb.ScbLayout | include/armpp/hal/scb.hpp:631-659 | the SCB is 16 contiguous words from 0xe000ed00; SHP starts at 0xe000ed18, SHCSR at 0xe000ed24 and AFSR at 0xe000ed3c |
| Scb.GetCpuId | include/armpp/hal/scb.hpp:636-640 | `get_cpu_id` returns a word whose `cpu_id` fields are the CPUID register's fields |
| Scb.GetCpuIdIsRegister | include/armpp/hal/scb.hpp:636-640 | any word with those fields is the result of `get_cpu_id` |
| Timer.TimerRegistersValid | include/armpp/hal/timer.hpp:11-44 | the control flags are 1-bit bit-fields at bits 0-3, the counters span 32 bits, and `set`/`reset` of the interrupt register share bit 0 |
| Timer.TimerLayout | include/armpp/hal/timer.hpp:200-207 | the timer is 4 contiguous words |
| Timer.Start | include/armpp/hal/timer.hpp:89-93 | `start` sets the enable bit and changes no other bit or register |
| Timer.Stop | include/armpp/hal/timer.hpp:98-102 | `stop` clears the enable bit and changes no other bit or register |
| Timer.GetInterrupt | include/armpp/hal/timer.hpp:108-112 | `get_interrupt` is bit 0 of the interrupt register |
| Timer.ClearInterrupt | include/armpp/hal/timer.hpp:117-121 | `clear_interrupt` writes 1 to bit 0 of the interrupt register and nothing else |
| Timer.EnableInterrupt | include/armpp/hal/timer.hpp:126-130 | `enable_inrerrupt` sets bit 3 and changes nothing else |
| Timer.DisableInterrupt | include/armpp/hal/timer.hpp:135-139 | `disable_iterrupt` clears bit 3 and changes nothing else |
| Timer.GetValue | include/armpp/hal/timer.hpp:145-149 | `get_value` is the whole value register |
| Timer.SetValue | include/armpp/hal/timer.hpp:155-159 | `set_value` stores the whole word in the value register only |
| Timer.SetValueIsFieldWrite | include/armpp/hal/timer.hpp:155-159 | that is the generic write of the 32-bit field |
| Timer.ResetValue | include/armpp/hal/timer.hpp:164-168 | `reset` makes the value 0 and changes nothing else |
| Timer.GetReload | include/armpp/hal/timer.hpp:174-178 | `get_reload` is the whole reload register |
| Timer.SetReload | include/armpp/hal/timer.hpp:184-188 | `set_reload` stores the whole word in the reload register only |
| Timer.SetReloadIsFieldWrite | include/armpp/hal/timer.hpp:184-188 | that is the generic write of the 32-bit field |
| Timer.StartStopInverse | include/armpp/hal/timer.hpp:89-102 | `start` and `stop` undo each other |
| Timer.InterruptEnableInverse | include/armpp/hal/timer.hpp:126-139 | enabling and disabling the interrupt undo each other |
| Timer.ValueRoundTrip | include/armpp/hal/timer.hpp:145-188 | value and reload read back what was written, `reset` reads back 0, and each setter leaves the other counter alone |
| Timer.SelectInput | src/timer.cpp:20-28 | the input switch sets `ext_enable` for the external input, and `ext_clock` for both external choices because the first case falls through |
| Timer.Configure | src/timer.cpp:6-31 | `configure` stores the init's value and reload, clears bit 0 of the interrupt register and keeps its other bits |
| Timer.ConfigureControl | src/timer.cpp:9-30 | the control word after `configure` holds exactly enable, the input bits and the interrupt enable; bits 4-31 are clear |
| Timer.ConfigureCtrlBits | src/timer.cpp:9-30 | the sequence of control-field writes yields that control word |
| Timer.ConfigureIdempotent | src/timer.cpp:6-31 | `configure` forgets the earlier control, value and reload, so configuring twice is configuring once |
| SysTick.SysTickRegistersValid | include/armpp/hal/systick.hpp:20-77 | `enable` and `handler_enable` are bit-fields, `source` and `count_flag` are masked 1-bit fields at bits 2 and 16, and the calibration fields do not overlap |
| SysTick.SysTickLayout | include/armpp/hal/systick.hpp:211-218 | SysTick is 4 contiguous words |
| SysTick.Enabled | include/armpp/hal/systick.hpp:103-107 | `enabled` is bit 0 of CTRL |
| SysTick.SetEnabled | include/armpp/hal/systick.hpp:111-123 | `enable` and `disable` set bit 0 and change nothing else |
| SysTick.HandlerEnabled | include/armpp/hal/systick.hpp:129-133 | `handler_enabled` is bit 1 of CTRL |
| SysTick.SetHandlerEnabled | include/armpp/hal/systick.hpp:137-149 | `handler_enable` and `handler_disable` set bit 1 and change nothing else |
| SysTick.Source | include/armpp/hal/systick.hpp:155-159 | `source` reads core clock exactly when bit 2 is set |
| SysTick.SetSource | include/armpp/hal/systick.hpp:165-169 | `set_source` ORs into bit 2: it can select the core clock but cannot clear the bit |
| SysTick.SourceWriteZero | include/armpp/hal/systick.hpp:28 | writing `external_clock` leaves the word unchanged |
| SysTick.SourceIsSticky | include/armpp/hal/systick.hpp:165-169 | once the core clock is selected, selecting the external clock leaves the core clock |
| SysTick.GetCountFlag | include/armpp/hal/systick.hpp:175-179 | `count_flag` reads counted-to-0 exactly when bit 16 is set |
| SysTick.ReloadValue | include/armpp/hal/systick.hpp:185-189 | `reload_value` is the low 24 bits of RELOAD |
| SysTick.SetReloadValue | include/armpp/hal/systick.hpp:195-199 | `set_reload_value` touches only RELOAD and keeps its bits 24-31 |
| SysTick.CurrentValue | include/armpp/hal/systick.hpp:205-209 | `current_value` is the low 24 bits of CURRENT |
| SysTick.ReloadRoundTrip | include/armpp/hal/systick.hpp:185-199 | reading the reload value after writing v gives v modulo 2^24 |
| SysTick.EnableRoundTrip | include/armpp/hal/systick.hpp:103-159 | enable and handler-enable read back what was written and do not disturb each other or the source |
| Uart.UartRegistersValid | include/armpp/hal/uart.hpp:21-83 | the control flags are bit-fields at bits 0-6; the four interrupt-clear fields all sit on bit 0 with the masked strategy; the baud divider is a 20-bit masked field |
| Uart.UartLayout | include/armpp/hal/uart.hpp:319-327 | the UART is 5 contiguous words, 20 bytes |
| Uart.TxInterrupt | include/armpp/hal/uart.hpp:150-154 | `tx_interrupt` is bit 0 of the interrupt register |
| Uart.RxInterrupt | include/armpp/hal/uart.hpp:168-172 | `rx_interrupt` is bit 1 of the interrupt register |
| Uart.TxInterruptEnabled | include/armpp/hal/uart.hpp:144-148 | `tx_interrupt_enabled` is bit 2 of the control register |
| Uart.RxInterruptEnabled | include/armpp/hal/uart.hpp:162-166 | `rx_interrupt_enabled` is bit 3 of the control register |
| Uart.ClearTxInterrupt | include/armpp/hal/uart.hpp:156-160 | `clear_tx_interrupt` ORs 1 into bit 0 of the interrupt register and changes nothing else |
| Uart.ClearRxInterrupt | include/armpp/hal/uart.hpp:174-178 | `clear_rx_interrupt` also ORs 1 into bit 0, the declared position of `rx_interrupt_clear` |
| Uart.RxClearWritesTxBit | include/armpp/hal/uart.hpp:69-72 | as declared, clearing the receive interrupt is the same write as clearing the transmit one, and leaves the receive flag's bit 1 alone |
| Uart.InterruptRegisterIntendedValid | include/armpp/hal/uart.hpp:60-75 | the intended union keeps the names, permissions and flags; each clear field sits on its flag's bit and no two clear fields share a bit |
| Uart.ClearInterrupt | include/armpp/hal/uart.hpp:69-72 | clearing flag k through its intended clear field writes 1 into bit k and nothing else; for the transmit flag this is the declared write |
| Uart.StateFlag | include/armpp/hal/uart.hpp:184-218 | the four state queries read bits 0-3 of the state register |
| Uart.ResetOverrun | include/armpp/hal/uart.hpp:223-236 | resetting an overrun writes 1 to its bit and changes nothing else |
| Uart.PutData | include/armpp/hal/uart.hpp:242-248 | `put` writes only the 8-bit data field and keeps bits 8-31 |
| Uart.GetData | include/armpp/hal/uart.hpp:285-291 | `get` returns the low 8 bits of the data register |
| Uart.DataRoundTrip | include/armpp/hal/uart.hpp:242-291 | a character read after `put(c)` is c modulo 256 |
| Uart.NewControlIsRequested | src/uart.cpp:55-63 | the seven flag writes into a zeroed control word give exactly the requested flags |
| Uart.ClearData | src/uart.cpp:65 | `data_ = 0` clears only the 8-bit data field |
| Uart.StoreDivisor | src/uart.cpp:74 | storing the divisor ORs its low 20 bits into the baud field and keeps bits 20-31 |
| Uart.BaudZeroWriteInert | src/uart.cpp:69 | `bauddiv_ = 0` is a masked write of 0 and changes nothing |
| Uart.Configure | src/uart.cpp:52-75 | `configure` zeroes state and interrupt, clears the data field, and ORs the system frequency divided by the baud rate into the divider |
| Uart.ConfigureControl | src/uart.cpp:55-72 | after `configure` the control register is exactly the requested flags |
| Uart.ConfigureBaudFromZero | src/uart.cpp:69-74 | from a zero divider, `configure` leaves frequency / baud rate modulo 2^20 in it |
| Uart.DivisorFromZero | src/uart.cpp:74 | storing q into a zero divider field reads back q modulo 2^20 |
| Uart.ReconfigureKeepsDivisorBits | src/uart.cpp:69-74 | as written, a second `configure` keeps every divider bit the first one set, because `bauddiv_ = 0` clears nothing |
| Uart.ReconfigureOrsDivisors | src/uart.cpp:69-74 | over a divider holding 1, configuring for a quotient of 2 leaves 3 as written and 2 as intended |
| Uart.ConfigureCleared | src/uart.cpp:52-75 | the intended `configure`: state and interrupt zeroed, the requested control word, the data field cleared, and the divider reading the quotient modulo 2^20 whatever it held before |
| Uart.ClearedDivider | src/uart.cpp:69-74 | clearing the divider before storing q leaves it reading q modulo 2^20 and keeps bits 20-31 |
| Uart.ConfigureClearedIdempotent | src/uart.cpp:52-75 | the intended `configure` forgets the earlier registers, so configuring twice is configuring once |
| Uart.ConfigureClearedFromZero | src/uart.cpp:52-75 | from a divider reading 0, the intended and the written `configure` give the same registers |
| Uart.SlotFrom | src/uart.cpp:36-48 | a claimed slot is at or after the scan start, held the device or nobody, and differs from the table only in that slot's device |
| Uart.SlotFor | src/uart.cpp:36-48 | `get_handlers` claims a slot that held the device or nobody and differs from the table only in its device |
| Uart.GetHandlers | src/uart.cpp:36-48 | the loop returns the first slot holding the device or the first free one; it finds none exactly when every slot holds another device |
| Uart.SlotForCorrect | src/uart.cpp:36-48 | the scan keeps the table invariant, reuses an existing slot of the device, and fails exactly when the rest of the table is full of other devices |
| Uart.ThirdDeviceHasNoSlot | src/uart.cpp:14-48 | with two slots, two devices are registered and a third reaches the failing `assert(false)` |
| Uart.SetHandler | src/uart.cpp:103-129 | each setter stores the callback presence in the device's slot and changes no other slot |
| Uart.ProcessInterrupt | src/uart.cpp:77-89 | as intended: the receive callback runs first with the received character, else the transmit callback; each clears its own flag's bit through the intended clear fields, and no call leaves the registers alone |
| Uart.ProcessInterruptAsWritten | src/uart.cpp:77-89 | as written: the same calls, callbacks and table as the intended reading, but either path writes the transmit flag's bit 0 through `clear_rx_interrupt` or `clear_tx_interrupt`, so a received byte leaves the receive flag's clear bit unwritten and writes the transmit one |
| Uart.ProcessOverrun | src/uart.cpp:91-101 | the transmit overrun callback takes precedence over the receive one, and neither touches the registers |
| Uart.HandlerDeviceAsWritten | src/uart.cpp:134-148 | both handlers name `uart0_address`, which is the handler's own device only for line 0 |
| Uart.InterruptHandlerAsWritten | src/uart.cpp:134-148 | as written, whatever the line, the first UART's slot is claimed, the first UART's flags and callbacks decide the call, and a call writes its transmit clear bit |
| Uart.Uart1HandlerServesUart0 | src/uart.cpp:134-148 | as written, `uart1_handler` does what `uart0_handler` does and never reads the second UART's registers |
| Uart.InterruptHandler | src/uart.cpp:134-148 | as intended, the handler of line k processes `uart_devices[k]`: its calls follow that device's flags and that device's callbacks |
| Uart.Uart1ReceiveExample | src/uart.cpp:142-148 | a byte waiting on the second UART with a receive callback is passed as intended; as written no call is made and the first UART takes a slot |
| Uart.OverrunHandler | src/uart.cpp:150-158 | `uart_ovr_handler` visits both devices, keeps every occupied slot, leaves both devices registered, and a device's call needs one of its overrun flags |
| Uart.OverrunHandlerCompletes | src/uart.cpp:150-158 | with no device but the two UARTs in the table, the overrun handler never reaches `assert(false)` |
| Uart.DigitsPerByte | include/armpp/hal/uart.hpp:102-115 | `digits_per_byte` is enough digits for any byte in its base |
| Uart.DigitsPerByteTight | include/armpp/hal/uart.hpp:102-115 | the count is the least such for binary, decimal and hexadecimal, and one more than needed for octal |
| Uart.SetOutputNumberBase | include/armpp/hal/uart.hpp:366-372 | the setter stores the base and keeps width and fill |
| Uart.SetOutputWidth | include/armpp/hal/uart.hpp:388-394 | the setter stores the width and keeps base and fill |
| Uart.SetOutputFill | include/armpp/hal/uart.hpp:410-416 | the setter stores the fill and keeps base and width |
| Uart.SettersReturnPrevious | include/armpp/hal/uart.hpp:366-416 | each setter returns the previous value, and setting that back restores the settings |
| Uart.Transmitted | include/armpp/hal/uart.hpp:254-260 | `write(char const*)` sends the prefix before the first NUL |
| Uart.TransmittedStopsAtNul | include/armpp/hal/uart.hpp:254-260 | a NUL-free text followed by NUL is sent exactly |
| Uart.WriteWidth | include/armpp/hal/uart.hpp:272 | the stored `std::uint8_t` width reaches `write` as an `std::int8_t` congruent modulo 256 |
| Uart.WideWidthIsNoPadding | include/armpp/hal/uart.hpp:272 | a stored width of 128 or more becomes negative and pads nothing |
| Uart.WriteBufferAsWritten | include/armpp/hal/uart.hpp:274-277 | as written, the buffer holds bit count + 1 characters |
| Uart.WriteBufferLength | include/armpp/hal/uart.hpp:274-277 | the corrected buffer holds the grouped binary text of the widest allowed width (the promoted type's bits) and its NUL, more than the written size |
| Uart.BinaryOverflowsBuffer | include/armpp/hal/uart.hpp:270-279 | as written, binary output of w digits overflows the buffer exactly when w plus its group spaces exceeds the type's bits: always for 16 bits or more with no width, and for any width past the type's |
| Uart.BinaryOverflowExample | include/armpp/hal/uart.hpp:270-279 | a `std::uint16_t` in binary needs 18 characters and gets a 17-character buffer |
| Uart.NarrowBinaryOverflowExample | include/armpp/hal/uart.hpp:270-279 | a `std::uint8_t` 5 in binary with width 16 stores 18 characters in a 9-character buffer |
| Uart.WriteBufferFits | include/armpp/hal/uart.hpp:270-279 | with the corrected buffer every base, width up to the promoted type's bits, and fill fits |
| Uart.WriteSendsBody | include/armpp/hal/uart.hpp:270-279 | the integer `write` sends everything before the terminating NUL |
| Uart.WriteNumber | include/armpp/hal/uart.hpp:270-279 | over the corrected buffer and padding: binary output parses back to the value modulo 2^width, a negative value included; other bases send the number text after exactly the intended padding (to `width`, within the buffer) |
| Uart.WriteNumberAsWritten | include/armpp/hal/uart.hpp:270-279 | over the `bit_count + 1` buffer and the padding loop as written, wherever the stored characters fit that buffer: binary output is what the corrected call sends; other bases send the as-written text after the as-written fill count |
| Uart.WriteNumberOneMoreFill | include/armpp/hal/uart.hpp:270-279 | a number no wider than `width` is sent `width + 1` characters wide as written, one fill character ahead of the corrected output; a wider number is sent the same by both |
| Uart.WriteNumberPaddingExample | include/armpp/hal/uart.hpp:270-279 | a `std::uint32_t` 5 in decimal with width 3 is sent as "   5" as written and "  5" corrected |
| ToChars.BaseValue | include/armpp/util/to_chars.hpp:18 | the bases are 2, 8, 10 and 16, and only `bin` is 2 |
| ToChars.ToUnsigned | include/armpp/util/to_chars.hpp:57 | `make_unsigned` keeps a non-negative value and adds 2^bits to a negative one |
| ToChars.DigitRoundTrip | include/armpp/util/to_chars.hpp:27-28 | `digit_chars` maps each digit to a character that reads back as the digit and is not space, minus or NUL |
| ToChars.ParseMsbDigits | include/armpp/util/to_chars.hpp:63-71 | the digits of the loop read back as the value |
| ToChars.ParseNumeral | include/armpp/util/to_chars.hpp:63-71 | with the `'0'` of zero, the numeral reads back as the value |
| ToChars.MsbDigitsShape | include/armpp/util/to_chars.hpp:63-71 | a nonzero value's first digit is not `'0'`, and every character is a digit |
| ToChars.ReverseLsbDigits | include/armpp/util/to_chars.hpp:67-79 | reversing the least-significant-first loop output gives the most-significant-first numeral |
| ToChars.ReverseString | include/armpp/util/to_chars.hpp:8-16 | `reverse_string(first, last)` reverses exactly the inclusive range and keeps the rest |
| ToChars.BinaryLength | include/armpp/util/to_chars.hpp:31-48 | w binary digits with a space after every eighth from the right take w + (w-1)/8 characters |
| ToChars.BinaryStrip | include/armpp/util/to_chars.hpp:31-48 | without its spaces the binary text is the w low bits, most significant first |
| ToChars.ParseBinaryDigits | include/armpp/util/to_chars.hpp:34-43 | those digits read back as the value modulo 2^w |
| ToChars.BinaryGroups | include/armpp/util/to_chars.hpp:44-46 | the text is grouped in eights with one space between groups |
| ToChars.Pattern | include/armpp/util/to_chars.hpp:35 | the bits `(value >> k) & 1` of the promoted value form a pattern below 2^32 (2^64 for 64-bit types) |
| ToChars.PatternMod | include/armpp/util/to_chars.hpp:34-43 | below the promoted width the pattern and the value agree modulo 2^w |
| ToChars.BinaryValue | include/armpp/util/to_chars.hpp:31-48 | up to the type's width the binary digits are those of the unsigned counterpart; from there to the promoted width a negative value extends its sign |
| ToChars.BinaryChars | include/armpp/util/to_chars.hpp:31-48 | binary output is NUL-terminated, w + (w-1)/8 characters before the NUL, and reads back as the value modulo 2^w for any w up to the promoted width |
| ToChars.NumberTextReadsBack | include/armpp/util/to_chars.hpp:49-74 | the number text reads back as the value in decimal, and as its unsigned counterpart in octal or hexadecimal for a signed type |
| ToChars.UnsignedCounterpart | include/armpp/util/to_chars.hpp:56-59 | a signed type in octal or hexadecimal prints as its unsigned counterpart |
| ToChars.Core | include/armpp/util/to_chars.hpp:62-74 | the characters before padding are the number text reversed |
| ToChars.NegateAsWritten | include/armpp/util/to_chars.hpp:55 | `value = -value` converted back to the type negates every value but the minimum, which comes back as itself |
| ToChars.TextAsWritten | include/armpp/util/to_chars.hpp:50-74 | the text as written is the reversed stored characters; it equals the number text exactly unless the value is a signed minimum in decimal, and is never longer |
| ToChars.PadAsWrittenShape | include/armpp/util/to_chars.hpp:75-77 | as written, the fill loop pads while the text is shorter than the buffer and no longer than the width, reaching min(buffer, width + 1) |
| ToChars.PaddedCharsAsWritten | include/armpp/util/to_chars.hpp:75-81 | after the reversal the fill comes first, then the text as written, then NUL |
| ToChars.ToCharsAsWritten | include/armpp/util/to_chars.hpp:20-83 | `to_chars` as written: binary output as above, otherwise fill, the text as written and NUL with the written padding count |
| ToChars.PadFixedShape | include/armpp/util/to_chars.hpp:75-77 | the corrected fill loop pads the text to min(width, buffer - 1) characters |
| ToChars.PaddedChars | include/armpp/util/to_chars.hpp:75-81 | the corrected output is fill, text and NUL |
| ToChars.ToChars | include/armpp/util/to_chars.hpp:20-83 | corrected `to_chars`: when the text fits, the output including its NUL fits the buffer and is padded to max(text length, min(width, buffer - 1)) |
| ToChars.AsWrittenLength | include/armpp/util/to_chars.hpp:75-81 | the written output's length is padding + text as written + 1 |
| ToChars.IntendedLength | include/armpp/util/to_chars.hpp:75-81 | the corrected output's length is padding + text + 1 |
| ToChars.NulPastEnd | include/armpp/util/to_chars.hpp:75-81 | as written, with the width at least the buffer length minus one, the NUL lands one past the buffer; corrected, it is the last character |
| ToChars.NulPastEndExample | include/armpp/util/to_chars.hpp:75-81 | 5 in decimal with width 40 into a 33-character buffer writes 34 characters as written |
| ToChars.WidthPlusOne | include/armpp/util/to_chars.hpp:75-77 | as written, a short text is padded to width + 1 characters; corrected, to width |
| ToChars.MinimumAsWritten | include/armpp/util/to_chars.hpp:50-81 | as written, the minimum of `std::int8_t` or `std::int16_t` in decimal prints as fill, a lone `'-'` and NUL, which reads back as 0 |
| ToChars.DecimalReadsBack | include/armpp/util/to_chars.hpp:49-81 | with the sign handled as intended, the decimal text after the fill reads back as the value for every value of every type |
| ToChars.MinimumExample | include/armpp/util/to_chars.hpp:53-55 | `std::int8_t{-128}` prints as "-" as written and "-128" as intended |
| ToChars.AsPtrDiff | include/armpp/util/to_chars.hpp:89 | `reinterpret_cast<std::ptrdiff_t>` of a 32-bit address is a value whose unsigned counterpart is the address |
| ToChars.PointerPadding | include/armpp/util/to_chars.hpp:85-91 | an address with 8 hexadecimal digits prints as 9 characters with a leading `'0'` as written, and as its 8 digits when corrected |
| ToChars.PointerExample | include/armpp/util/to_chars.hpp:85-91 | 0x20000000 prints as "020000000" as written and "20000000" corrected |
| ToChars.PointerRoundTrip | include/armpp/util/to_chars.hpp:85-91 | corrected, any address prints as exactly 8 hexadecimal digits that read back as the address |
| ToChars.NumberTextLength | include/armpp/util/to_chars.hpp:49-74 | a number text in octal, decimal or hexadecimal has at most bits/2 + 1 characters |
| Traits.StaticSign | include/armpp/util/traits.hpp:17-18 | `static_sign` is -1 exactly for a negative argument and 1 otherwise |
| Traits.StaticAbs | include/armpp/util/traits.hpp:20-21 | `static_abs` is the magnitude |
| Traits.StaticMin | include/armpp/util/traits.hpp:32-33 | `static_min` is one of its arguments and no larger than either |
| Traits.TruncRem | include/armpp/util/traits.hpp:23-30 | C++ `%` has a smaller magnitude than the divisor and the dividend's sign |
| Traits.TruncDivRem | include/armpp/util/traits.hpp:23-30 | C++ `/` and `%` recombine to the dividend |
| Traits.GcdDivides | include/armpp/util/traits.hpp:23-30 | `static_gcd` divides both arguments |
| Traits.GcdGreatest | include/armpp/util/traits.hpp:23-30 | every common divisor divides `static_gcd` and is no larger |
| Traits.GcdOfMultiple | include/armpp/util/traits.hpp:23-30 | the gcd of a positive number and one of its multiples is the number |
| Traits.GcdExample | include/armpp/util/traits.hpp:48 | `static_gcd<100, 1000>` is 100 |
| Traits.MakeRatio | include/armpp/util/traits.hpp:42 | a normalised `std::ratio` has a positive denominator and the same value, stays positive, and is in lowest terms (its terms' gcd is 1) |
| Traits.CommonRatio | include/armpp/util/traits.hpp:35-43 | `common_ratio` of positive ratios is a positive ratio |
| Traits.CommonRatioOfWholePeriods | include/armpp/util/traits.hpp:35-43 | for whole periods a and b the common ratio is gcd(a, b), the greatest common divisor |
| Traits.CommonRatioExample | include/armpp/util/traits.hpp:49 | the common ratio of `kilo` and `mega` is `kilo` |
| Traits.RatioDivide | include/armpp/frequency.hpp:86 | `std::ratio_divide` is positive and has the quotient's value |
| Traits.MultipleRatio | include/armpp/frequency.hpp:86 | a ratio k·d / d normalises to k / 1 |
| Chrono.ToInt32 | include/armpp/chrono.hpp:7 | conversion to `std::int32_t` is in range, congruent modulo 2^32, and the identity on values in range |
| Chrono.DurationCast | include/armpp/frequency.hpp:138 | `duration_cast` is the truncated quotient of count · cf.num by cf.den, converted to `std::int32_t` |
| Chrono.DurationCastExact | include/armpp/frequency.hpp:138 | when the division is exact and fits, the cast loses no time |
| Chrono.NanoToMicro | include/armpp/chrono.hpp:63 | 1000 ns cast to microseconds is 1 µs |
| Frequency.CastFactor | include/armpp/frequency.hpp:86 | the cast factor `ratio_divide<Period, ToPeriod>` is positive with terms no larger than the periods |
| Frequency.CastFactorValue | include/armpp/frequency.hpp:86 | the cast factor's value is the quotient of the two periods |
| Frequency.FrequencyCast | include/armpp/frequency.hpp:81-89 | `frequency_cast` gives a valid frequency of the target period and keeps 0 at 0 |
| Frequency.CastCount | include/armpp/frequency.hpp:38-77 | the cast count is a `std::uint32_t` and 0 stays 0 |
| Frequency.CastBranches | include/armpp/frequency.hpp:38-77 | the three special cases of `frequency_cast_impl` give what the general formula gives |
| Frequency.CastValue | include/armpp/frequency.hpp:38-89 | the cast count is (count · cf.num mod 2^32) / cf.den |
| Frequency.CastIsFloor | include/armpp/frequency.hpp:38-89 | without overflow the cast count is the floor of the rate in the target period |
| Frequency.CastToSamePeriod | include/armpp/frequency.hpp:81-89 | casting to the frequency's own period is the identity |
| Frequency.CommonPeriod | include/armpp/frequency.hpp:30-33 | the common type's period divides both periods |
| Frequency.CastToDivisor | include/armpp/frequency.hpp:114-117 | converting to a period that divides the own period keeps the rate in hertz, when the product fits |
| Frequency.CastToDivisorWhenFits | include/armpp/frequency.hpp:114-117 | the same, whenever the rate in hertz fits 32 bits |
| Frequency.CompareByRate | include/armpp/frequency.hpp:227-245 | `==` and `<` compare the rates in hertz, when they fit 32 bits |
| Frequency.EqualExample | include/armpp/frequency.hpp:340 | 48 MHz equals 48000 kHz |
| Frequency.CommonPeriodExample | include/armpp/frequency.hpp:337 | the common type of megahertz and kilohertz is kilohertz |
| Frequency.DivScalar | include/armpp/frequency.hpp:272-277 | frequency / number is in hertz and is the rate divided by the number |
| Frequency.DivScalarExample | include/armpp/frequency.hpp:339 | 480 MHz / 48 equals 10 MHz |
| Frequency.Quotient | include/armpp/frequency.hpp:279-287 | the unsigned quotient is the floor of x / y |
| Frequency.DivFreqInHertz | include/armpp/frequency.hpp:279-287 | frequency / frequency is the quotient of the rates in hertz |
| Frequency.Add | include/armpp/frequency.hpp:247-255 | `+` is in the common period and adds the rates, when the sum fits |
| Frequency.AddFits | include/armpp/frequency.hpp:247-255 | the two cast counts add without wrapping when the sum of the rates fits |
| Frequency.MulScalar | include/armpp/frequency.hpp:257-270 | frequency times a number keeps the period and multiplies the count, when it fits |
| Frequency.AddAssign | include/armpp/frequency.hpp:178-183 | `+=` adds the other count modulo 2^32 |
| Frequency.SubAssign | include/armpp/frequency.hpp:184-189 | `-=` subtracts the other count modulo 2^32 |
| Frequency.Negate | include/armpp/frequency.hpp:148-152 | unary minus is the additive inverse modulo 2^32 |
| Frequency.Increment | include/armpp/frequency.hpp:154-164 | `++` adds 1, wrapping to 0 |
| Frequency.Decrement | include/armpp/frequency.hpp:166-176 | `--` subtracts 1, wrapping to 2^32 - 1 |
| Frequency.DivAssign | include/armpp/frequency.hpp:197-202 | `/=` is the floor quotient |
| Frequency.RemAssign | include/armpp/frequency.hpp:204-215 | `%=` leaves a remainder below the divisor that differs from the count by a multiple of it |
| Frequency.ArithmeticInverses | include/armpp/frequency.hpp:148-189 | `-=` undoes `+=`, `--` undoes `++`, and negating twice is the identity |
| Frequency.SingleCycle | include/armpp/frequency.hpp:100-103 | `single_cycle` is 1000 units of the duration period |
| Frequency.PeriodDuration | include/armpp/frequency.hpp:131-139 | `period_duration` is 0 for a zero frequency and otherwise the cast single cycle divided by the count |
| Frequency.OwnPeriodCast | include/armpp/frequency.hpp:100-138 | casting the single cycle to its own period keeps 1000 |
| Frequency.PeriodDurationExamples | include/armpp/frequency.hpp:328-344 | megahertz and kilohertz have nano- and microsecond periods; 2 MHz lasts 500 ns and 200 kHz 5 µs |
| Frequency.HertzPeriodExample | include/armpp/frequency.hpp:327-345 | hertz has a millisecond period and 1000000 Hz lasts 1 µs |
| Frequency.SingleCycleExample | include/armpp/frequency.hpp:342 | the megahertz single cycle is 1000 ns, equal to 1 µs |
| Frequency.GetFrequency | include/armpp/frequency.hpp:289-296 | `get_frequency` is one second in the duration's period divided by the count, in hertz modulo 2^32 |
| Frequency.ToUint32 | include/armpp/frequency.hpp:294-295 | conversion to `std::uint32_t` is the value modulo 2^32 |
| Frequency.GetFrequencyExample | include/armpp/frequency.hpp:347 | `get_frequency(200 ms)` is 5 Hz |
| Frequency.CycleCast | include/armpp/frequency.hpp:100-103 | when one cycle is a whole number k of the target units, casting `single_cycle` to them gives k |
| Frequency.PeriodDurationExact | include/armpp/frequency.hpp:131-139 | when one cycle is a whole number k of the target units, `period_duration` is k divided by the count |
| Frequency.PeriodDurationFloor | include/armpp/frequency.hpp:100-139 | when the target's denominator is a whole multiple of period·num (`to.den % (f.period·to.num) == 0`), `period_duration` is the length of one cycle at the rate in hertz, in the target units, rounded down: n·hz·num ≤ den < (n+1)·hz·num |
| Frequency.SecondCast | include/armpp/frequency.hpp:289-294 | when a second is a whole number s of the duration's units, casting one second to them gives s |
| Frequency.GetFrequencyExact | include/armpp/frequency.hpp:289-296 | when a second is s units and the count divides s, `get_frequency` is s / count hertz |
| Frequency.GetFrequencyOfPeriod | include/armpp/frequency.hpp:289-296 | `get_frequency(f.period_duration<D>())` gives back f's rate in hertz whenever a cycle is a whole number of D units that the count divides |
| SystemClock.Initial | src/system.cpp:21-27 | the static clock starts with tick 0 and frequency 0 |
| SystemClock.Instance | src/system.cpp:29-33 | `instance()` exposes the same tick and frequency as `mutable_instance()` |
| SystemClock.IncrementTick | include/armpp/hal/system.hpp:28-32 | `increment_tick` adds 1 to the tick, wrapping to 0, and keeps the frequency |
| SystemClock.Tick | include/armpp/hal/system.hpp:34-38 | `tick()` is the instance's tick, below 2^32 |
| SystemClock.SystemFrequency | include/armpp/hal/system.hpp:40-44 | `system_frequency()` is a valid hertz frequency |
| SystemClock.TicksPerMillisecond | include/armpp/hal/system.hpp:46-50 | `ticks_per_millisecond` is the whole number of cycles in a millisecond |
| SystemClock.Now | include/armpp/hal/system.hpp:56-60 | `now()` is the tick as `std::int32_t` milliseconds: equal below 2^31 and negative from there |
| SystemClock.SetFrequency | include/armpp/hal/system.hpp:71-76 | the setter keeps the tick and stores the rate in hertz when it fits |
| SystemClock.SystemInit | src/system.cpp:3-10 | `system_init` sets 54 MHz, 54000 ticks per millisecond, and keeps the tick |
| SystemClock.SystemTick | src/system.cpp:12-17 | the SysTick handler adds one tick modulo 2^32 and keeps the frequency |
| SystemClock.TickAdvancesNow | include/armpp/hal/system.hpp:56-60 | one interrupt moves `now()` forward by one millisecond modulo 2^32, exactly below 2^31 |
| SystemClock.RunCountsInterrupts | src/system.cpp:3-17 | after any sequence of events the tick counts the interrupts modulo 2^32, and the frequency is 54 MHz once `system_init` has run |
| SystemClock.InitFromStart | src/system.cpp:3-27 | from the static instance `system_init` gives tick 0, 54000 ticks per millisecond and `now()` 0 ms |
| SystemClock.SettersIndependent | include/armpp/hal/system.hpp:71-79 | setting the frequency and counting a tick commute, setting twice is setting once, and 54 MHz equals `system_init` |
| Flags.Empty | include/armpp/util/flags.hpp:47 | a default `flags` has value 0 |
| Flags.FromEnum | include/armpp/util/flags.hpp:48-49 | `flags(e)` holds the enumerator's value |
| Flags.OrAll | include/armpp/util/flags.hpp:15-22 | `or_` sets exactly the bits set in some argument |
| Flags.FromEnums | include/armpp/util/flags.hpp:51-55 | the variadic constructor holds exactly the bits of its arguments |
| Flags.FromEnumsByUnion | include/armpp/util/flags.hpp:51-55 | building from n enumerators is building from n-1 and OR-ing in the last |
| Flags.IsSet | include/armpp/util/flags.hpp:79 | `bool(f)` holds exactly when the value is nonzero |
| Flags.None | include/armpp/util/flags.hpp:86-90 | `!f` holds exactly when the value is 0 |
| Flags.DefaultIsEmpty | include/armpp/util/flags.hpp:47-90 | a default `flags` is empty under both tests |
| Flags.NotIsNegation | include/armpp/util/flags.hpp:79-90 | `!f` is the negation of `bool(f)` |
| Flags.Union | include/armpp/util/flags.hpp:104-109 | `|=` sets the bits set in either operand |
| Flags.Intersect | include/armpp/util/flags.hpp:118-123 | `&=` keeps the bits set in both |
| Flags.Toggle | include/armpp/util/flags.hpp:132-137 | `^=` sets the bits set in exactly one |
| Flags.UnionEnum | include/armpp/util/flags.hpp:111-116 | `|= e` sets the bits of the set or the enumerator |
| Flags.IntersectEnum | include/armpp/util/flags.hpp:125-130 | `&= e` keeps the bits of both |
| Flags.ToggleEnum | include/armpp/util/flags.hpp:138-143 | `^= e` sets the bits of exactly one |
| Flags.Complement | include/armpp/util/flags.hpp:98-102 | `~` flips every bit |
| Flags.ShiftRight | include/armpp/util/flags.hpp:145-151 | `>>= k` divides the value by 2^k |
| Flags.ShiftLeft | include/armpp/util/flags.hpp:153-159 | `<<= k` keeps the low 32-k bits and multiplies by 2^k |
| Flags.OperatorsCommute | include/armpp/util/flags.hpp:168-235 | `|`, `&` and `^` are commutative, and the enumerator-first forms equal the set forms |
| Flags.Involutions | include/armpp/util/flags.hpp:98-143 | toggling twice or complementing twice restores the set, and toggling with itself empties it |
| Flags.UnionKeepsSet | include/armpp/util/flags.hpp:79-109 | adding flags to a non-empty set keeps it non-empty |
| Flags.ShiftRoundTrip | include/armpp/util/flags.hpp:145-159 | shifting left then right by k restores a value below 2^(32-k) |
| Flags.Compare | include/armpp/util/flags.hpp:57-59 | the defaulted `<=>` orders the underlying values |
| Flags.CompareEnum | include/armpp/util/flags.hpp:67-71 | `<=> e` is less exactly when below the enumerator and equivalent exactly when equal |
| Flags.CompareIsOrder | include/armpp/util/flags.hpp:57-71 | equivalence is equality, swapping operands swaps less and greater, and comparing with e is comparing with `flags(e)` |

## Left out

- Volatile and non-volatile register access: sequentially both read and write the same word, so one mode is modelled.
- Hardware reactions to register writes: write-one-to-set and write-one-to-clear registers, counters that count, flags the peripheral raises. Memory holds what the program writes.
- Concurrency: interrupts preempting a read-modify-write are not modelled.
- Peripheral base addresses and `handle_base`: a peripheral is a value, not memory at an address.
- Busy waits: the UART's blocking `put` and `get`, and the timer's delay loop, wait on a hardware flag; only the register effect of one pass is modelled.
- `uart_io` and the stream operators around the UART: they forward to `write` and the setters, which are modelled.
- `std::function` callbacks: a slot records only whether each callback is present, and `process_interrupt` reports which callback it would run.
- Pointer arithmetic in `to_chars`: `buffer + width` with a negative width points before the buffer; the model compares character counts.
- ToChars.BinaryChars: a binary width above the promoted type's bits is excluded, because the shift `value >> (width - 1)` is then undefined.
- ToChars.ToChars: excludes the same binary widths, for the same reason.
- ToChars.ToCharsAsWritten: also excludes, in decimal, the `std::int32_t` minimum (`value = -value` overflows) and every signed 64-bit value (the sign test shifts an `int` by 63); both are undefined behaviour.
- Uart.WriteBufferFits: excludes binary widths above the promoted type's bits, as `to_chars` does.
- Uart.WriteSendsBody: excludes the same binary widths.
- Uart.WriteNumber: excludes the same binary widths.
- Uart.WriteNumberAsWritten: defined only where what `to_chars` stores fits the `bit_count + 1` buffer; past it the write overruns the stack buffer, which is undefined behaviour (the overrun itself is stated by Uart.BinaryOverflowsBuffer and ToChars.NulPastEnd).
- The SCB's priority and priority-grouping member functions, and the NVIC's priority-grouping wrappers: `get_irq_priority` and `set_irq_priority` return a delegated request for a system exception instead of calling into the SCB.
- `flags::value()` and `flags::underlying()`: plain accessors of the stored value.
- Flag sets over underlying types other than 32-bit unsigned.
- Frequencies whose period is not a whole number of hertz, and durations or periods whose terms exceed 2^32.
- Frequency.DivFreq, Frequency.ScalarMul, Frequency.Equal and Frequency.Less carry no contract of their own; the lemmas DivFreqInHertz, MulScalar and CompareByRate state their meaning.
- The `clock` singleton: it is a value that each entry point takes and returns.
- SystemClock.SystemInit: `system_init` passes a plain integer to a setter that takes a `frequency`; the argument is read as hertz.
- Chrono.DurationCast: requires the `std::intmax_t` product to fit 64 bits, because an overflow there is undefined behaviour.
- Frequency.Add: states the sum only when it fits 32 bits; otherwise the count wraps, which the definition computes but no lemma describes.
- Frequency.CompareByRate: relates `==` and `<` to the rates in hertz only when those fit 32 bits.
- Frequency.CastIsFloor: states the floor only when the scaled count does not wrap.
- Frequency.CastToDivisor: keeps the rate only when the product fits 32 bits.
- Frequency.MulScalar: states the product only when it fits 32 bits.
- Nvic.DisableIrq: states only which register is written, since clearing the enable bit is a hardware reaction.
- Uart.ConfigureBaudFromZero: states the divider only from a zero divider, because the masked store ORs into the old value.

## Findings

| source | as written | input that shows it | evidently intended | confidence | as-written member | corrected member |
|---|---|---|---|---|---|---|
| include/armpp/hal/registers.hpp:412-416 | `operator==(value_type)` compares `get()` with itself, so it is always true; `!=` inherits it (the free `value < field`, which would too, does not compile) | a 4-bit field holding 3 compared with 5 | compare `get()` with the argument | not executed | Registers.FieldEqualsValueAsWritten | Registers.FieldEqualsValue |
| include/armpp/hal/registers.hpp:924-925 | the bound `FieldCount * FieldStorageSize + InitialOffset <= RegisterCount * 32` admits `FieldStorageSize == 0` with an offset of 32 | one register, one element, `FieldStorageSize == 0`, `InitialOffset == 32`: element 0 is in word 1 of 1 | also require the last element to start inside the words, which any nonzero stride implies | not executed | FieldArrays.ZeroStrideEscapes | FieldArrays.WordIndexInRange |
| include/armpp/util/to_chars.hpp:75-81 | the fill loop may fill the whole buffer, and the NUL goes one past its end | 5 in decimal, width 40, a 33-character buffer: 34 characters written | stop one character early, so the NUL is the last character | not executed | ToChars.ToCharsAsWritten | ToChars.ToChars |
| include/armpp/util/to_chars.hpp:75-77 | `current <= buffer + width` pads to width + 1 characters | the pointer overload with width 8 prints 0x20000000 as "020000000" | pad to exactly `width` characters | not executed | ToChars.PointerToCharsAsWritten | ToChars.PointerToChars |
| include/armpp/hal/uart.hpp:270-279 | the buffer has `bit_count + 1` characters, but binary output adds a space between groups of eight, and a width may exceed the type's bits | a `std::uint16_t` in binary: 18 characters into a 17-character buffer; a `std::uint8_t` 5 at width 16: 18 characters into 9 | size the buffer for the widest binary output: the promoted type's bits, its group spaces and the NUL | not executed | Uart.BinaryOverflowsBuffer | Uart.WriteBufferFits |
| include/armpp/util/to_chars.hpp:53-55 | the minimum of a narrow signed type negates, in `int`, to a value that converts back to the minimum; no digit is stored and the output is a lone `'-'` | `std::int8_t{-128}` in decimal prints "-" | print the magnitude, "-128" | not executed | ToChars.MinimumAsWritten | ToChars.DecimalReadsBack |
| include/armpp/util/to_chars.hpp:75-77 | the integer padding loop runs while `current <= buffer + width`, one step past the width, and `uart::write(Integer, ...)` sends all of it | a `std::uint32_t` 5 in decimal with width 3 is sent as "   5" | pad to exactly `width` characters, "  5" | not executed | Uart.WriteNumberAsWritten | Uart.WriteNumber |
| include/armpp/hal/uart.hpp:69-72 | all four clear fields of `interrupt_register` sit on bit 0, so `clear_rx_interrupt` clears the transmit interrupt | `process_interrupt` taking a received byte writes bit 0 and leaves the receive interrupt pending | each clear field on the bit of its flag | not executed | Uart.ProcessInterruptAsWritten | Uart.ProcessInterrupt |
| src/uart.cpp:142-148 | `uart1_handler` builds its handle from `uart0_address` | a byte waiting on the second UART with a receive callback: no call is made | use `uart1_address` | not executed | Uart.InterruptHandlerAsWritten | Uart.InterruptHandler |
| src/uart.cpp:69-74 | `bauddiv_` is a bitwise-logic field, so `bauddiv_ = 0` ORs in nothing and the new divisor is ORed into the old one | a divider holding 1 reconfigured for a quotient of 2 reads 3 | clear the divider first, so it holds the new divisor alone | not executed | Uart.ReconfigureOrsDivisors | Uart.ConfigureCleared |
| include/armpp/hal/scb.hpp:86-103 | `pendsvclr`, `pendsvset` and `nmipendset` are declared on bits 25, 26 and 26, the SysTick clear and set bits | setting `pendsvset` on a zero register raises bit 26, which pends SysTick, and not bit 28 | PENDSVCLR at bit 27, PENDSVSET at bit 28 and NMIPENDSET at bit 31, as in the ARMv7-M architecture and the fields' own comments | not executed | Scb.PendSvSetPendsSysTick | Scb.InterruptControlStateIntended |
| include/armpp/hal/scb.hpp:191 | `edniannes` is declared on bit 2, the `sysresetreq` bit | a register with bit 2 set reads as big-endian | ENDIANNESS at bit 15, as in the ARMv7-M architecture | not executed | Scb.EndiannessReadsResetRequest | Scb.AppInterruptAndResetControlIntended |
| include/armpp/hal/scb.hpp:493 | `dibyzero` is declared on bit 15, the `bfarvalid` bit | a register with only BFARVALID set reads as a divide-by-zero fault | DIVBYZERO at bit 25, as in the ARMv7-M architecture | not executed | Scb.DivByZeroReadsBusFault | Scb.ConfigurableFaultStatusIntended |

=== FILE: bits.dfy ===
/**
 * 32-bit register words and the compile-time bit masks of `util/mask.hpp`.
 *
 * A word is a sequence of 32 booleans: index `i` is bit `i`, so index 0 is the
 * least significant bit.  The bitwise operators are defined bit by bit, and
 * `ToNat`/`FromNat` connect a word with the unsigned number it encodes.
 */
module Bits {

  const WordBits: nat := 32

  type Word = w: seq<bool> | |w| == WordBits witness seq(32, _ => false)

  function Pow2(n: nat): (r: nat)
    ensures r >= 1
  {
    if n == 0 then 1 else 2 * Pow2(n - 1)
  }

  /** 2^32: the modulus of `std::uint32_t` arithmetic. */
  const U32: nat := 0x1_0000_0000

  lemma Pow2Of8()
    ensures Pow2(7) == 128 && Pow2(8) == 256
  {
    assert Pow2(4) == 16;
  }

  lemma Pow2Of32()
    ensures Pow2(32) == U32
  {
    assert Pow2(2) == 4;
    assert Pow2(4) == 16 by { Pow2Add(2, 2); }
    assert Pow2(8) == 256 by { Pow2Add(4, 4); }
    assert Pow2(16) == 0x1_0000 by { Pow2Add(8, 8); }
    Pow2Add(16, 16);
  }

  // ---------------------------------------------------------------------------
  // Words and bitwise operators

  function Zero(): Word { seq(32, _ => false) }

  function Falses(n: nat): (r: seq<bool>)
    ensures |r| == n
  {
    seq(n, _ => false)
  }

  function Trues(n: nat): (r: seq<bool>)
    ensures |r| == n
  {
    seq(n, _ => true)
  }

  /** The word whose only set bit is bit 0 when `b` holds: a `bool` stored in a register. */
  function FromBool(b: bool): Word
  {
    seq(32, i requires 0 <= i < 32 => i == 0 && b)
  }

  function And(a: Word, b: Word): Word
  {
    seq(32, i requires 0 <= i < 32 => a[i] && b[i])
  }

  function Or(a: Word, b: Word): Word
  {
    seq(32, i requires 0 <= i < 32 => a[i] || b[i])
  }

  function Xor(a: Word, b: Word): Word
  {
    seq(32, i requires 0 <= i < 32 => a[i] != b[i])
  }

  function Not(a: Word): Word
  {
    seq(32, i requires 0 <= i < 32 => !a[i])
  }

  /** `w << k` on a 32-bit unsigned word: bits shifted past bit 31 are lost. */
  function Shl(w: Word, k: nat): Word
    requires k <= 32
  {
    seq(32, i requires 0 <= i < 32 => i >= k && w[i - k])
  }

  /** `w >> k` on a 32-bit unsigned word: zeros come in at the top. */
  function Shr(w: Word, k: nat): Word
    requires k <= 32
  {
    seq(32, i requires 0 <= i < 32 => i + k < 32 && w[i + k])
  }

  // ---------------------------------------------------------------------------
  // bit_sequence and bit_mask

  /**
   * `bit_sequence<Length>`: the primary template is `(bit_sequence<Length-1> << 1) | 1`
   * and the only specialisation is `Length == 1`, so a length of 0 never reaches a
   * base case and is rejected together with lengths above the word width.
   */
  function BitSequence(len: nat): Word
    requires 1 <= len <= WordBits
  {
    if len == 1 then FromBool(true) else Or(Shl(BitSequence(len - 1), 1), FromBool(true))
  }

  /** `bit_mask<Offset, Length>` is `bit_sequence<Length> << Offset`, for `Offset + Length <= 32`. */
  function BitMask(off: nat, len: nat): Word
    requires 1 <= len && off + len <= WordBits
  {
    Shl(BitSequence(len), off)
  }

  /** The low `len` bits of `v`, as a field of width `len` keeps them. */
  function LowBits(v: Word, len: nat): Word
    requires 1 <= len <= WordBits
  {
    And(v, BitSequence(len))
  }

  function PopCount(s: seq<bool>): nat
  {
    if |s| == 0 then 0 else (if s[0] then 1 else 0) + PopCount(s[1..])
  }

  lemma {:induction false} BitSequenceBits(len: nat)
    requires 1 <= len <= WordBits
    ensures forall i | 0 <= i < 32 :: BitSequence(len)[i] <==> i < len
  {
    if len > 1 {
      BitSequenceBits(len - 1);
    }
  }

  /** The set bits of `bit_mask<Offset, Length>` are exactly those of `[Offset, Offset + Length)`. */
  lemma BitMaskBits(off: nat, len: nat)
    requires 1 <= len && off + len <= WordBits
    ensures forall i | 0 <= i < 32 :: BitMask(off, len)[i] <==> off <= i < off + len
  {
    BitSequenceBits(len);
  }

  lemma LowBitsBits(v: Word, len: nat)
    requires 1 <= len <= WordBits
    ensures forall i | 0 <= i < 32 :: LowBits(v, len)[i] <==> i < len && v[i]
  {
    BitSequenceBits(len);
  }

  lemma BitMaskAsRuns(off: nat, len: nat)
    requires 1 <= len && off + len <= WordBits
    ensures BitMask(off, len) == Falses(off) + Trues(len) + Falses(32 - off - len)
  {
    BitMaskBits(off, len);
  }

  lemma {:induction false} PopCountAppend(a: seq<bool>, b: seq<bool>)
    ensures PopCount(a + b) == PopCount(a) + PopCount(b)
  {
    if |a| > 0 {
      var c := a + b;
      assert c[0] == a[0];
      assert c[1..] == a[1..] + b;
      PopCountAppend(a[1..], b);
      assert PopCount(c) == (if c[0] then 1 else 0) + PopCount(c[1..]);
    } else {
      assert a + b == b;
    }
  }

  lemma {:induction false} PopCountRuns(n: nat)
    ensures PopCount(Falses(n)) == 0 && PopCount(Trues(n)) == n
  {
    if n > 0 {
      assert Falses(n)[1..] == Falses(n - 1);
      assert Trues(n)[1..] == Trues(n - 1);
      PopCountRuns(n - 1);
    }
  }

  /** `bit_mask<Offset, Length>` has exactly `Length` set bits. */
  lemma BitMaskPopCount(off: nat, len: nat)
    requires 1 <= len && off + len <= WordBits
    ensures PopCount(BitMask(off, len)) == len
  {
    BitMaskAsRuns(off, len);
    PopCountAppend(Falses(off) + Trues(len), Falses(32 - off - len));
    PopCountAppend(Falses(off), Trues(len));
    PopCountRuns(off);
    PopCountRuns(len);
    PopCountRuns(32 - off - len);
  }

  // ---------------------------------------------------------------------------
  // Numeric meaning of a word

  /** The unsigned number a bit sequence encodes, least significant bit first. */
  function ToNat(s: seq<bool>): nat
  {
    if |s| == 0 then 0 else (if s[0] then 1 else 0) + 2 * ToNat(s[1..])
  }

  function NatBits(n: nat, len: nat): (r: seq<bool>)
    ensures |r| == len
  {
    if len == 0 then [] else [n % 2 == 1] + NatBits(n / 2, len - 1)
  }

  /** The word holding `n` truncated to 32 bits, as `static_cast<std::uint32_t>` does. */
  function FromNat(n: nat): Word
  {
    NatBits(n, 32)
  }

  /** Division and remainder are determined by any decomposition `x + m * y` with `x < m`. */
  lemma DivModUnique(x: nat, y: nat, m: nat)
    requires x < m
    ensures (x + m * y) % m == x && (x + m * y) / m == y
  {
    var n := x + m * y;
    var q := n / m;
    assert n == m * q + n % m;
    MulStep(m, q, y);
    MulStep(m, y, q);
  }

  /** A larger multiplier adds at least one more `m`. */
  lemma MulStep(m: nat, a: nat, b: nat)
    ensures a > b ==> m * a >= m * b + m
  {
    if a > b {
      var d := a - b;
      assert m * a == m * b + m * d;
      MulAtLeast(m, d);
    }
  }

  lemma MulAtLeast(m: nat, d: nat)
    requires d >= 1
    ensures m * d >= m
  {
  }

  lemma Regroup(h: nat, x: nat, p: nat, t: nat)
    ensures h + 2 * (x + p * t) == (h + 2 * x) + (2 * p) * t
  {
  }

  lemma {:induction false} ToNatAppend(a: seq<bool>, b: seq<bool>)
    ensures ToNat(a + b) == ToNat(a) + Pow2(|a|) * ToNat(b)
  {
    if |a| > 0 {
      var c := a + b;
      assert c[0] == a[0];
      assert c[1..] == a[1..] + b;
      ToNatAppend(a[1..], b);
      var h := if a[0] then 1 else 0;
      assert ToNat(c) == h + 2 * (ToNat(a[1..]) + Pow2(|a| - 1) * ToNat(b));
      Regroup(h, ToNat(a[1..]), Pow2(|a| - 1), ToNat(b));
    } else {
      assert a + b == b;
    }
  }

  lemma {:induction false} ToNatBound(s: seq<bool>)
    ensures ToNat(s) < Pow2(|s|)
  {
    if |s| > 0 {
      ToNatBound(s[1..]);
    }
  }

  lemma {:induction false} ToNatFalses(n: nat)
    ensures ToNat(Falses(n)) == 0
  {
    if n > 0 {
      assert Falses(n)[1..] == Falses(n - 1);
      ToNatFalses(n - 1);
    }
  }

  lemma {:induction false} ToNatTrues(n: nat)
    ensures ToNat(Trues(n)) + 1 == Pow2(n)
  {
    if n > 0 {
      assert Trues(n)[1..] == Trues(n - 1);
      ToNatTrues(n - 1);
    }
  }

  /** Keeping the low `n` bits of a sequence is taking its value modulo 2^n. */
  lemma ToNatPrefixSuffix(s: seq<bool>, n: nat)
    requires n <= |s|
    ensures ToNat(s[..n]) == ToNat(s) % Pow2(n)
    ensures ToNat(s[n..]) == ToNat(s) / Pow2(n)
  {
    assert s == s[..n] + s[n..];
    ToNatAppend(s[..n], s[n..]);
    ToNatBound(s[..n]);
    DivModUnique(ToNat(s[..n]), ToNat(s[n..]), Pow2(n));
  }

  lemma Pow2Add(a: nat, b: nat)
    ensures Pow2(a + b) == Pow2(a) * Pow2(b)
  {
    if a > 0 {
      Pow2Add(a - 1, b);
    }
  }

  lemma ModDoubling(n: nat, p: nat)
    requires p >= 1
    ensures n % (2 * p) == n % 2 + 2 * ((n / 2) % p)
  {
    var y := (n / 2) / p;
    var r := (n / 2) % p;
    assert n / 2 == p * y + r;
    assert n == 2 * (n / 2) + n % 2;
    assert n == (n % 2 + 2 * r) + (2 * p) * y;
    DivModUnique(n % 2 + 2 * r, y, 2 * p);
  }

  /** Round trip from numbers: encoding keeps `n` modulo 2^len. */
  lemma {:induction false} NatBitsValue(n: nat, len: nat)
    ensures ToNat(NatBits(n, len)) == n % Pow2(len)
  {
    if len > 0 {
      var r := NatBits(n, len);
      assert r[1..] == NatBits(n / 2, len - 1);
      NatBitsValue(n / 2, len - 1);
      ModDoubling(n, Pow2(len - 1));
    }
  }

  /** Round trip from bit sequences: decoding then encoding gives the sequence back. */
  lemma {:induction false} NatBitsOfToNat(s: seq<bool>)
    ensures NatBits(ToNat(s), |s|) == s
  {
    if |s| > 0 {
      var h := if s[0] then 1 else 0;
      var t := ToNat(s[1..]);
      assert ToNat(s) == h + 2 * t;
      DivModUnique(h, t, 2);
      NatBitsOfToNat(s[1..]);
      NatBitsStep(ToNat(s), |s|);
    }
  }

  lemma FromNatToNat(n: nat)
    ensures ToNat(FromNat(n)) == n % U32
  {
    NatBitsValue(n, 32);
    Pow2Of32();
  }

  lemma ToNatFromNat(w: Word)
    ensures FromNat(ToNat(w)) == w
  {
    NatBitsOfToNat(w);
  }

  /** A word encodes a number below 2^32. */
  lemma WordBound(w: Word)
    ensures ToNat(w) < U32
  {
    ToNatBound(w);
    Pow2Of32();
  }

  lemma FromBoolValue(b: bool)
    ensures ToNat(FromBool(b)) == if b then 1 else 0
  {
    assert FromBool(b) == [b] + Falses(31);
    ToNatAppend([b], Falses(31));
    ToNatFalses(31);
  }

  /** One step of the encoding: bit 0 is the parity, the rest encodes the half. */
  lemma NatBitsStep(n: nat, len: nat)
    requires len > 0
    ensures NatBits(n, len)[0] == (n % 2 == 1)
    ensures NatBits(n, len)[1..] == NatBits(n / 2, len - 1)
  {
  }

  /** A run of bits between zero bits is worth its own value shifted up by the low zeros. */
  lemma PaddedValue(k: nat, b: seq<bool>, m: nat)
    ensures ToNat(Falses(k) + b + Falses(m)) == ToNat(b) * Pow2(k)
  {
    assert Falses(k) + b + Falses(m) == Falses(k) + (b + Falses(m));
    ZerosThen(k, b + Falses(m));
    ToNatAppend(b, Falses(m));
    ToNatFalses(m);
  }

  /** Zero low bits in front shift the value of the rest up by their count. */
  lemma ZerosThen(k: nat, b: seq<bool>)
    ensures ToNat(Falses(k) + b) == ToNat(b) * Pow2(k)
  {
    ToNatAppend(Falses(k), b);
    ToNatFalses(k);
  }

  /** `w << k` multiplies by 2^k and drops what overflows 32 bits. */
  lemma ShlValue(w: Word, k: nat)
    requires k <= 32
    ensures ToNat(Shl(w, k)) == (ToNat(w) % Pow2(32 - k)) * Pow2(k)
  {
    var low := w[..32 - k];
    assert Shl(w, k) == Falses(k) + low;
    ZerosThen(k, low);
    ToNatPrefixSuffix(w, 32 - k);
  }

  /** `w >> k` divides by 2^k. */
  lemma ShrValue(w: Word, k: nat)
    requires k <= 32
    ensures ToNat(Shr(w, k)) == ToNat(w) / Pow2(k)
  {
    assert Shr(w, k) == w[k..] + Falses(k);
    ToNatAppend(w[k..], Falses(k));
    ToNatFalses(k);
    ToNatPrefixSuffix(w, k);
  }

  /** Keeping the low `len` bits is reduction modulo 2^len. */
  lemma LowBitsValue(v: Word, len: nat)
    requires 1 <= len <= WordBits
    ensures ToNat(LowBits(v, len)) == ToNat(v) % Pow2(len)
  {
    LowBitsBits(v, len);
    assert LowBits(v, len) == v[..len] + Falses(32 - len);
    ToNatAppend(v[..len], Falses(32 - len));
    ToNatFalses(32 - len);
    ToNatPrefixSuffix(v, len);
  }

  /** `bit_sequence<Length>` is 2^Length - 1. */
  lemma BitSequenceValue(len: nat)
    requires 1 <= len <= WordBits
    ensures ToNat(BitSequence(len)) + 1 == Pow2(len)
  {
    BitSequenceBits(len);
    assert BitSequence(len) == Trues(len) + Falses(32 - len);
    OnesThenZeros(len, 32 - len);
  }

  /** `bit_mask<Offset, Length>` is (2^Length - 1) * 2^Offset. */
  lemma BitMaskValue(off: nat, len: nat)
    requires 1 <= len && off + len <= WordBits
    ensures ToNat(BitMask(off, len)) == (Pow2(len) - 1) * Pow2(off)
  {
    BitMaskAsRuns(off, len);
    var ones := Trues(len) + Falses(32 - off - len);
    assert BitMask(off, len) == Falses(off) + ones;
    ZerosThen(off, ones);
    OnesThenZeros(len, 32 - off - len);
    var t := ToNat(ones);
    assert ToNat(BitMask(off, len)) == t * Pow2(off);
  }

  /** `n` one bits followed by zeros are worth 2^n - 1. */
  lemma OnesThenZeros(n: nat, m: nat)
    ensures ToNat(Trues(n) + Falses(m)) + 1 == Pow2(n)
  {
    ToNatAppend(Trues(n), Falses(m));
    var z := ToNat(Falses(m));
    ToNatFalses(m);
    assert Pow2(n) * z == 0;
    ToNatTrues(n);
  }

  /** The static assertions of `mask.hpp`. */
  lemma MaskConstants()
    ensures ToNat(BitSequence(1)) == 1
    ensures ToNat(BitSequence(3)) == 7
    ensures ToNat(BitMask(0, 2)) == 3
    ensures ToNat(BitMask(3, 5)) == 0xF8
  {
    assert Pow2(1) == 2 && Pow2(2) == 4 && Pow2(3) == 8;
    assert Pow2(5) == 32 by { Pow2Add(3, 2); }
    BitSequenceValue(1);
    BitSequenceValue(3);
    BitMaskValue(0, 2);
    BitMaskValue(3, 5);
  }
}

=== FILE: chrono.dfy ===
/**
 * The durations of `chrono.hpp`, as far as `frequency` and the system clock use them:
 * a `std::int32_t` count of some period, and `std::chrono::duration_cast` between
 * periods, which computes in `std::intmax_t` and truncates toward zero.
 */
module Chrono {
  import opened Bits
  import opened Traits

  const I32Min: int := -0x8000_0000
  const I32Limit: int := 0x8000_0000
  const I64Limit: int := 0x8000_0000_0000_0000

  predicate InInt32(x: int)
  {
    I32Min <= x < I32Limit
  }

  predicate InInt64(x: int)
  {
    -I64Limit <= x < I64Limit
  }

  /** The conversion of an integer to `std::int32_t`: the value modulo 2^32, in two's complement. */
  function ToInt32(x: int): (r: int)
    ensures InInt32(r)
    ensures (x - r) % U32 == 0
    ensures InInt32(x) ==> r == x
  {
    var m := x % U32;
    if m < I32Limit then m else m - U32
  }

  /** `chrono::duration<Period>`: an `std::int32_t` count of `Period`. */
  datatype Duration = Duration(count: int, period: Ratio)

  predicate ValidDuration(d: Duration)
  {
    InInt32(d.count) && PositiveRatio(d.period)
  }

  const Milli := Ratio(1, 1000)
  const Micro := Ratio(1, 1000_000)
  const Nano := Ratio(1, 1000_000_000)
  const Second := Ratio(1, 1)

  /**
   * `std::chrono::duration_cast<ToDur>`: with `cf = ratio_divide<Period, ToPeriod>`, the
   * count is copied when `cf` is 1, divided when its numerator is 1, multiplied when its
   * denominator is 1, and otherwise multiplied and divided, always in `std::intmax_t`;
   * the result is converted to `std::int32_t`.  An `std::intmax_t` overflow is undefined.
   */
  function DurationCast(d: Duration, to: Ratio): (r: Duration)
    requires ValidDuration(d) && PositiveRatio(to)
    requires InInt64(d.count * RatioDivide(d.period, to).num)
    ensures ValidDuration(r) && r.period == to
    ensures var cf := RatioDivide(d.period, to);
      r.count == ToInt32(TruncDiv(d.count * cf.num, cf.den))
  {
    var cf := RatioDivide(d.period, to);
    TruncByOne(d.count * cf.num);
    if cf.num == 1 && cf.den == 1 then Duration(ToInt32(d.count), to)
    else if cf.num == 1 then Duration(ToInt32(TruncDiv(d.count, cf.den)), to)
    else if cf.den == 1 then Duration(ToInt32(d.count * cf.num), to)
    else Duration(ToInt32(TruncDiv(d.count * cf.num, cf.den)), to)
  }

  lemma TruncByOne(x: int)
    ensures TruncDiv(x, 1) == x
  {
  }

  /** When the conversion factor divides the scaled count and the result fits, no time is lost. */
  lemma DurationCastExact(d: Duration, to: Ratio)
    requires ValidDuration(d) && PositiveRatio(to)
    requires InInt64(d.count * RatioDivide(d.period, to).num)
    requires var cf := RatioDivide(d.period, to);
      (d.count * cf.num) % cf.den == 0 && InInt32((d.count * cf.num) / cf.den)
    ensures var cf := RatioDivide(d.period, to);
      DurationCast(d, to).count * cf.den == d.count * cf.num
  {
    var cf := RatioDivide(d.period, to);
    var x := d.count * cf.num;
    TruncDivRem(x, cf.den);
    assert TruncRem(x, cf.den) == 0 by {
      ExactRem(x, cf.den);
    }
    ExactQuotient(cf.den, x);
    TruncDivExact(x, cf.den);
  }

  /** The truncated remainder of an exact multiple is 0. */
  lemma ExactRem(x: int, d: nat)
    requires d > 0 && x % d == 0
    ensures TruncRem(x, d) == 0
  {
    if x < 0 {
      DividesAbs(d, x);
    }
  }

  /** On an exact multiple, truncated and Euclidean division agree. */
  lemma TruncDivExact(x: int, d: nat)
    requires d > 0 && x % d == 0
    ensures TruncDiv(x, d) == x / d
  {
    ExactRem(x, d);
    TruncDivRem(x, d);
    ExactQuotient(d, x);
    assert TruncDiv(x, d) * d == x / d * d;
    CancelFactor(TruncDiv(x, d), x / d, d);
  }

  /** A positive factor cancels from both sides of an equation. */
  lemma CancelFactor(a: int, b: int, d: nat)
    requires d > 0 && a * d == b * d
    ensures a == b
  {
    if a > b {
      MulGap(d, a, b);
      assert false;
    } else if a < b {
      MulGap(d, b, a);
      assert false;
    }
  }

  /** A thousand nanoseconds are one microsecond. */
  lemma NanoToMicro()
    ensures DurationCast(Duration(1000, Nano), Micro) == Duration(1, Micro)
  {
    MultipleRatio(1000, 1000_000);
    assert RatioDivide(Nano, Micro) == MakeRatio(1000_000, 1000_000_000);
    assert RatioDivide(Nano, Micro) == Ratio(1, 1000) by {
      ReduceByThousand();
    }
  }

  lemma ReduceByThousand()
    ensures MakeRatio(1000_000, 1000_000_000) == Ratio(1, 1000)
  {
    assert TruncRem(1000_000, 1000_000_000) == 1000_000;
    assert TruncRem(1000_000_000, 1000_000) == 0;
    assert StaticGcd(1000_000, 1000_000_000) == 1000_000;
  }
}

=== FILE: common_types.dfy ===
/**
 * The shared vocabulary of `hal/common_types.hpp`: the register word, the one-bit
 * enumerations, the CPUID word layout and the Cortex-M3 exception numbers.
 */
module CommonTypes {
  import opened Bits
  import opened Registers

  /** `register_bits`: `sizeof(raw_register) * 8` for the 4-byte `std::uint32_t`. */
  const RegisterBytes: nat := 4
  const RegisterBits: nat := RegisterBytes * 8

  lemma RegisterBitsIsWordWidth()
    ensures RegisterBits == WordBits == 32
  {
  }

  // ---------------------------------------------------------------------------
  // One-bit enumerations

  datatype SetT = SetNoEffect | SetBit
  datatype ClearT = ClearNoEffect | ClearBit
  datatype EnabledT = Disabled | Enabled
  datatype ActiveT = Inactive | Active
  datatype PendedT = NotPended | Pended

  /** The underlying values of `set_t`, `clear_t`, `enabled_t`, `active_t` and `pended_t`. */
  function SetValue(e: SetT): (r: nat)
    ensures r < 2 && (r == 1 <==> e == SetBit)
  {
    if e == SetBit then 1 else 0
  }

  function ClearValue(e: ClearT): (r: nat)
    ensures r < 2 && (r == 1 <==> e == ClearBit)
  {
    if e == ClearBit then 1 else 0
  }

  function EnabledValue(e: EnabledT): (r: nat)
    ensures r < 2 && (r == 1 <==> e == Enabled)
  {
    if e == Enabled then 1 else 0
  }

  function ActiveValue(e: ActiveT): (r: nat)
    ensures r < 2 && (r == 1 <==> e == Active)
  {
    if e == Active then 1 else 0
  }

  function PendedValue(e: PendedT): (r: nat)
    ensures r < 2 && (r == 1 <==> e == Pended)
  {
    if e == Pended then 1 else 0
  }

  /**
   * The word `static_cast<raw_register>(e)` of a one-bit enumerator: bit 0 carries
   * the enumerator, every other bit is clear.
   */
  function BitWord(one: bool): (w: Word)
    ensures ToNat(w) == if one then 1 else 0
    ensures w[0] == one && forall i | 1 <= i < 32 :: !w[i]
  {
    FromBoolValue(one);
    FromBool(one)
  }

  /** Reading a one-bit field back as `enabled_t`: `static_cast<enabled_t>(bits)`. */
  function EnabledOf(w: Word): (e: EnabledT)
    ensures e == Enabled <==> w == BitWord(true)
  {
    if w == BitWord(true) then Enabled else Disabled
  }

  function ActiveOf(w: Word): (e: ActiveT)
    ensures e == Active <==> w == BitWord(true)
  {
    if w == BitWord(true) then Active else Inactive
  }

  /** Encoding a one-bit enumerator and reading it back gives the enumerator. */
  lemma EnumRoundTrip(e: EnabledT, a: ActiveT)
    ensures EnabledOf(BitWord(EnabledValue(e) == 1)) == e
    ensures ActiveOf(BitWord(ActiveValue(a) == 1)) == a
  {
    assert BitWord(false) != BitWord(true) by {
      assert BitWord(false)[0] != BitWord(true)[0];
    }
  }

  // ---------------------------------------------------------------------------
  // cpu_id

  /** The five fields of the `cpu_id` union, bit 0 first. */
  const CpuIdRevision := Field(0, 4, DefaultAccessMode(Integral))
  const CpuIdPartNo := Field(4, 12, DefaultAccessMode(Integral))
  const CpuIdConstant := Field(16, 4, DefaultAccessMode(Integral))
  const CpuIdVariant := Field(20, 4, DefaultAccessMode(Integral))
  const CpuIdImplementer := Field(24, 8, DefaultAccessMode(Integral))

  function CpuIdFields(): seq<Field>
  {
    [CpuIdRevision, CpuIdPartNo, CpuIdConstant, CpuIdVariant, CpuIdImplementer]
  }

  /** The fields follow one another with no gap and fill exactly one 32-bit word. */
  lemma CpuIdTilesWord()
    ensures forall k | 0 <= k < |CpuIdFields()| :: ValidField(CpuIdFields()[k])
    ensures CpuIdFields()[0].offset == 0
    ensures forall k | 0 < k < |CpuIdFields()| ::
      CpuIdFields()[k].offset == CpuIdFields()[k - 1].offset + CpuIdFields()[k - 1].size
    ensures CpuIdImplementer.offset + CpuIdImplementer.size == RegisterBits
  {
  }

  /** Every bit of the word belongs to one of the fields. */
  lemma CpuIdCoversWord(i: nat)
    requires i < 32
    ensures exists k | 0 <= k < |CpuIdFields()| :: InField(CpuIdFields()[k], i)
  {
    if i < 4 { assert InField(CpuIdFields()[0], i); }
    else if i < 16 { assert InField(CpuIdFields()[1], i); }
    else if i < 20 { assert InField(CpuIdFields()[2], i); }
    else if i < 24 { assert InField(CpuIdFields()[3], i); }
    else { assert InField(CpuIdFields()[4], i); }
  }

  /** Two CPUID words whose five fields read the same are the same word. */
  lemma CpuIdFieldsDetermineWord(w: Word, u: Word)
    requires forall k | 0 <= k < |CpuIdFields()| :: Get(CpuIdFields()[k], w) == Get(CpuIdFields()[k], u)
    ensures w == u
  {
    forall i | 0 <= i < 32
      ensures w[i] == u[i]
    {
      CpuIdCoversWord(i);
      var k :| 0 <= k < |CpuIdFields()| && InField(CpuIdFields()[k], i);
      ReadsEqualBits(CpuIdFields()[k], w, u);
    }
  }

  // ---------------------------------------------------------------------------
  // Exception numbers

  /** `irqn_t`: an enumeration over `std::int32_t`. */
  type Irqn = n: int | -0x8000_0000 <= n < 0x8000_0000

  const IrqnBase: Irqn := 0

  const NonMaskableInt: Irqn := -14
  const HardFault: Irqn := -13
  const MemoryManagement: Irqn := -12
  const BusFault: Irqn := -11
  const UsageFault: Irqn := -10
  const SvCall: Irqn := -5
  const DebugMonitor: Irqn := -4
  const PendSv: Irqn := -2
  const SysTick: Irqn := -1

  function SystemExceptions(): seq<Irqn>
  {
    [NonMaskableInt, HardFault, MemoryManagement, BusFault, UsageFault, SvCall, DebugMonitor, PendSv, SysTick]
  }

  /** The system exceptions are distinct, negative and no lower than -14, while `irqn_t::base` is 0. */
  lemma SystemExceptionsNegative()
    ensures IrqnBase == 0
    ensures forall k | 0 <= k < |SystemExceptions()| :: -14 <= SystemExceptions()[k] < IrqnBase
    ensures forall j, k | 0 <= j < k < |SystemExceptions()| :: SystemExceptions()[j] < SystemExceptions()[k]
  {
  }

  /** `static_cast<std::uint32_t>(irqn)`: two's complement reinterpretation. */
  function AsUint32(n: Irqn): (r: nat)
    ensures r < U32
    ensures n >= 0 ==> r == n
    ensures n < 0 ==> r == n + U32 && r >= 0x8000_0000
  {
    n % U32
  }
}

=== FILE: field_array.dfy ===
/**
 * Arrays of equally sized fields packed into consecutive register words:
 * `register_field_array_base` and its accessors in `hal/registers.hpp`.
 *
 * Element `i` starts at bit `i * FieldStorageSize + InitialOffset` of the array,
 * counting across words, so it lives in word `bit / 32` at bit `bit % 32`.  Reading
 * an index past `FieldCount` yields 0; writing through the accessor of such an
 * index does nothing.  A write through an accessor ORs `(value & mask) << offset`
 * into its word, so it never clears a bit.
 */
module FieldArrays {
  import opened Bits
  import opened Registers

  /** The template arguments `FieldSize`, `FieldCount`, `RegisterCount`, `FieldStorageSize`, `InitialOffset`. */
  datatype ArraySpec = ArraySpec(
    fieldSize: nat,
    fieldCount: nat,
    registerCount: nat,
    storageSize: nat,
    initialOffset: nat)

  /**
   * The `requires` clause of `register_field_array_base` as written, together with
   * `1 <= FieldSize <= 32`, which `bit_mask_v<0, FieldSize>` needs.
   */
  predicate ValidAsWritten(a: ArraySpec)
  {
    && 1 <= a.fieldSize <= WordBits
    && a.registerCount > 0
    && a.fieldCount * a.storageSize + a.initialOffset <= a.registerCount * WordBits
  }

  /**
   * The arrays the library can index safely: additionally the last element starts
   * inside the words.  With a nonzero stride the bound above implies this; with a
   * zero stride it lets every element start one word past the array.
   */
  predicate Valid(a: ArraySpec)
  {
    && ValidAsWritten(a)
    && (a.fieldCount == 0 || (a.fieldCount - 1) * a.storageSize + a.initialOffset < a.registerCount * WordBits)
  }

  /** The register words of an array: `data_[RegisterCount]`. */
  predicate Fits(a: ArraySpec, data: seq<Word>)
  {
    |data| == a.registerCount
  }

  /** `bit_number` of element `i`. */
  function BitNumber(a: ArraySpec, i: nat): nat
  {
    i * a.storageSize + a.initialOffset
  }

  /** `reg_number`: the word element `i` starts in. */
  function WordIndex(a: ArraySpec, i: nat): nat
  {
    BitNumber(a, i) / WordBits
  }

  /** `reg_offset`: the bit of that word element `i` starts at. */
  function BitOffset(a: ArraySpec, i: nat): (r: nat)
    ensures r < WordBits
  {
    BitNumber(a, i) % WordBits
  }

  /** Every element of a valid array starts inside the array's words. */
  lemma WordIndexInRange(a: ArraySpec, i: nat)
    requires Valid(a) && i < a.fieldCount
    ensures WordIndex(a, i) < a.registerCount
  {
    assert BitNumber(a, i) < a.registerCount * WordBits by {
      MulMono(i, a.fieldCount - 1, a.storageSize);
    }
    DivBelow(BitNumber(a, i), a.registerCount);
  }

  lemma MulLess(i: nat, n: nat, s: nat)
    requires i < n && s >= 1
    ensures i * s + s <= n * s
  {
    if n > i + 1 {
      MulLess(i, n - 1, s);
      assert (n - 1) * s + s == n * s;
    }
  }

  lemma MulMono(i: nat, n: nat, s: nat)
    requires i <= n
    ensures i * s <= n * s
  {
    assert n * s == i * s + (n - i) * s;
  }

  /** A nonzero stride makes the bound as written enough. */
  lemma StrideMakesValid(a: ArraySpec)
    requires ValidAsWritten(a) && a.storageSize >= 1
    ensures Valid(a)
  {
    if a.fieldCount > 0 {
      assert a.fieldCount * a.storageSize == (a.fieldCount - 1) * a.storageSize + a.storageSize;
    }
  }

  /** An array is valid exactly when the bound as written holds and every element starts inside its words. */
  lemma ValidIffInRange(a: ArraySpec)
    requires ValidAsWritten(a)
    ensures Valid(a) <==> forall i | 0 <= i < a.fieldCount :: WordIndex(a, i) < a.registerCount
  {
    if Valid(a) {
      forall i | 0 <= i < a.fieldCount
        ensures WordIndex(a, i) < a.registerCount
      {
        WordIndexInRange(a, i);
      }
    } else {
      var last := a.fieldCount - 1;
      assert BitNumber(a, last) >= a.registerCount * WordBits;
      assert WordIndex(a, last) >= a.registerCount;
    }
  }

  /**
   * A zero stride is valid when the offset lies inside the words: every element
   * then starts at the same bit.
   */
  lemma ZeroStrideAliases(a: ArraySpec, i: nat, j: nat)
    requires ValidAsWritten(a) && a.storageSize == 0 && a.initialOffset < a.registerCount * WordBits
    requires i < a.fieldCount && j < a.fieldCount
    ensures Valid(a)
    ensures BitNumber(a, i) == BitNumber(a, j) == a.initialOffset
  {
  }

  lemma DivBelow(b: nat, r: nat)
    requires b < r * WordBits
    ensures b / WordBits < r
  {
  }

  /**
   * With a zero stride the bound as written admits an element that starts in the
   * word after the last one: one register, one element, `InitialOffset == 32`.
   */
  lemma ZeroStrideEscapes()
    ensures var a := ArraySpec(1, 1, 1, 0, 32);
            ValidAsWritten(a) && !Valid(a) && 0 < a.fieldCount && WordIndex(a, 0) == a.registerCount
  {
  }

  /** `get(index)`: 0 past `FieldCount`, otherwise `(data_[reg_number] >> reg_offset) & mask`. */
  function ArrayGet(a: ArraySpec, data: seq<Word>, i: nat): (v: Word)
    requires Valid(a) && Fits(a, data)
  {
    if i >= a.fieldCount then Zero()
    else
      WordIndexInRange(a, i);
      And(Shr(data[WordIndex(a, i)], BitOffset(a, i)), BitMask(0, a.fieldSize))
  }

  /** An element reads as the bits of its word from its offset up, as many as the field is wide. */
  lemma ArrayGetBits(a: ArraySpec, data: seq<Word>, i: nat)
    requires Valid(a) && Fits(a, data) && i < a.fieldCount
    ensures WordIndex(a, i) < |data|
    ensures forall k | 0 <= k < 32 :: ArrayGet(a, data, i)[k] <==>
      k < a.fieldSize && BitOffset(a, i) + k < 32 && data[WordIndex(a, i)][BitOffset(a, i) + k]
  {
    WordIndexInRange(a, i);
    BitMaskBits(0, a.fieldSize);
  }

  /** An element's value is its word shifted down, modulo 2^FieldSize. */
  lemma ArrayGetValue(a: ArraySpec, data: seq<Word>, i: nat)
    requires Valid(a) && Fits(a, data) && i < a.fieldCount
    ensures WordIndex(a, i) < |data|
    ensures ToNat(ArrayGet(a, data, i)) == (ToNat(data[WordIndex(a, i)]) / Pow2(BitOffset(a, i))) % Pow2(a.fieldSize)
  {
    WordIndexInRange(a, i);
    var w := Shr(data[WordIndex(a, i)], BitOffset(a, i));
    BitMaskBits(0, a.fieldSize);
    LowBitsBits(w, a.fieldSize);
    assert ArrayGet(a, data, i) == LowBits(w, a.fieldSize);
    LowBitsValue(w, a.fieldSize);
    ShrValue(data[WordIndex(a, i)], BitOffset(a, i));
  }

  // ---------------------------------------------------------------------------
  // Accessors

  /** An accessor: either null (`reg_ == nullptr`) or a word of the array and a bit offset in it. */
  datatype Accessor = Null | Bound(word: nat, offset: nat)

  /** `get_accessor(index)`: a null accessor past `FieldCount`, otherwise the element's location. */
  function GetAccessor(a: ArraySpec, i: nat): (acc: Accessor)
    requires Valid(a)
    ensures acc.Bound? <==> i < a.fieldCount
    ensures acc.Bound? ==> acc.word < a.registerCount && acc.offset < WordBits
  {
    if i >= a.fieldCount then Null
    else
      WordIndexInRange(a, i);
      Bound(WordIndex(a, i), BitOffset(a, i))
  }

  predicate AccessorFits(data: seq<Word>, acc: Accessor)
  {
    acc.Bound? ==> acc.word < |data| && acc.offset < WordBits
  }

  /** The accessor's `get()`: 0 when null, otherwise `(*reg_ >> offset_) & mask`. */
  function AccessorGet(size: nat, data: seq<Word>, acc: Accessor): Word
    requires 1 <= size <= WordBits && AccessorFits(data, acc)
  {
    match acc
    case Null => Zero()
    case Bound(k, off) => And(Shr(data[k], off), BitMask(0, size))
  }

  /** The accessor's `set(val)`, or `operator=(val)`: nothing when null, otherwise `*reg_ |= (val & mask) << offset_`. */
  function AccessorSet(size: nat, data: seq<Word>, acc: Accessor, v: Word): (r: seq<Word>)
    requires 1 <= size <= WordBits && AccessorFits(data, acc)
    ensures |r| == |data|
  {
    match acc
    case Null => data
    case Bound(k, off) => data[k := Or(data[k], Shl(And(v, BitMask(0, size)), off))]
  }

  /** Reading through the accessor of an index is reading the array at that index. */
  lemma AccessorReadsElement(a: ArraySpec, data: seq<Word>, i: nat)
    requires Valid(a) && Fits(a, data)
    ensures AccessorGet(a.fieldSize, data, GetAccessor(a, i)) == ArrayGet(a, data, i)
  {
  }

  /** An index past `FieldCount` reads as 0 and its accessor writes nothing. */
  lemma OutOfRangeInert(a: ArraySpec, data: seq<Word>, i: nat, v: Word)
    requires Valid(a) && Fits(a, data) && i >= a.fieldCount
    ensures ArrayGet(a, data, i) == Zero()
    ensures AccessorSet(a.fieldSize, data, GetAccessor(a, i), v) == data
  {
  }

  /** An accessor write changes at most its own word, and within it only sets bits. */
  lemma AccessorSetFrame(size: nat, data: seq<Word>, acc: Accessor, v: Word)
    requires 1 <= size <= WordBits && AccessorFits(data, acc)
    ensures forall j | 0 <= j < |data| && (acc.Null? || j != acc.word) ::
      AccessorSet(size, data, acc, v)[j] == data[j]
    ensures forall j, k | 0 <= j < |data| && 0 <= k < 32 && data[j][k] ::
      AccessorSet(size, data, acc, v)[j][k]
  {
  }

  /** The bits an accessor write sets: those of the value's low `size` bits, moved up to the offset. */
  lemma AccessorSetBits(size: nat, data: seq<Word>, k: nat, off: nat, v: Word)
    requires 1 <= size <= WordBits && k < |data| && off < WordBits
    ensures forall b | 0 <= b < 32 :: AccessorSet(size, data, Bound(k, off), v)[k][b] <==>
      data[k][b] || (off <= b && b - off < size && v[b - off])
  {
    BitMaskBits(0, size);
  }

  /** An element that fits in its word: it does not run past bit 31. */
  predicate InWord(a: ArraySpec, i: nat)
  {
    BitOffset(a, i) + a.fieldSize <= WordBits
  }

  /** Writing element `i` through its accessor and reading it back: the old value OR the new one. */
  lemma ArraySetThenGet(a: ArraySpec, data: seq<Word>, i: nat, v: Word)
    requires Valid(a) && Fits(a, data) && i < a.fieldCount && InWord(a, i)
    ensures ArrayGet(a, AccessorSet(a.fieldSize, data, GetAccessor(a, i), v), i)
         == Or(ArrayGet(a, data, i), LowBits(v, a.fieldSize))
  {
    var d2 := AccessorSet(a.fieldSize, data, GetAccessor(a, i), v);
    ArrayGetBits(a, data, i);
    ArrayGetBits(a, d2, i);
    AccessorSetBits(a.fieldSize, data, WordIndex(a, i), BitOffset(a, i), v);
    LowBitsBits(v, a.fieldSize);
  }

  /** Starting from an element that reads 0, a write stores the value truncated to the field. */
  lemma ArraySetFromZero(a: ArraySpec, data: seq<Word>, i: nat, v: Word)
    requires Valid(a) && Fits(a, data) && i < a.fieldCount && InWord(a, i)
    requires ArrayGet(a, data, i) == Zero()
    ensures ArrayGet(a, AccessorSet(a.fieldSize, data, GetAccessor(a, i), v), i) == LowBits(v, a.fieldSize)
    ensures ToNat(ArrayGet(a, AccessorSet(a.fieldSize, data, GetAccessor(a, i), v), i)) == ToNat(v) % Pow2(a.fieldSize)
  {
    ArraySetThenGet(a, data, i, v);
    LowBitsBits(v, a.fieldSize);
    assert Or(Zero(), LowBits(v, a.fieldSize)) == LowBits(v, a.fieldSize);
    LowBitsValue(v, a.fieldSize);
  }

  /**
   * When elements do not overlap (`FieldStorageSize >= FieldSize`), writing element `i`
   * leaves every other element's value as it was.
   */
  lemma ArraySetOthersUnchanged(a: ArraySpec, data: seq<Word>, i: nat, j: nat, v: Word)
    requires Valid(a) && Fits(a, data) && a.storageSize >= a.fieldSize
    requires i < a.fieldCount && j != i && InWord(a, i)
    ensures ArrayGet(a, AccessorSet(a.fieldSize, data, GetAccessor(a, i), v), j) == ArrayGet(a, data, j)
  {
    var d2 := AccessorSet(a.fieldSize, data, GetAccessor(a, i), v);
    if j < a.fieldCount {
      ArrayGetBits(a, data, j);
      ArrayGetBits(a, d2, j);
      WordIndexInRange(a, i);
      AccessorSetBits(a.fieldSize, data, WordIndex(a, i), BitOffset(a, i), v);
      forall k | 0 <= k < 32
        ensures ArrayGet(a, d2, j)[k] == ArrayGet(a, data, j)[k]
      {
        if WordIndex(a, i) == WordIndex(a, j) && k < a.fieldSize {
          Disjoint(a, i, j, k);
        }
      }
    }
  }

  /** Bit `b` of element `j` is not a bit of element `i` in the same word. */
  lemma Disjoint(a: ArraySpec, i: nat, j: nat, b: nat)
    requires a.storageSize >= a.fieldSize && i != j && b < a.fieldSize
    requires WordIndex(a, i) == WordIndex(a, j)
    ensures !(BitOffset(a, i) <= BitOffset(a, j) + b < BitOffset(a, i) + a.fieldSize)
  {
    var s := a.storageSize;
    var q := WordIndex(a, i);
    assert BitNumber(a, i) == q * WordBits + BitOffset(a, i);
    assert BitNumber(a, j) == q * WordBits + BitOffset(a, j);
    if i < j {
      MulLess(i, j, s);
      assert j * s >= i * s + s;
    } else {
      MulLess(j, i, s);
      assert i * s >= j * s + s;
    }
  }

  // ---------------------------------------------------------------------------
  // The array wrappers and their operator[]

  /**
   * `operator[](index) const`, which calls `get(index)`: the read-write and read-only
   * arrays have it; the write-only array does not.
   */
  function IndexRead(p: Permission, a: ArraySpec, data: seq<Word>, i: nat): (r: Gate<Word>)
    requires Valid(a) && Fits(a, data)
    ensures r.Granted? <==> p != WriteOnly
    ensures r.Granted? && i >= a.fieldCount ==> r.value == Zero()
  {
    if p == WriteOnly then Denied else Granted(ArrayGet(a, data, i))
  }

  /**
   * Assigning through `operator[](index)`: only the read-write and write-only arrays
   * hand out an accessor with `operator=`.
   */
  function IndexWrite(p: Permission, a: ArraySpec, data: seq<Word>, i: nat, v: Word): (r: Gate<seq<Word>>)
    requires Valid(a) && Fits(a, data)
    ensures r.Granted? <==> p != ReadOnly
    ensures r.Granted? ==> |r.value| == |data|
    ensures r.Granted? && i >= a.fieldCount ==> r.value == data
  {
    if p == ReadOnly then Denied else Granted(AccessorSet(a.fieldSize, data, GetAccessor(a, i), v))
  }
}

=== FILE: flags.dfy ===
/**
 * `util/flags.hpp`: a set of flags over an enumeration, kept as the enumeration's
 * underlying value.  The underlying type is taken to be a 32-bit unsigned word, and
 * an enumerator is its underlying value.
 */
module Flags {
  import opened Bits

  /** `flags<T>`: the one member `value_`. */
  datatype FlagSet = FlagSet(value: Word)

  /** The default constructor: `value_{0}`. */
  function Empty(): (f: FlagSet)
    ensures ToNat(f.value) == 0
  {
    ToNatFalses(32);
    assert Zero() == Falses(32);
    FlagSet(Zero())
  }

  /** `explicit flags(enumeration_type)`: the enumerator's underlying value. */
  function FromEnum(e: Word): (f: FlagSet)
    ensures ToNat(f.value) == ToNat(e)
  {
    FlagSet(e)
  }

  /**
   * `detail::or_`: the fold `(args | ...)`.  A fold over `|` has no value for an empty
   * pack, so at least one enumerator is needed.
   */
  function OrAll(es: seq<Word>): (r: Word)
    requires |es| >= 1
    ensures forall i | 0 <= i < 32 :: r[i] <==> exists k | 0 <= k < |es| :: es[k][i]
  {
    if |es| == 1 then es[0]
    else
      var rest := OrAll(es[..|es| - 1]);
      assert forall k | 0 <= k < |es| - 1 :: es[..|es| - 1][k] == es[k];
      Or(rest, es[|es| - 1])
  }

  /** The variadic constructor `flags(U... args)`. */
  function FromEnums(es: seq<Word>): (f: FlagSet)
    requires |es| >= 1
    ensures forall i | 0 <= i < 32 :: f.value[i] <==> exists k | 0 <= k < |es| :: es[k][i]
  {
    FlagSet(OrAll(es))
  }

  /** `explicit operator bool`: some flag is set. */
  function IsSet(f: FlagSet): (r: bool)
    ensures r <==> ToNat(f.value) != 0
  {
    ZeroValue(f.value);
    f.value != Zero()
  }

  /** `operator!`: no flag is set. */
  function None(f: FlagSet): (r: bool)
    ensures r <==> ToNat(f.value) == 0
  {
    ZeroValue(f.value);
    f.value == Zero()
  }

  /** A word is zero exactly when its value is 0. */
  lemma ZeroValue(w: Word)
    ensures w == Zero() <==> ToNat(w) == 0
  {
    ToNatFalses(32);
    assert Zero() == Falses(32);
    ToNatFromNat(w);
    ToNatFromNat(Zero());
  }

  /** A default `flags` is empty: `!f` holds and `bool(f)` does not. */
  lemma DefaultIsEmpty()
    ensures None(Empty()) && !IsSet(Empty())
  {
  }

  /** `!f` and `bool(f)` are each other's negation. */
  lemma NotIsNegation(f: FlagSet)
    ensures None(f) <==> !IsSet(f)
  {
  }

  // ---------------------------------------------------------------------------
  // Compound assignments

  /** `operator|=(flags const&)`. */
  function Union(a: FlagSet, b: FlagSet): (r: FlagSet)
    ensures forall i | 0 <= i < 32 :: r.value[i] <==> a.value[i] || b.value[i]
  {
    FlagSet(Or(a.value, b.value))
  }

  /** `operator&=(flags const&)`. */
  function Intersect(a: FlagSet, b: FlagSet): (r: FlagSet)
    ensures forall i | 0 <= i < 32 :: r.value[i] <==> a.value[i] && b.value[i]
  {
    FlagSet(And(a.value, b.value))
  }

  /** `operator^=(flags const&)`. */
  function Toggle(a: FlagSet, b: FlagSet): (r: FlagSet)
    ensures forall i | 0 <= i < 32 :: r.value[i] <==> a.value[i] != b.value[i]
  {
    FlagSet(Xor(a.value, b.value))
  }

  /** `operator|=(enumeration_type)`. */
  function UnionEnum(a: FlagSet, e: Word): (r: FlagSet)
    ensures forall i | 0 <= i < 32 :: r.value[i] <==> a.value[i] || e[i]
  {
    FlagSet(Or(a.value, e))
  }

  /** `operator&=(enumeration_type)`. */
  function IntersectEnum(a: FlagSet, e: Word): (r: FlagSet)
    ensures forall i | 0 <= i < 32 :: r.value[i] <==> a.value[i] && e[i]
  {
    FlagSet(And(a.value, e))
  }

  /** `operator^=(enumeration_type)`. */
  function ToggleEnum(a: FlagSet, e: Word): (r: FlagSet)
    ensures forall i | 0 <= i < 32 :: r.value[i] <==> a.value[i] != e[i]
  {
    FlagSet(Xor(a.value, e))
  }

  /** `operator~`. */
  function Complement(a: FlagSet): (r: FlagSet)
    ensures forall i | 0 <= i < 32 :: r.value[i] <==> !a.value[i]
  {
    FlagSet(Not(a.value))
  }

  /** `operator>>=`: a shift by 32 or more, or by a negative count, is undefined. */
  function ShiftRight(a: FlagSet, k: nat): (r: FlagSet)
    requires k < 32
    ensures ToNat(r.value) == ToNat(a.value) / Pow2(k)
  {
    ShrValue(a.value, k);
    FlagSet(Shr(a.value, k))
  }

  /** `operator<<=`: bits shifted past bit 31 are lost. */
  function ShiftLeft(a: FlagSet, k: nat): (r: FlagSet)
    requires k < 32
    ensures ToNat(r.value) == (ToNat(a.value) % Pow2(32 - k)) * Pow2(k)
  {
    ShlValue(a.value, k);
    FlagSet(Shl(a.value, k))
  }

  // ---------------------------------------------------------------------------
  // Free operators

  /** `operator|(T, flags<T>)`, `operator&(T, flags<T>)` and `operator^(T, flags<T>)` delegate with the operands swapped. */
  function EnumUnion(e: Word, a: FlagSet): FlagSet
  {
    UnionEnum(a, e)
  }

  function EnumIntersect(e: Word, a: FlagSet): FlagSet
  {
    IntersectEnum(a, e)
  }

  function EnumToggle(e: Word, a: FlagSet): FlagSet
  {
    ToggleEnum(a, e)
  }

  /** The three binary operators are commutative, whichever side the enumerator is on. */
  lemma OperatorsCommute(a: FlagSet, b: FlagSet, e: Word)
    ensures Union(a, b) == Union(b, a)
    ensures Intersect(a, b) == Intersect(b, a)
    ensures Toggle(a, b) == Toggle(b, a)
    ensures EnumUnion(e, a) == Union(FromEnum(e), a)
    ensures EnumIntersect(e, a) == Intersect(FromEnum(e), a)
    ensures EnumToggle(e, a) == Toggle(FromEnum(e), a)
  {
    assert Union(a, b).value == Union(b, a).value;
    assert Intersect(a, b).value == Intersect(b, a).value;
    assert Toggle(a, b).value == Toggle(b, a).value;
    assert EnumUnion(e, a).value == Union(FromEnum(e), a).value;
    assert EnumIntersect(e, a).value == Intersect(FromEnum(e), a).value;
    assert EnumToggle(e, a).value == Toggle(FromEnum(e), a).value;
  }

  /** Adding enumerators one at a time builds the same set as the variadic constructor. */
  lemma {:induction false} FromEnumsByUnion(es: seq<Word>)
    requires |es| >= 1
    ensures |es| == 1 ==> FromEnums(es) == FromEnum(es[0])
    ensures |es| > 1 ==> FromEnums(es) == UnionEnum(FromEnums(es[..|es| - 1]), es[|es| - 1])
  {
  }

  /** Toggling twice with the same flags, or complementing twice, restores the set. */
  lemma Involutions(a: FlagSet, b: FlagSet)
    ensures Toggle(Toggle(a, b), b) == a
    ensures Complement(Complement(a)) == a
    ensures None(Toggle(a, a))
  {
    assert Toggle(Toggle(a, b), b).value == a.value;
    assert Complement(Complement(a)).value == a.value;
    assert Toggle(a, a).value == Zero();
    ZeroValue(Zero());
  }

  /** A set with a flag in it stays non-empty after more flags are added. */
  lemma UnionKeepsSet(a: FlagSet, b: FlagSet)
    requires IsSet(a)
    ensures IsSet(Union(a, b))
  {
    ZeroValue(a.value);
    var i :| 0 <= i < 32 && a.value[i];
    assert Union(a, b).value[i];
    ZeroValue(Union(a, b).value);
  }

  /** Shifting left and back right recovers a value that fits below the shift. */
  lemma ShiftRoundTrip(a: FlagSet, k: nat)
    requires k < 32 && ToNat(a.value) < Pow2(32 - k)
    ensures ToNat(ShiftRight(ShiftLeft(a, k), k).value) == ToNat(a.value)
  {
    var v := ToNat(a.value);
    var p := Pow2(32 - k);
    var q := Pow2(k);
    DivModUnique(v, 0, p);
    assert v % p == v;
    DivModUnique(0, v, q);
    assert v * q == q * v;
    assert (v * q) / q == v;
  }

  // ---------------------------------------------------------------------------
  // Comparison

  datatype Ordering = Less | Equivalent | Greater

  /** The defaulted `operator<=>`: the underlying values in order. */
  function Compare(a: FlagSet, b: FlagSet): (r: Ordering)
    ensures r == Less <==> ToNat(a.value) < ToNat(b.value)
    ensures r == Greater <==> ToNat(a.value) > ToNat(b.value)
  {
    if ToNat(a.value) < ToNat(b.value) then Less
    else if ToNat(a.value) > ToNat(b.value) then Greater
    else Equivalent
  }

  /** `operator<=>(enumeration_type const&)`. */
  function CompareEnum(a: FlagSet, e: Word): (r: Ordering)
    ensures r == Less <==> ToNat(a.value) < ToNat(e)
    ensures r == Equivalent <==> a.value == e
  {
    ToNatFromNat(a.value);
    ToNatFromNat(e);
    if ToNat(a.value) < ToNat(e) then Less
    else if ToNat(a.value) > ToNat(e) then Greater
    else Equivalent
  }

  /** Two sets compare equivalent exactly when they hold the same flags, and swapping the operands reverses the order. */
  lemma CompareIsOrder(a: FlagSet, b: FlagSet, e: Word)
    ensures Compare(a, b) == Equivalent <==> a == b
    ensures Compare(a, b) == Less <==> Compare(b, a) == Greater
    ensures CompareEnum(a, e) == Compare(a, FromEnum(e))
  {
    ToNatFromNat(a.value);
    ToNatFromNat(b.value);
  }
}

=== FILE: frequency.dfy ===
/**
 * `frequency.hpp`: a `std::uint32_t` count of a whole period (hertz, kilohertz,
 * megahertz, gigahertz), conversion between periods, comparisons through the common
 * period, arithmetic that wraps modulo 2^32, and the conversions between a frequency
 * and the duration of one of its cycles.
 */
module Frequency {
  import opened Bits
  import opened Traits
  import opened Chrono

  /**
   * `frequency<Period>`: the count `r_` and the numerator of `Period`, whose
   * denominator must be 1.  Periods are taken below 2^32, so the casts of the
   * conversion factor's terms to `freq_rep` are exact.
   */
  datatype Freq = Freq(count: nat, period: nat)

  predicate ValidPeriod(p: nat)
  {
    0 < p < U32
  }

  predicate Valid(f: Freq)
  {
    f.count < U32 && ValidPeriod(f.period)
  }

  const Hertz: nat := 1
  const KiloHertz: nat := 1000
  const MegaHertz: nat := 1000_000
  const GigaHertz: nat := 1000_000_000

  /** The conversion factor `ratio_divide<Period, ToPeriod>` between whole periods. */
  function CastFactor(from: nat, to: nat): (cf: Ratio)
    requires ValidPeriod(from) && ValidPeriod(to)
    ensures PositiveRatio(cf) && cf.num <= from && cf.den <= to
  {
    var cf := RatioDivide(Ratio(from, 1), Ratio(to, 1));
    ReducedAtMost(from, to);
    cf
  }

  /** The factor has the value `from / to`. */
  lemma CastFactorValue(from: nat, to: nat)
    requires ValidPeriod(from) && ValidPeriod(to)
    ensures CastFactor(from, to).num * to == from * CastFactor(from, to).den
  {
  }

  /** Reducing two positive terms does not make either larger. */
  lemma ReducedAtMost(n: nat, d: nat)
    requires n > 0 && d > 0
    ensures MakeRatio(n, d).num <= n && MakeRatio(n, d).den <= d
  {
    var g := StaticGcd(n, d);
    assert MakeRatio(n, d).num == n / g;
    assert MakeRatio(n, d).den == d / g;
    DivAtMost(n, g);
    DivAtMost(d, g);
  }

  /** Dividing by a positive number does not increase a natural number. */
  lemma DivAtMost(n: nat, g: nat)
    requires g >= 1
    ensures n / g <= n
  {
    var q := n / g;
    assert n == g * q + n % g;
    if q >= 1 {
      MulAtLeastOne(q, g);
      assert g * q == q * g;
    }
  }

  /**
   * `frequency_cast<ToFreq>`: the count times the factor's numerator, in `std::uint32_t`
   * arithmetic that wraps, divided by its denominator; the specialisations for a
   * numerator or denominator of 1 skip the operation that would have no effect.
   */
  function FrequencyCast(f: Freq, to: nat): (r: Freq)
    requires Valid(f) && ValidPeriod(to)
    ensures Valid(r) && r.period == to
    ensures f.count == 0 ==> r.count == 0
  {
    var cf := CastFactor(f.period, to);
    Freq(CastCount(f.count, cf.num, cf.den), to)
  }

  /** `frequency_cast_impl<...>::cast` on the count, given the factor's terms. */
  function CastCount(c: nat, num: nat, den: nat): (r: nat)
    requires c < U32 && num >= 1 && den >= 1
    ensures r < U32
    ensures c == 0 ==> r == 0
  {
    CastBranches(c, num, den);
    if num == 1 && den == 1 then c
    else if num == 1 then c / den
    else if den == 1 then (c * num) % U32
    else ((c * num) % U32) / den
  }

  /** Each specialisation of the cast computes what the general formula computes, below 2^32. */
  lemma CastBranches(c: nat, num: nat, den: nat)
    requires c < U32 && num >= 1 && den >= 1
    ensures var general := ((c * num) % U32) / den;
      && general < U32
      && (num == 1 ==> c / den == general)
      && (den == 1 ==> (c * num) % U32 == general)
      && (c == 0 ==> general == 0)
  {
    var x := (c * num) % U32;
    DivAtMost(x, den);
    FitsUnchanged(c);
  }

  /** The cast computes the general formula. */
  lemma CastValue(f: Freq, to: nat)
    requires Valid(f) && ValidPeriod(to)
    ensures var cf := CastFactor(f.period, to);
      FrequencyCast(f, to).count == ((f.count * cf.num) % U32) / cf.den
  {
    var cf := CastFactor(f.period, to);
    CastBranches(f.count, cf.num, cf.den);
    assert FrequencyCast(f, to).count == CastCount(f.count, cf.num, cf.den);
  }

  lemma FitsUnchanged(c: nat)
    ensures c < U32 ==> c % U32 == c
  {
    if c < U32 {
      DivModUnique(c, 0, U32);
    }
  }

  /** Without a wrap-around the cast is the exact count in the new period, rounded down. */
  lemma {:induction false} CastIsFloor(f: Freq, to: nat)
    requires Valid(f) && ValidPeriod(to)
    requires f.count * CastFactor(f.period, to).num < U32
    ensures FrequencyCast(f, to).count == (f.count * f.period) / to
  {
    var cf := CastFactor(f.period, to);
    CastValue(f, to);
    CastFactorValue(f.period, to);
    FitsUnchanged(f.count * cf.num);
    FloorOfEqualFractions(f.count, cf.num, cf.den, f.period, to);
  }

  /** Equal fractions scale a count to the same rounded-down quotient. */
  lemma FloorOfEqualFractions(c: nat, n: nat, d: nat, n2: nat, d2: nat)
    requires d > 0 && d2 > 0 && n * d2 == n2 * d
    ensures (c * n) / d == (c * n2) / d2
  {
    var q: int := (c * n2) / d2;
    var m: int := (c * n2) % d2;
    assert c * n2 == q * d2 + m;
    var m2: int := c * n - q * d;
    assert m2 * d2 == m * d by {
      assert (c * n) * d2 == c * (n * d2);
      assert c * (n2 * d) == (c * n2) * d;
      assert (q * d2 + m) * d == q * d * d2 + m * d;
      assert (c * n - q * d) * d2 == (c * n) * d2 - (q * d) * d2;
    }
    RemainderInRange(m2, m, d, d2);
    DivModUnique(m2, q, d);
    assert m2 + d * q == c * n;
  }

  /** `m2 * d2 == m * d` with `0 <= m < d2` puts `m2` in `[0, d)`. */
  lemma RemainderInRange(m2: int, m: int, d: nat, d2: nat)
    requires d > 0 && d2 > 0 && 0 <= m < d2 && m2 * d2 == m * d
    ensures 0 <= m2 < d
  {
    assert m * d < d2 * d by {
      MulGap(d, d2, m);
    }
    if m2 < 0 {
      PositiveFactor(d2, -m2);
      assert m2 * d2 == -(d2 * -m2);
      PositiveFactor(d, m);
      assert false;
    }
    if m2 >= d {
      MulGap(d2, m2, d);
      assert false;
    }
  }

  /** Equal factors of 1 in both directions: a cast to the same period changes nothing. */
  lemma CastToSamePeriod(f: Freq)
    requires Valid(f)
    ensures FrequencyCast(f, f.period) == f
  {
    MultipleRatio(1, f.period);
    assert f.period == 1 * f.period;
  }

  /** The frequency's own period as a `std::ratio`, and the common period of two frequencies. */
  function CommonPeriod(a: Freq, b: Freq): (p: nat)
    requires Valid(a) && Valid(b)
    ensures ValidPeriod(p)
    ensures Divides(p, a.period) && Divides(p, b.period)
  {
    CommonRatioOfWholePeriods(a.period, b.period, 1);
    DivisorAtMost(StaticGcd(a.period, b.period), a.period);
    CommonRatio(Ratio(a.period, 1), Ratio(b.period, 1)).num
  }

  /** `operator==` between any two frequencies: the counts in the common period. */
  function Equal(a: Freq, b: Freq): bool
    requires Valid(a) && Valid(b)
  {
    var p := CommonPeriod(a, b);
    FrequencyCast(a, p).count == FrequencyCast(b, p).count
  }

  /** `operator<`. */
  function Less(a: Freq, b: Freq): bool
    requires Valid(a) && Valid(b)
  {
    var p := CommonPeriod(a, b);
    FrequencyCast(a, p).count < FrequencyCast(b, p).count
  }

  /** The rate in hertz, as a mathematical number. */
  function InHertz(f: Freq): nat
  {
    f.count * f.period
  }

  /** A cast to a period that divides the source period multiplies by the quotient. */
  lemma CastToDivisor(f: Freq, p: nat)
    requires Valid(f) && ValidPeriod(p) && Divides(p, f.period)
    requires InHertz(f) < U32
    ensures FrequencyCast(f, p).count * p == InHertz(f)
  {
    var k := f.period / p;
    ExactQuotient(p, f.period);
    assert k > 0 by {
      PositiveFactor(p, k);
    }
    assert k * p == f.period;
    MultipleRatio(k, p);
    assert CastFactor(f.period, p) == Ratio(k, 1);
    ProductBelow(f.count, k, p);
    CastBranches(f.count, k, 1);
    FitsUnchanged(f.count * k);
  }

  /** With `p >= 1`, a count times `k` is no more than the count times `k * p`. */
  lemma ProductBelow(c: nat, k: nat, p: nat)
    requires p >= 1 && c * (k * p) < U32
    ensures c * k < U32 && (c * k) * p == c * (k * p)
  {
    if c * k > 0 {
      MulAtLeastOne(c * k, p);
    }
  }

  lemma CastToDivisorWhenFits(f: Freq, p: nat)
    requires Valid(f) && ValidPeriod(p) && Divides(p, f.period)
    ensures InHertz(f) < U32 ==> FrequencyCast(f, p).count * p == InHertz(f)
  {
    if InHertz(f) < U32 {
      CastToDivisor(f, p);
    }
  }

  lemma MulMonoRight(c: nat, x: nat, y: nat)
    requires x <= y
    ensures c * x <= c * y
  {
    assert c * y - c * x == c * (y - x);
  }

  /**
   * Without wrap-around, `==` and `<` compare the rates themselves, whatever the
   * periods.
   */
  lemma CompareByRate(a: Freq, b: Freq)
    requires Valid(a) && Valid(b) && InHertz(a) < U32 && InHertz(b) < U32
    ensures Equal(a, b) <==> InHertz(a) == InHertz(b)
    ensures Less(a, b) <==> InHertz(a) < InHertz(b)
  {
    var p := CommonPeriod(a, b);
    CastToDivisor(a, p);
    CastToDivisor(b, p);
    var x := FrequencyCast(a, p).count;
    var y := FrequencyCast(b, p).count;
    if x < y {
      MulGap(p, y, x);
    } else if y < x {
      MulGap(p, x, y);
    }
  }

  /** The check in the header: `48_MHz == 48000_KHz`. */
  lemma EqualExample()
    ensures Equal(Freq(48, MegaHertz), Freq(48000, KiloHertz))
  {
    CompareByRate(Freq(48, MegaHertz), Freq(48000, KiloHertz));
  }

  /** The check in the header: the common period of megahertz and kilohertz is kilohertz. */
  lemma CommonPeriodExample(a: nat, b: nat)
    requires a < U32 && b < U32
    ensures CommonPeriod(Freq(a, MegaHertz), Freq(b, KiloHertz)) == KiloHertz
  {
    CommonRatioOfWholePeriods(MegaHertz, KiloHertz, 1);
    GcdOfMultiple(KiloHertz, MegaHertz);
  }

  // ---------------------------------------------------------------------------
  // Arithmetic

  /** `operator/(frequency, freq_rep)`: the count in hertz divided by the scalar, as hertz. */
  function DivScalar(f: Freq, k: nat): (r: Freq)
    requires Valid(f) && 0 < k < U32
    ensures Valid(r) && r.period == Hertz
    ensures InHertz(f) < U32 ==> r.count == InHertz(f) / k
  {
    CastToDivisorWhenFits(f, Hertz);
    Freq(FrequencyCast(f, Hertz).count / k, Hertz)
  }

  /** The check in the header: `480_MHz / 48 == 10_MHz`. */
  lemma DivScalarExample()
    ensures Equal(DivScalar(Freq(480, MegaHertz), 48), Freq(10, MegaHertz))
  {
    assert DivScalar(Freq(480, MegaHertz), 48).count == 10_000_000;
    CompareByRate(DivScalar(Freq(480, MegaHertz), 48), Freq(10, MegaHertz));
  }

  /** `operator/(frequency, frequency)`: the ratio of the counts in the common period. */
  function DivFreq(a: Freq, b: Freq): nat
    requires Valid(a) && Valid(b)
    requires FrequencyCast(b, CommonPeriod(a, b)).count != 0
  {
    var p := CommonPeriod(a, b);
    Quotient(FrequencyCast(a, p).count, FrequencyCast(b, p).count)
  }

  /** The `freq_rep` quotient of two counts. */
  function Quotient(x: nat, y: nat): (q: nat)
    requires y != 0
    ensures q * y <= x < (q + 1) * y
  {
    x / y
  }

  /** When both rates fit in hertz, dividing frequencies divides their rates. */
  lemma DivFreqInHertz(a: Freq, b: Freq)
    requires Valid(a) && Valid(b)
    requires FrequencyCast(b, CommonPeriod(a, b)).count != 0
    ensures InHertz(a) < U32 && 0 < InHertz(b) < U32 ==> DivFreq(a, b) == InHertz(a) / InHertz(b)
  {
    var p := CommonPeriod(a, b);
    if InHertz(a) < U32 && 0 < InHertz(b) < U32 {
      CastToDivisor(a, p);
      CastToDivisor(b, p);
      ScaledQuotient(FrequencyCast(a, p).count, FrequencyCast(b, p).count, p);
    }
  }

  /** Scaling dividend and divisor by the same positive factor keeps the quotient. */
  lemma ScaledQuotient(x: nat, y: nat, p: nat)
    requires y > 0 && p > 0
    ensures x / y == (x * p) / (y * p)
  {
    PositiveFactor(p, y);
    assert x * (y * p) == (x * p) * y;
    FloorOfEqualFractions(1, x, y, x * p, y * p);
  }

  /** `operator+` across periods: the sum of the counts in the common period, wrapping. */
  function Add(a: Freq, b: Freq): (r: Freq)
    requires Valid(a) && Valid(b)
    ensures Valid(r) && r.period == CommonPeriod(a, b)
    ensures InHertz(a) + InHertz(b) < U32 ==> InHertz(r) == InHertz(a) + InHertz(b)
  {
    var p := CommonPeriod(a, b);
    AddFits(a, b);
    Freq((FrequencyCast(a, p).count + FrequencyCast(b, p).count) % U32, p)
  }

  lemma AddFits(a: Freq, b: Freq)
    requires Valid(a) && Valid(b)
    ensures var p := CommonPeriod(a, b);
      var s := FrequencyCast(a, p).count + FrequencyCast(b, p).count;
      InHertz(a) + InHertz(b) < U32 ==> s % U32 == s && s * p == InHertz(a) + InHertz(b)
  {
    var p := CommonPeriod(a, b);
    if InHertz(a) + InHertz(b) < U32 {
      CastToDivisor(a, p);
      CastToDivisor(b, p);
      SumBelow(FrequencyCast(a, p).count, FrequencyCast(b, p).count, p);
    }
  }

  /** Two counts whose scaled sum is below 2^32 sum to a count below 2^32. */
  lemma SumBelow(x: nat, y: nat, p: nat)
    requires p >= 1 && x * p + y * p < U32
    ensures (x + y) % U32 == x + y && (x + y) * p == x * p + y * p
  {
    assert (x + y) * p == x * p + y * p;
    if x + y > 0 {
      MulAtLeastOne(x + y, p);
    }
    FitsUnchanged(x + y);
  }

  /** `operator*(frequency, freq_rep)` and `operator*=`: the count times the scalar, wrapping. */
  function MulScalar(f: Freq, k: nat): (r: Freq)
    requires Valid(f) && k < U32
    ensures Valid(r) && r.period == f.period
    ensures f.count * k < U32 ==> r.count == f.count * k
  {
    FitsUnchanged(f.count * k);
    Freq((f.count * k) % U32, f.period)
  }

  /** `operator*(freq_rep, frequency)` swaps its operands. */
  function ScalarMul(k: nat, f: Freq): Freq
    requires Valid(f) && k < U32
  {
    MulScalar(f, k)
  }

  /** `operator+=` within one period. */
  function AddAssign(f: Freq, g: Freq): (r: Freq)
    requires Valid(f) && Valid(g) && f.period == g.period
    ensures Valid(r) && r.period == f.period
    ensures (r.count - f.count - g.count) % U32 == 0
  {
    Freq((f.count + g.count) % U32, f.period)
  }

  /** `operator-=` within one period. */
  function SubAssign(f: Freq, g: Freq): (r: Freq)
    requires Valid(f) && Valid(g) && f.period == g.period
    ensures Valid(r) && r.period == f.period
    ensures (r.count - f.count + g.count) % U32 == 0
  {
    Freq((f.count - g.count) % U32, f.period)
  }

  /** `operator-`: the unsigned negation of the count. */
  function Negate(f: Freq): (r: Freq)
    requires Valid(f)
    ensures Valid(r) && r.period == f.period
    ensures (r.count + f.count) % U32 == 0
  {
    Freq((-(f.count as int)) % U32, f.period)
  }

  /** `operator++` and `operator--`. */
  function Increment(f: Freq): (r: Freq)
    requires Valid(f)
    ensures Valid(r) && r.period == f.period
    ensures f.count + 1 < U32 ==> r.count == f.count + 1
    ensures f.count + 1 == U32 ==> r.count == 0
  {
    Freq((f.count + 1) % U32, f.period)
  }

  function Decrement(f: Freq): (r: Freq)
    requires Valid(f)
    ensures Valid(r) && r.period == f.period
    ensures f.count > 0 ==> r.count == f.count - 1
    ensures f.count == 0 ==> r.count == U32 - 1
  {
    Freq((f.count - 1) % U32, f.period)
  }

  /** `operator/=` and `operator%=`: division by zero is undefined. */
  function DivAssign(f: Freq, k: nat): (r: Freq)
    requires Valid(f) && 0 < k < U32
    ensures Valid(r) && r.period == f.period && r.count * k <= f.count < (r.count + 1) * k
  {
    Freq(f.count / k, f.period)
  }

  function RemAssign(f: Freq, k: nat): (r: Freq)
    requires Valid(f) && 0 < k < U32
    ensures Valid(r) && r.period == f.period && r.count < k
    ensures (f.count - r.count) % k == 0
  {
    RemainderDividesOut(f.count, k);
    Freq(f.count % k, f.period)
  }

  lemma RemainderDividesOut(c: nat, k: nat)
    requires k > 0
    ensures (c - c % k) % k == 0
  {
    assert c - c % k == k * (c / k);
    DividesMultiple(k, c / k);
  }

  /** The wrapping operations undo each other. */
  lemma ArithmeticInverses(f: Freq, g: Freq)
    requires Valid(f) && Valid(g) && f.period == g.period
    ensures SubAssign(AddAssign(f, g), g) == f
    ensures Decrement(Increment(f)) == f
    ensures Negate(Negate(f)) == f
  {
    var s := (f.count + g.count) % U32;
    ModCancel(f.count + g.count, g.count);
    ModCancel(f.count + 1, 1);
    ModNegate(f.count);
  }

  /** Reducing before subtracting gives the same residue. */
  lemma ModCancel(x: nat, y: nat)
    requires x - y >= 0 && x - y < U32
    ensures (x % U32 - y) % U32 == x - y
  {
    var q := x / U32;
    assert x % U32 - y == (x - y) - U32 * q;
    IntDivModUnique(x % U32 - y, -q, x - y, U32);
  }

  lemma ModNegate(c: nat)
    requires c < U32
    ensures (-((-(c as int)) % U32)) % U32 == c
  {
    if c == 0 {
    } else {
      IntDivModUnique(-(c as int), -1, U32 - c, U32);
      IntDivModUnique(-((U32 - c) as int), -1, c, U32);
    }
  }

  // ---------------------------------------------------------------------------
  // Durations

  /** `duration_period`: `ratio<den, num * 1000>`, so a cycle of `single_cycle` 1000 units is one period. */
  function DurationPeriod(period: nat): (r: Ratio)
    requires period > 0
    ensures r == Ratio(1, period * 1000)
  {
    UnitRatio(period * 1000);
    MakeRatio(1, period * 1000)
  }

  /** `single_cycle`: 1000 units of `duration_period`. */
  function SingleCycle(f: Freq): (d: Duration)
    requires Valid(f)
    ensures ValidDuration(d) && d.count == 1000
  {
    Duration(1000, DurationPeriod(f.period))
  }

  /**
   * `period_duration<ToDur>`: zero for a zero frequency; otherwise `single_cycle` cast
   * to `ToDur` and divided by the count.  Dividing the `std::int32_t` count by the
   * `std::uint32_t` count divides in `std::uint32_t`; the quotient is converted back
   * to `std::int32_t`.
   */
  function PeriodDuration(f: Freq, to: Ratio): (r: Duration)
    requires Valid(f) && PositiveRatio(to)
    requires InInt64(1000 * RatioDivide(DurationPeriod(f.period), to).num)
    ensures ValidDuration(r) && r.period == to
    ensures f.count == 0 ==> r.count == 0
    ensures f.count > 0 ==> var c := DurationCast(SingleCycle(f), to).count;
      0 <= c ==> r.count == c / f.count
  {
    if f.count == 0 then Duration(0, to)
    else
      var c := DurationCast(SingleCycle(f), to).count;
      var q := (c % U32) / f.count;
      FitsInt32Quotient(c, f.count);
      Duration(ToInt32(q), to)
  }

  /** A non-negative `std::int32_t` divided by a positive count stays in range. */
  lemma FitsInt32Quotient(c: int, k: nat)
    requires InInt32(c) && k > 0
    ensures 0 <= c ==> c % U32 == c && InInt32(c / k)
  {
    if 0 <= c {
      FitsUnchanged(c);
    }
  }

  /** A frequency at its own duration period: one cycle is `1000 / count` units. */
  lemma OwnPeriodCast(f: Freq)
    requires Valid(f)
    ensures RatioDivide(DurationPeriod(f.period), DurationPeriod(f.period)) == Ratio(1, 1)
    ensures DurationCast(SingleCycle(f), DurationPeriod(f.period)).count == 1000
  {
    var n := f.period * 1000;
    assert 1 * n == n;
    MultipleRatio(1, n);
  }

  /** The checks in the header: 2 MHz lasts 500 ns, 200 kHz lasts 5 us. */
  lemma PeriodDurationExamples()
    ensures DurationPeriod(MegaHertz) == Nano && DurationPeriod(KiloHertz) == Micro
    ensures PeriodDuration(Freq(2, MegaHertz), Nano) == Duration(500, Nano)
    ensures PeriodDuration(Freq(200, KiloHertz), Micro) == Duration(5, Micro)
  {
    OwnPeriodCast(Freq(2, MegaHertz));
    OwnPeriodCast(Freq(200, KiloHertz));
  }

  /** The check in the header: 1,000,000 Hz lasts 1 us, going through a cast from milliseconds. */
  lemma HertzPeriodExample()
    ensures DurationPeriod(Hertz) == Milli
    ensures PeriodDuration(Freq(1000_000, Hertz), Micro) == Duration(1, Micro)
  {
    assert RatioDivide(Milli, Micro) == MakeRatio(1000 * 1000, 1000) by {
      assert Milli.num * Micro.den == 1000 * 1000;
    }
    MultipleRatio(1000, 1000);
    assert DurationCast(SingleCycle(Freq(1000_000, Hertz)), Micro).count == 1000_000;
  }

  /** The check in the header: the single cycle of megahertz is one microsecond. */
  lemma SingleCycleExample()
    ensures SingleCycle(Freq(1, MegaHertz)) == Duration(1000, Nano)
    ensures DurationCast(SingleCycle(Freq(1, MegaHertz)), Micro) == Duration(1, Micro)
  {
    NanoToMicro();
  }

  /**
   * `get_frequency`: one second in the duration's period, divided by its count with
   * `std::int32_t` division, as hertz.  A zero count divides by zero.
   */
  function GetFrequency(d: Duration): (r: Freq)
    requires ValidDuration(d) && d.count != 0
    requires InInt64(RatioDivide(Second, d.period).num)
    ensures Valid(r) && r.period == Hertz
    ensures var s := DurationCast(Duration(1, Second), d.period).count;
      (r.count - TruncDiv(s, d.count)) % U32 == 0
  {
    var s := DurationCast(Duration(1, Second), d.period).count;
    Freq(ToUint32(TruncDiv(s, d.count)), Hertz)
  }

  /** The conversion of an integer to `std::uint32_t`: the value modulo 2^32. */
  function ToUint32(x: int): (r: nat)
    ensures r < U32
    ensures (r - x) % U32 == 0
    ensures 0 <= x < U32 ==> r == x
  {
    var r := x % U32;
    assert r - x == -(x / U32) * U32;
    r
  }

  /** The check in the header: 200 ms is the period of 5 Hz. */
  lemma GetFrequencyExample()
    ensures GetFrequency(Duration(200, Milli)) == Freq(5, Hertz)
  {
    WholeRatio(1000);
    assert RatioDivide(Second, Milli) == Ratio(1000, 1);
  }

  // ---------------------------------------------------------------------------
  // A cycle and its frequency

  /** Equal products with a positive factor have equal cofactors. */
  lemma CancelFactor(a: int, b: int, m: int)
    requires m > 0 && a * m == b * m
    ensures a == b
  {
    assert (a - b) * m == 0;
    if a > b {
      PositiveFactor(a - b, m);
    } else if b > a {
      assert (b - a) * m == 0;
      PositiveFactor(b - a, m);
    }
  }

  /** When one cycle is a whole number `k` of `to` units, casting `single_cycle` to `to` gives `k`. */
  lemma CycleCast(f: Freq, to: Ratio, k: nat)
    requires Valid(f) && PositiveRatio(to)
    requires InInt64(1000 * RatioDivide(DurationPeriod(f.period), to).num)
    requires to.den == k * (f.period * to.num) && InInt32(k)
    ensures DurationCast(SingleCycle(f), to).count == k
  {
    var cf := RatioDivide(DurationPeriod(f.period), to);
    var m := f.period * to.num;
    PositiveFactor(f.period, to.num);
    assert cf.num * (f.period * 1000 * to.num) == to.den * cf.den;
    assert (1000 * cf.num) * m == (k * cf.den) * m by {
      assert cf.num * (f.period * 1000 * to.num) == (1000 * cf.num) * m;
      assert to.den * cf.den == (k * cf.den) * m;
    }
    CancelFactor(1000 * cf.num, k * cf.den, m);
    IntDivModUnique(k * cf.den, k, 0, cf.den);
    assert TruncDiv(1000 * cf.num, cf.den) == k;
  }

  /** When a second is a whole number `s` of `to` units, casting one second to `to` gives `s`. */
  lemma SecondCast(to: Ratio, s: nat)
    requires PositiveRatio(to) && InInt64(RatioDivide(Second, to).num)
    requires to.den == s * to.num && InInt32(s)
    ensures DurationCast(Duration(1, Second), to).count == s
  {
    var cf := RatioDivide(Second, to);
    assert cf.num * to.num == (s * cf.den) * to.num by {
      assert cf.num * (1 * to.num) == (1 * to.den) * cf.den;
    }
    CancelFactor(cf.num, s * cf.den, to.num);
    IntDivModUnique(s * cf.den, s, 0, cf.den);
    assert TruncDiv(1 * cf.num, cf.den) == s;
  }

  /** When one cycle is a whole number `k` of `to` units, `period_duration` divides `k` by the count. */
  lemma PeriodDurationExact(f: Freq, to: Ratio, k: nat)
    requires Valid(f) && f.count > 0 && PositiveRatio(to)
    requires InInt64(1000 * RatioDivide(DurationPeriod(f.period), to).num)
    requires to.den == k * (f.period * to.num) && InInt32(k)
    ensures PeriodDuration(f, to).count == k / f.count
  {
    CycleCast(f, to, k);
  }

  /**
   * When one cycle is a whole number of `to` units, `period_duration` is the
   * length of one cycle at the rate in hertz `count * period`, in units of `to`
   * (`to.num / to.den` seconds), rounded down.
   */
  lemma PeriodDurationFloor(f: Freq, to: Ratio)
    requires Valid(f) && f.count > 0 && PositiveRatio(to)
    requires InInt64(1000 * RatioDivide(DurationPeriod(f.period), to).num)
    requires to.den % (f.period * to.num) == 0 && InInt32(to.den / (f.period * to.num))
    ensures var n := PeriodDuration(f, to).count;
      var hz := f.count * f.period;
      && n >= 0
      && n * hz * to.num <= to.den < (n + 1) * hz * to.num
  {
    var m := f.period * to.num;
    PositiveFactor(f.period, to.num);
    var k := to.den / m;
    assert to.den == k * m;
    PeriodDurationExact(f, to, k);
    FloorScaled(k / f.count, f.count, k, f.period, to.num);
  }

  /** The floor quotient `n = k / c`, scaled by `p * t` on both sides. */
  lemma FloorScaled(n: int, c: int, k: nat, p: int, t: int)
    requires c > 0 && p > 0 && t > 0 && n == k / c
    ensures n >= 0
    ensures n * (c * p) * t <= k * (p * t) < (n + 1) * (c * p) * t
  {
    var m := p * t;
    PositiveFactor(p, t);
    assert n * c <= k < (n + 1) * c;
    assert n * (c * p) * t == (n * c) * m;
    assert (n + 1) * (c * p) * t == ((n + 1) * c) * m;
    assert k * m - (n * c) * m == (k - n * c) * m;
    assert ((n + 1) * c) * m - k * m == ((n + 1) * c - k) * m;
    PositiveFactor((n + 1) * c - k, m);
    if k - n * c > 0 {
      PositiveFactor(k - n * c, m);
    }
  }

  /**
   * `get_frequency` inverts `period_duration`: when a cycle is a whole number `k`
   * of `to` units and the count divides `k`, the period of the frequency gives
   * back its rate in hertz.
   */
  lemma GetFrequencyOfPeriod(f: Freq, to: Ratio, k: nat)
    requires Valid(f) && f.count > 0 && PositiveRatio(to)
    requires InInt64(1000 * RatioDivide(DurationPeriod(f.period), to).num)
    requires InInt64(RatioDivide(Second, to).num)
    requires to.den == k * (f.period * to.num) && k % f.count == 0 && InInt32(k * f.period)
    ensures PeriodDuration(f, to).count > 0
    ensures GetFrequency(PeriodDuration(f, to)) == Freq(f.count * f.period, Hertz)
  {
    ExactQuotients(k, f.count, f.period, to.num, to.den);
    PeriodDurationExact(f, to, k);
    GetFrequencyExact(PeriodDuration(f, to), k * f.period);
  }

  /** When a second is a whole number `s` of the duration's units and its count divides `s`, `get_frequency` is the quotient. */
  lemma GetFrequencyExact(d: Duration, s: nat)
    requires ValidDuration(d) && d.count > 0 && InInt64(RatioDivide(Second, d.period).num)
    requires d.period.den == s * d.period.num && InInt32(s) && s % d.count == 0
    ensures GetFrequency(d) == Freq(s / d.count, Hertz)
  {
    SecondCast(d.period, s);
    assert TruncDiv(s, d.count) == s / d.count;
    DivAtMost(s, d.count);
  }

  /**
   * The arithmetic of a whole cycle: with `den = k * (p * t)` and the count `c`
   * dividing `k`, the quotient `n = k / c` is positive, a second is `s = k * p`
   * units, and `s / n` is the rate `c * p`.
   */
  lemma ExactQuotients(k: int, c: int, p: int, t: int, den: int)
    requires c > 0 && p > 0 && t > 0 && den > 0 && k >= 0
    requires den == k * (p * t) && k % c == 0
    ensures k / c > 0 && k * p >= k
    ensures den == (k * p) * t
    ensures (k * p) / (k / c) == c * p && (k * p) % (k / c) == 0
    ensures c * p <= k * p
  {
    var n := k / c;
    assert k == n * c;
    assert k > 0 by {
      assert k * (p * t) == den;
    }
    PositiveFactor(c, n);
    MulAtLeastOne(k, p);
    assert k * p == n * (c * p);
    IntDivModUnique(k * p, c * p, 0, n);
    MulAtLeastOne(c * p, n);
  }
}

=== FILE: layout.dfy ===
/**
 * Device layouts as explicit lists: a register union is a list of named fields over
 * one word, and a device is a list of named members, each a number of consecutive
 * words.  The `sizeof` and `offsetof` static assertions of the device headers become
 * statements about these lists.
 */
module Layout {
  import opened Bits
  import opened Registers
  import opened CommonTypes

  /** One member of a register union: its name, its field and the wrapper it uses. */
  datatype FieldDesc = FieldDesc(name: string, field: Field, perm: Permission)

  /** Every field of the union satisfies `Offset + Size <= register_bits`. */
  predicate UnionValid(fs: seq<FieldDesc>)
  {
    forall k | 0 <= k < |fs| :: ValidField(fs[k].field)
  }

  /** The named fields of a union that share at least one bit. */
  predicate Overlap(a: Field, b: Field)
  {
    a.offset < b.offset + b.size && b.offset < a.offset + a.size
  }

  /** `raw_*_register_field<Offset, Size>` and `bit_*_register_field<Offset>`: `raw_register`, bit-field access. */
  function RawField(off: nat, size: nat): Field
  {
    Field(off, size, DefaultAccessMode(Integral))
  }

  /** `bool_*_register_field<Offset>`. */
  function BoolField(off: nat): Field
  {
    Field(off, 1, DefaultAccessMode(Integral))
  }

  /** A field of enumeration type with the default access mode. */
  function EnumField(off: nat, size: nat): Field
  {
    Field(off, size, DefaultAccessMode(Enumeration))
  }

  /**
   * `field = b` on a `bool_*_register_field<Offset>`: a direct one-bit write that
   * overwrites the bit.  Stated bit by bit; `WriteFlagIsFieldWrite` shows it is the
   * register field write.
   */
  function WriteFlag(w: Word, off: nat, b: bool): (r: Word)
    requires off < WordBits
    ensures r[off] == b
    ensures forall i | 0 <= i < 32 && i != off :: r[i] == w[i]
  {
    seq(32, i requires 0 <= i < 32 => if i == off then b else w[i])
  }

  lemma WriteFlagIsFieldWrite(w: Word, off: nat, b: bool)
    requires off < WordBits
    ensures WriteFlag(w, off, b) == Set(BoolField(off), w, BitWord(b))
  {
    BitFieldSetBits(BoolField(off), w, BitWord(b));
    SetFrame(BoolField(off), w, BitWord(b));
  }

  /** Reading a one-bit field as `bool`: the field's value is not zero. */
  function ReadFlag(w: Word, off: nat): (r: bool)
    requires off < WordBits
    ensures r == (Get(BoolField(off), w) != Zero())
  {
    GetBits(BoolField(off), w);
    assert Get(BoolField(off), w)[0] == w[off];
    w[off]
  }

  /** Reading a one-bit enumeration field, which takes the masked strategy: the enumerator is 1 exactly when the bit is set. */
  function ReadEnumFlag(w: Word, off: nat): (r: bool)
    requires off < WordBits
    ensures r == (Get(EnumField(off, 1), w) == BitWord(true))
  {
    EnumFlagBit(w, off);
    w[off]
  }

  lemma EnumFlagBit(w: Word, off: nat)
    requires off < WordBits
    ensures Get(EnumField(off, 1), w) == BitWord(true) <==> w[off]
  {
    GetBits(EnumField(off, 1), w);
    if w[off] {
      assert Get(EnumField(off, 1), w) == BitWord(true);
    } else {
      assert Get(EnumField(off, 1), w)[0] != BitWord(true)[0];
    }
  }

  /**
   * Writing the enumerator 1 (`set_t::set`, `clear_t::clear`) into a one-bit
   * enumeration field, which takes the masked strategy: the bit is ORed in.
   * `RaiseFlagIsFieldWrite` shows it is the register field write.
   */
  function RaiseFlag(w: Word, off: nat): (r: Word)
    requires off < WordBits
    ensures r[off]
    ensures forall i | 0 <= i < 32 && i != off :: r[i] == w[i]
  {
    seq(32, i requires 0 <= i < 32 => i == off || w[i])
  }

  lemma RaiseFlagIsFieldWrite(w: Word, off: nat)
    requires off < WordBits
    ensures RaiseFlag(w, off) == Set(EnumField(off, 1), w, BitWord(true))
  {
    MaskedSetBits(EnumField(off, 1), w, BitWord(true));
    SetFrame(EnumField(off, 1), w, BitWord(true));
  }

  /**
   * A member of a device structure: its name, its offset from the start of the
   * structure and the number of 32-bit words it occupies, all in words.
   */
  datatype Member = Member(name: string, offset: nat, words: nat)

  /** The members follow one another from offset 0 with no gap, as C++ lays out these word-aligned members. */
  predicate Contiguous(ms: seq<Member>)
  {
    && |ms| > 0
    && ms[0].offset == 0
    && forall k | 0 < k < |ms| :: ms[k].offset == ms[k - 1].offset + ms[k - 1].words
  }

  /** The words taken by members `lo` up to but not including `hi`. */
  function Words(ms: seq<Member>, lo: nat, hi: nat): nat
    requires lo <= hi <= |ms|
    decreases hi - lo
  {
    if lo == hi then 0 else Words(ms, lo, hi - 1) + ms[hi - 1].words
  }

  /** `sizeof` the structure, in words: the sum of its members' sizes. */
  function SizeWords(ms: seq<Member>): nat
  {
    Words(ms, 0, |ms|)
  }

  /** In a contiguous layout a member's offset is the total size of the members before it. */
  lemma {:induction false} OffsetIsSum(ms: seq<Member>, k: nat)
    requires Contiguous(ms) && k < |ms|
    ensures ms[k].offset == Words(ms, 0, k)
  {
    if k > 0 {
      OffsetIsSum(ms, k - 1);
    }
  }

  /** A contiguous layout ends where its last member ends. */
  lemma SizeIsEnd(ms: seq<Member>)
    requires Contiguous(ms)
    ensures SizeWords(ms) == ms[|ms| - 1].offset + ms[|ms| - 1].words
  {
    OffsetIsSum(ms, |ms| - 1);
  }
}

=== FILE: nvic.dfy ===
/**
 * The Nested Vectored Interrupt Controller of `hal/nvic.hpp` and `src/nvic.cpp`:
 * its five 240-bit interrupt arrays, the 240-byte priority array and the software
 * trigger register, the `nvic_registers` layout, and the interrupt operations.
 *
 * An interrupt number is converted with `static_cast<std::uint32_t>`, so a negative
 * number becomes an index of at least 2^31, past every array: the call reads 0
 * or writes nothing.  Each union of a read-only and a write-only array is one
 * piece of memory here; the hardware's write-one-to-clear and write-one-to-set
 * side effects on the other registers are not part of the model.
 */
module Nvic {
  import opened Bits
  import opened Registers
  import opened FieldArrays
  import opened CommonTypes
  import opened Layout
  import opened Scb

  const InterruptRegCount: nat := 8
  const InterruptCount: nat := 240

  /** The one-bit arrays of `iser_`, `icer_`, `ispr_`, `icpr_` and `iabr_`. */
  const EnableArray := ArraySpec(1, InterruptCount, InterruptRegCount, 1, 0)
  /** `interrupt_priority_register`: 240 eight-bit priorities in 60 words. */
  const PriorityArray := ArraySpec(8, InterruptCount, InterruptCount / 4, 8, 0)
  /** `software_trigger_interrupt_register`: 9 one-bit elements in one word. */
  const StirArray := ArraySpec(1, 9, 1, 1, 0)

  /** Every array satisfies its `requires` clause; the priority array fills its 60 words exactly. */
  lemma ArraysValid()
    ensures Valid(EnableArray) && Valid(PriorityArray) && Valid(StirArray)
    ensures PriorityArray.fieldCount * PriorityArray.storageSize == PriorityArray.registerCount * WordBits
    ensures PriorityArray.registerCount == 60
  {
  }

  /** The register words of the NVIC that the operations touch. */
  datatype NvicRegs = NvicRegs(
    iser: seq<Word>,
    icer: seq<Word>,
    ispr: seq<Word>,
    icpr: seq<Word>,
    iabr: seq<Word>,
    ip: seq<Word>)

  predicate Wf(s: NvicRegs)
  {
    && Fits(EnableArray, s.iser) && Fits(EnableArray, s.icer)
    && Fits(EnableArray, s.ispr) && Fits(EnableArray, s.icpr)
    && Fits(EnableArray, s.iabr) && Fits(PriorityArray, s.ip)
  }

  /** `array[index] = value` through a write-only or read-write one-bit array. */
  function SetBit(data: seq<Word>, n: Irqn): (r: seq<Word>)
    requires Fits(EnableArray, data)
    ensures Fits(EnableArray, r)
  {
    AccessorSet(1, data, GetAccessor(EnableArray, AsUint32(n)), BitWord(true))
  }

  /** `array[index] == enumerator::one` through a one-bit array: the element reads 1. */
  function BitIsSet(data: seq<Word>, n: Irqn): bool
    requires Fits(EnableArray, data)
  {
    ArrayGet(EnableArray, data, AsUint32(n)) == BitWord(true)
  }

  /** `enable_irq`: `iser_.set[index] = set_t::set`. */
  function EnableIrq(s: NvicRegs, n: Irqn): (r: NvicRegs)
    requires Wf(s)
    ensures Wf(r) && r == s.(iser := r.iser)
  {
    s.(iser := SetBit(s.iser, n))
  }

  /** `disable_irq`: `icer_.set[index] = clear_t::clear`. */
  function DisableIrq(s: NvicRegs, n: Irqn): (r: NvicRegs)
    requires Wf(s)
    ensures Wf(r) && r == s.(icer := r.icer)
  {
    s.(icer := SetBit(s.icer, n))
  }

  /** `set_pending`: `ispr_.set[index] = set_t::set`. */
  function SetPending(s: NvicRegs, n: Irqn): (r: NvicRegs)
    requires Wf(s)
    ensures Wf(r) && r == s.(ispr := r.ispr)
  {
    s.(ispr := SetBit(s.ispr, n))
  }

  /** `clear_pending`: `icpr_.set[index] = clear_t::clear`. */
  function ClearPending(s: NvicRegs, n: Irqn): (r: NvicRegs)
    requires Wf(s)
    ensures Wf(r) && r == s.(icpr := r.icpr)
  {
    s.(icpr := SetBit(s.icpr, n))
  }

  /** `irq_enabled`: `iser_.get[index] == enabled_t::enabled`. */
  function IrqEnabled(s: NvicRegs, n: Irqn): (r: bool)
    requires Wf(s)
    ensures r <==> 0 <= n < InterruptCount && s.iser[n / 32][n % 32]
  {
    BitIsSetIff(s.iser, n);
    BitIsSet(s.iser, n)
  }

  /** `is_pending`: `ispr_.get[index] == active_t::active`. */
  function IsPending(s: NvicRegs, n: Irqn): (r: bool)
    requires Wf(s)
    ensures r <==> 0 <= n < InterruptCount && s.ispr[n / 32][n % 32]
  {
    BitIsSetIff(s.ispr, n);
    BitIsSet(s.ispr, n)
  }

  /** `is_active`: `iabr_[index] == active_t::active`. */
  function IsActive(s: NvicRegs, n: Irqn): (r: bool)
    requires Wf(s)
    ensures r <==> 0 <= n < InterruptCount && s.iabr[n / 32][n % 32]
  {
    BitIsSetIff(s.iabr, n);
    BitIsSet(s.iabr, n)
  }

  // ---------------------------------------------------------------------------
  // Where an interrupt lives

  /** Interrupt `i` of a one-bit array is bit `i % 32` of word `i / 32`. */
  lemma EnableLocation(i: nat)
    requires i < InterruptCount
    ensures GetAccessor(EnableArray, i) == Bound(i / 32, i % 32)
    ensures WordIndex(EnableArray, i) == i / 32 && BitOffset(EnableArray, i) == i % 32
  {
  }

  /** The priority of interrupt `i` is the byte at bit `8 * (i % 4)` of word `i / 4`. */
  lemma PriorityLocation(i: nat)
    requires i < InterruptCount
    ensures GetAccessor(PriorityArray, i) == Bound(i / 4, 8 * (i % 4))
    ensures WordIndex(PriorityArray, i) == i / 4 && BitOffset(PriorityArray, i) == 8 * (i % 4)
    ensures InWord(PriorityArray, i)
  {
    assert BitNumber(PriorityArray, i) == 8 * (i % 4) + 32 * (i / 4);
    DivModUnique(8 * (i % 4), i / 4, 32);
  }

  /** A one-bit element reads 1 exactly when the interrupt is in range and its bit is set. */
  lemma BitIsSetIff(data: seq<Word>, n: Irqn)
    requires Fits(EnableArray, data)
    ensures BitIsSet(data, n) <==> 0 <= n < InterruptCount && data[n / 32][n % 32]
  {
    var i := AsUint32(n);
    if i < InterruptCount {
      EnableLocation(i);
      ArrayGetBits(EnableArray, data, i);
      if data[i / 32][i % 32] {
        assert ArrayGet(EnableArray, data, i) == BitWord(true);
      } else {
        assert ArrayGet(EnableArray, data, i)[0] != BitWord(true)[0];
      }
    } else {
      assert Zero()[0] != BitWord(true)[0];
    }
  }

  /**
   * Setting an interrupt's bit ORs a 1 into bit `n % 32` of word `n / 32` and
   * changes no other bit; a negative or too large number changes nothing.
   */
  lemma SetBitEffect(data: seq<Word>, n: Irqn)
    requires Fits(EnableArray, data)
    ensures forall j, b | 0 <= j < |data| && 0 <= b < 32 ::
      SetBit(data, n)[j][b] <==> data[j][b] || (0 <= n < InterruptCount && j == n / 32 && b == n % 32)
    ensures !(0 <= n < InterruptCount) ==> SetBit(data, n) == data
  {
    var i := AsUint32(n);
    if i < InterruptCount {
      EnableLocation(i);
      AccessorSetBits(1, data, i / 32, i % 32, BitWord(true));
      AccessorSetFrame(1, data, GetAccessor(EnableArray, i), BitWord(true));
    }
  }

  /** After `enable_irq(n)` the interrupt reads enabled exactly when `n` names one of the 240 interrupts. */
  lemma EnableThenEnabled(s: NvicRegs, n: Irqn)
    requires Wf(s)
    ensures IrqEnabled(EnableIrq(s, n), n) <==> 0 <= n < InterruptCount
  {
    SetBitEffect(s.iser, n);
  }

  /** `enable_irq(n)` leaves the enable state of every other interrupt as it was. */
  lemma EnableOthersUnchanged(s: NvicRegs, n: Irqn, m: Irqn)
    requires Wf(s) && m != n
    ensures IrqEnabled(EnableIrq(s, n), m) == IrqEnabled(s, m)
  {
    SetBitEffect(s.iser, n);
    if 0 <= m < InterruptCount {
      if 0 <= n < InterruptCount {
        DistinctLocation(m, n);
      }
      var j, b := m / 32, m % 32;
      assert SetBit(s.iser, n)[j][b] == s.iser[j][b];
    }
  }

  /** Two different interrupts differ in their word or in their bit. */
  lemma DistinctLocation(m: nat, n: nat)
    requires m != n
    ensures m / 32 != n / 32 || m % 32 != n % 32
  {
    assert m == 32 * (m / 32) + m % 32;
    assert n == 32 * (n / 32) + n % 32;
  }

  /** A negative number is inert: every write leaves the registers alone and every query is false. */
  lemma NegativeIrqInert(s: NvicRegs, n: Irqn)
    requires Wf(s) && n < 0
    ensures EnableIrq(s, n) == s && DisableIrq(s, n) == s
    ensures SetPending(s, n) == s && ClearPending(s, n) == s
    ensures !IrqEnabled(s, n) && !IsPending(s, n) && !IsActive(s, n)
  {
    SetBitEffect(s.iser, n);
    SetBitEffect(s.icer, n);
    SetBitEffect(s.ispr, n);
    SetBitEffect(s.icpr, n);
  }

  /** `set_pending(n)` then `is_pending(n)`: pending exactly when `n` is in range. */
  lemma SetPendingThenPending(s: NvicRegs, n: Irqn)
    requires Wf(s)
    ensures IsPending(SetPending(s, n), n) <==> 0 <= n < InterruptCount
  {
    SetBitEffect(s.ispr, n);
  }

  /**
   * `disable_irq(n)` writes a 1 into the clear-enable register at the interrupt's
   * bit; the set-enable memory itself is not written by the library.
   */
  lemma DisableWritesClearBit(s: NvicRegs, n: Irqn)
    requires Wf(s) && 0 <= n < InterruptCount
    ensures DisableIrq(s, n).icer[n / 32][n % 32]
    ensures IrqEnabled(DisableIrq(s, n), n) == IrqEnabled(s, n)
  {
    SetBitEffect(s.icer, n);
  }

  // ---------------------------------------------------------------------------
  // Priorities

  /** The result of `get_irq_priority`: a system exception's priority comes from the SCB. */
  datatype PriorityRead = ScbPriority(index: int) | NvicPriority(value: Word)

  /** The outcome of `set_irq_priority`: a request to the SCB, or the updated NVIC. */
  datatype PriorityWrite = ScbSetPriority(index: int, priority: Word) | NvicUpdated(regs: NvicRegs)

  /** `get_irq_priority`: below `irqn_t::base` ask the SCB for `irqn_to_index(irq)`, otherwise read `ip_[irq]`. */
  function GetIrqPriority(s: NvicRegs, n: Irqn): (r: PriorityRead)
    requires Wf(s)
    ensures r.ScbPriority? <==> n < IrqnBase
    ensures r.ScbPriority? ==> r.index == IrqnToIndex(n)
    ensures r.NvicPriority? && n >= InterruptCount ==> r.value == Zero()
    ensures r.NvicPriority? ==> ToNat(r.value) < 256
  {
    if n < IrqnBase then ScbPriority(IrqnToIndex(n))
    else
      var v := ArrayGet(PriorityArray, s.ip, AsUint32(n));
      PriorityReadBound(s.ip, AsUint32(n));
      NvicPriority(v)
  }

  lemma PriorityReadBound(data: seq<Word>, i: nat)
    requires Fits(PriorityArray, data)
    ensures ToNat(ArrayGet(PriorityArray, data, i)) < 256
  {
    if i < InterruptCount {
      ArrayGetValue(PriorityArray, data, i);
      Pow2Of8();
    } else {
      ToNatFalses(32);
      assert Zero() == Falses(32);
    }
  }

  /** `set_irq_priority`: below `irqn_t::base` hand the write to the SCB, otherwise `ip_[irq] = priority`. */
  function SetIrqPriority(s: NvicRegs, n: Irqn, priority: Word): (r: PriorityWrite)
    requires Wf(s)
    ensures r.ScbSetPriority? <==> n < IrqnBase
    ensures r.ScbSetPriority? ==> r.index == IrqnToIndex(n) && r.priority == priority
    ensures r.NvicUpdated? ==> Wf(r.regs) && r.regs == s.(ip := r.regs.ip)
  {
    if n < IrqnBase then ScbSetPriority(IrqnToIndex(n), priority)
    else NvicUpdated(s.(ip := AccessorSet(8, s.ip, GetAccessor(PriorityArray, AsUint32(n)), priority)))
  }

  /**
   * For an interrupt in range, setting its priority and reading it back gives the
   * old priority OR the new one's low byte: bits already set are never cleared.
   */
  lemma SetPriorityThenGet(s: NvicRegs, n: Irqn, priority: Word)
    requires Wf(s) && 0 <= n < InterruptCount
    ensures SetIrqPriority(s, n, priority).NvicUpdated?
    ensures GetIrqPriority(SetIrqPriority(s, n, priority).regs, n)
         == NvicPriority(Or(GetIrqPriority(s, n).value, LowBits(priority, 8)))
  {
    PriorityLocation(n);
    ArraySetThenGet(PriorityArray, s.ip, n, priority);
  }

  /** From a zero priority, setting it stores `priority & 0xff`. */
  lemma SetPriorityFromZero(s: NvicRegs, n: Irqn, priority: Word)
    requires Wf(s) && 0 <= n < InterruptCount
    requires GetIrqPriority(s, n) == NvicPriority(Zero())
    ensures SetIrqPriority(s, n, priority).NvicUpdated?
    ensures ToNat(GetIrqPriority(SetIrqPriority(s, n, priority).regs, n).value) == ToNat(priority) % 256
  {
    SetPriorityThenGet(s, n, priority);
    var low := LowBits(priority, 8);
    assert Or(Zero(), low) == low;
    LowBitsValue(priority, 8);
    Pow2Of8();
  }

  /** Setting one interrupt's priority leaves every other non-negative interrupt's priority as it was. */
  lemma SetPriorityOthersUnchanged(s: NvicRegs, n: Irqn, m: Irqn, priority: Word)
    requires Wf(s) && 0 <= n < InterruptCount && 0 <= m && m != n
    ensures SetIrqPriority(s, n, priority).NvicUpdated?
    ensures GetIrqPriority(SetIrqPriority(s, n, priority).regs, m) == GetIrqPriority(s, m)
  {
    PriorityLocation(n);
    ArraySetOthersUnchanged(PriorityArray, s.ip, n, m, priority);
  }

  /** A priority write past the 240 interrupts changes nothing, and the read there is 0. */
  lemma PriorityOutOfRange(s: NvicRegs, n: Irqn, priority: Word)
    requires Wf(s) && n >= InterruptCount
    ensures SetIrqPriority(s, n, priority) == NvicUpdated(s)
    ensures GetIrqPriority(s, n) == NvicPriority(Zero())
  {
    OutOfRangeInert(PriorityArray, s.ip, n, priority);
  }

  // ---------------------------------------------------------------------------
  // The nvic_registers layout

  const NvicBase: nat := 0xe000_e100
  const IcerBase: nat := 0xe000_e180
  const IsprBase: nat := 0xe000_e200
  const IcprBase: nat := 0xe000_e280
  const IabrBase: nat := 0xe000_e300
  const IpBase: nat := 0xe000_e400
  const StirBase: nat := 0xe000_ef00
  /** One past the software trigger register. */
  const NvicEnd: nat := 0xe000_ef04

  function NvicMembers(): seq<Member>
  {
    [ Member("iser_", 0, 8), Member("reserved_0_", 8, 24),
      Member("icer_", 32, 8), Member("reserved_1_", 40, 24),
      Member("ispr_", 64, 8), Member("reserved_2_", 72, 24),
      Member("icpr_", 96, 8), Member("reserved_3_", 104, 24),
      Member("iabr_", 128, 8), Member("reserved_4_", 136, 56),
      Member("ip_", 192, 60), Member("reserved_5_", 252, 644),
      Member("stir_", 896, 1) ]
  }

  /**
   * The `offsetof` and `sizeof` assertions: the members lie back to back, each
   * register array starts at its documented address, the arrays have the sizes of
   * their field-array types, and the whole is 897 words, up to 0xe000ef04.
   */
  lemma NvicLayout()
    ensures Contiguous(NvicMembers())
    ensures SizeWords(NvicMembers()) == 897
    ensures 4 * SizeWords(NvicMembers()) == NvicEnd - NvicBase
    ensures NvicBase + 4 * Words(NvicMembers(), 0, 2) == IcerBase
    ensures NvicBase + 4 * Words(NvicMembers(), 0, 4) == IsprBase
    ensures NvicBase + 4 * Words(NvicMembers(), 0, 6) == IcprBase
    ensures NvicBase + 4 * Words(NvicMembers(), 0, 8) == IabrBase
    ensures NvicBase + 4 * Words(NvicMembers(), 0, 10) == IpBase
    ensures NvicBase + 4 * Words(NvicMembers(), 0, 12) == StirBase
    ensures NvicMembers()[0].words == EnableArray.registerCount
    ensures NvicMembers()[10].words == PriorityArray.registerCount
    ensures NvicMembers()[12].words == StirArray.registerCount
  {
    NvicContiguous();
    NvicOffsets();
  }

  /** The members before each register array fill the words up to its offset. */
  lemma NvicOffsets()
    ensures Words(NvicMembers(), 0, 2) == 32 && Words(NvicMembers(), 0, 4) == 64
    ensures Words(NvicMembers(), 0, 6) == 96 && Words(NvicMembers(), 0, 8) == 128
    ensures Words(NvicMembers(), 0, 10) == 192 && Words(NvicMembers(), 0, 12) == 896
  {
    var ms := NvicMembers();
    NvicContiguous();
    OffsetIsSum(ms, 2);
    OffsetIsSum(ms, 4);
    OffsetIsSum(ms, 6);
    OffsetIsSum(ms, 8);
    OffsetIsSum(ms, 10);
    OffsetIsSum(ms, 12);
  }

  lemma NvicContiguous()
    ensures Contiguous(NvicMembers())
    ensures SizeWords(NvicMembers()) == 897
  {
    var ms := NvicMembers();
    assert Contiguous(ms);
    SizeIsEnd(ms);
  }
}

=== FILE: registers.dfy ===
/**
 * Register fields of `hal/registers.hpp`.
 *
 * A field is described by its template arguments: the bit offset, the size in bits
 * and the access mode.  The template picks one of three storage strategies for the
 * 32-bit word the field lives in:
 *   - a C++ bit-field preceded by `Offset` bits of padding (access mode `field`, `Offset > 0`);
 *   - a C++ bit-field at bit 0 (access mode `field`, `Offset == 0`);
 *   - the whole word with mask arithmetic (access mode `bitwise_logic`): a read is
 *     `(word & mask) >> Offset` and a write is `word |= (value << Offset) & mask`,
 *     so a masked write can set bits but never clear them.
 *
 * Field values are words too: the value a C++ field holds, zero-extended to 32 bits,
 * and the value written is `static_cast<raw_register>(value)`.  `bool` fields use
 * `Bits.FromBool`, enumerations `Bits.FromNat` of their underlying value.
 */
module Registers {
  import opened Bits

  datatype AccessMode = FieldAccess | BitwiseLogic

  /** `concepts::integral` (this includes `bool` and `raw_register`) or `concepts::enumeration`. */
  datatype ValueKind = Integral | Enumeration

  /** `default_access_mode`: integral values are bit-fields, enumerations use mask arithmetic. */
  function DefaultAccessMode(k: ValueKind): (m: AccessMode)
    ensures m == FieldAccess <==> k == Integral
    ensures m == BitwiseLogic <==> k == Enumeration
  {
    match k
    case Integral => FieldAccess
    case Enumeration => BitwiseLogic
  }

  /** The `Offset`, `Size` and `Access` template arguments of a register field. */
  datatype Field = Field(offset: nat, size: nat, access: AccessMode)

  /**
   * `register_field_base` requires `Offset + Size <= register_bits`.  A size of 0 is
   * refused as well: a named bit-field cannot be 0 bits wide and `bit_mask<Offset, 0>`
   * has no base case.
   */
  predicate ValidField(f: Field)
  {
    1 <= f.size && f.offset + f.size <= WordBits
  }

  /** The three `register_data` specialisations. */
  datatype Storage =
    | Padded(pad: nat, width: nat)
    | Unpadded(width: nat)
    | Masked(offset: nat, width: nat)

  /** Which `register_data` specialisation a field instantiates. */
  function StorageOf(f: Field): (s: Storage)
    ensures s.Masked? <==> f.access == BitwiseLogic
    ensures s.Unpadded? <==> f.access == FieldAccess && f.offset == 0
    ensures s.Padded? ==> s.pad == f.offset && s.width == f.size
    ensures s.Unpadded? ==> s.width == f.size
    ensures s.Masked? ==> s.offset == f.offset && s.width == f.size
  {
    match f.access
    case BitwiseLogic => Masked(f.offset, f.size)
    case FieldAccess => if f.offset == 0 then Unpadded(f.size) else Padded(f.offset, f.size)
  }

  // ---------------------------------------------------------------------------
  // The storage strategies

  /** Reading the C++ bit-field `value_ : size` that starts at bit `off`. */
  function BitFieldGet(w: Word, off: nat, size: nat): Word
    requires off + size <= WordBits
  {
    seq(32, i requires 0 <= i < 32 => i < size && w[off + i])
  }

  /** Assigning the C++ bit-field `value_ : size` at bit `off`: the value is truncated to `size` bits. */
  function BitFieldSet(w: Word, off: nat, size: nat, v: Word): Word
    requires off + size <= WordBits
  {
    seq(32, i requires 0 <= i < 32 => if off <= i < off + size then v[i - off] else w[i])
  }

  /** The masked read `(register_ & mask) >> Offset`. */
  function MaskedGet(w: Word, off: nat, size: nat): Word
    requires 1 <= size && off + size <= WordBits
  {
    Shr(And(w, BitMask(off, size)), off)
  }

  /** The masked write `register_ |= (value << Offset) & mask`. */
  function MaskedSet(w: Word, off: nat, size: nat, v: Word): Word
    requires 1 <= size && off + size <= WordBits
  {
    Or(w, And(Shl(v, off), BitMask(off, size)))
  }

  /** `get()` of a field over the word `w`. */
  function Get(f: Field, w: Word): Word
    requires ValidField(f)
  {
    match StorageOf(f)
    case Padded(pad, width) => BitFieldGet(w, pad, width)
    case Unpadded(width) => BitFieldGet(w, 0, width)
    case Masked(off, width) => MaskedGet(w, off, width)
  }

  /** `set(value)`, and `operator=(value)` which calls it. */
  function Set(f: Field, w: Word, v: Word): Word
    requires ValidField(f)
  {
    match StorageOf(f)
    case Padded(pad, width) => BitFieldSet(w, pad, width, v)
    case Unpadded(width) => BitFieldSet(w, 0, width, v)
    case Masked(off, width) => MaskedSet(w, off, width, v)
  }

  /** Bit `i` of the word lies inside the field. */
  predicate InField(f: Field, i: nat)
  {
    f.offset <= i < f.offset + f.size
  }

  // ---------------------------------------------------------------------------
  // Properties of the strategies

  /** A read yields bits `[Offset, Offset + Size)` of the word, shifted down, whatever the access mode. */
  lemma GetBits(f: Field, w: Word)
    requires ValidField(f)
    ensures forall i | 0 <= i < 32 :: Get(f, w)[i] <==> i < f.size && w[f.offset + i]
  {
    if f.access == BitwiseLogic {
      BitMaskBits(f.offset, f.size);
    }
  }

  /** The masked read and the bit-field read agree: the access mode does not change what is read. */
  lemma ReadAgreesAcrossModes(off: nat, size: nat, w: Word)
    requires 1 <= size && off + size <= WordBits
    ensures MaskedGet(w, off, size) == BitFieldGet(w, off, size)
  {
    BitMaskBits(off, size);
  }

  /** A read is the value of bits `[Offset, Offset + Size)`: the word shifted down, modulo 2^Size. */
  lemma GetValue(f: Field, w: Word)
    requires ValidField(f)
    ensures ToNat(Get(f, w)) == (ToNat(w) / Pow2(f.offset)) % Pow2(f.size)
  {
    GetBits(f, w);
    LowBitsBits(Shr(w, f.offset), f.size);
    assert Get(f, w) == LowBits(Shr(w, f.offset), f.size);
    LowBitsValue(Shr(w, f.offset), f.size);
    ShrValue(w, f.offset);
  }

  /** Whatever the strategy, a write leaves every bit outside the field as it was. */
  lemma SetFrame(f: Field, w: Word, v: Word)
    requires ValidField(f)
    ensures forall i | 0 <= i < 32 && !InField(f, i) :: Set(f, w, v)[i] == w[i]
  {
    if f.access == BitwiseLogic {
      BitMaskBits(f.offset, f.size);
    }
  }

  /** A bit-field write replaces the field by the low `Size` bits of the value. */
  lemma BitFieldSetBits(f: Field, w: Word, v: Word)
    requires ValidField(f) && f.access == FieldAccess
    ensures forall i | 0 <= i < 32 && InField(f, i) :: Set(f, w, v)[i] == v[i - f.offset]
  {
  }

  /** A masked write ORs the low `Size` bits of the value into the field. */
  lemma MaskedSetBits(f: Field, w: Word, v: Word)
    requires ValidField(f) && f.access == BitwiseLogic
    ensures forall i | 0 <= i < 32 && InField(f, i) :: Set(f, w, v)[i] == (w[i] || v[i - f.offset])
  {
    BitMaskBits(f.offset, f.size);
  }

  /** Bit-field round trip: after `set(v)`, `get()` yields `v` truncated to the field. */
  lemma BitFieldRoundTrip(f: Field, w: Word, v: Word)
    requires ValidField(f) && f.access == FieldAccess
    ensures Get(f, Set(f, w, v)) == LowBits(v, f.size)
    ensures ToNat(Get(f, Set(f, w, v))) == ToNat(v) % Pow2(f.size)
  {
    LowBitsBits(v, f.size);
    GetBits(f, Set(f, w, v));
    LowBitsValue(v, f.size);
  }

  /** A second bit-field write overrides the first one completely. */
  lemma BitFieldOverwrite(f: Field, w: Word, a: Word, b: Word)
    requires ValidField(f) && f.access == FieldAccess
    ensures Set(f, Set(f, w, a), b) == Set(f, w, b)
  {
  }

  /** Writing back what was read leaves a bit-field register unchanged. */
  lemma BitFieldSetCurrent(f: Field, w: Word)
    requires ValidField(f) && f.access == FieldAccess
    ensures Set(f, w, Get(f, w)) == w
  {
    GetBits(f, w);
  }

  /** A masked write never clears a bit: every bit set before is still set. */
  lemma MaskedSetMonotone(f: Field, w: Word, v: Word)
    requires ValidField(f) && f.access == BitwiseLogic
    ensures forall i | 0 <= i < 32 && w[i] :: Set(f, w, v)[i]
  {
  }

  /** A masked write accumulates: the field reads as the old value OR the new one. */
  lemma MaskedAccumulates(f: Field, w: Word, v: Word)
    requires ValidField(f) && f.access == BitwiseLogic
    ensures Get(f, Set(f, w, v)) == Or(Get(f, w), LowBits(v, f.size))
  {
    GetBits(f, w);
    GetBits(f, Set(f, w, v));
    MaskedSetBits(f, w, v);
    LowBitsBits(v, f.size);
  }

  /** A masked write is the bit-field write of the OR of the old and the new value. */
  lemma MaskedSetIsOrThenStore(f: Field, w: Word, v: Word)
    requires ValidField(f) && f.access == BitwiseLogic
    ensures Set(f, w, v) == BitFieldSet(w, f.offset, f.size, Or(Get(f, w), v))
  {
    GetBits(f, w);
    MaskedSetBits(f, w, v);
    SetFrame(f, w, v);
  }

  /** Repeating a masked write changes nothing. */
  lemma MaskedSetIdempotent(f: Field, w: Word, v: Word)
    requires ValidField(f) && f.access == BitwiseLogic
    ensures Set(f, Set(f, w, v), v) == Set(f, w, v)
  {
    BitMaskBits(f.offset, f.size);
  }

  /** When the field reads 0, both strategies store the value: `set(v); get() == v mod 2^Size`. */
  lemma SetFromClearedField(f: Field, w: Word, v: Word)
    requires ValidField(f) && Get(f, w) == Zero()
    ensures Get(f, Set(f, w, v)) == LowBits(v, f.size)
    ensures ToNat(Get(f, Set(f, w, v))) == ToNat(v) % Pow2(f.size)
  {
    if f.access == BitwiseLogic {
      MaskedAccumulates(f, w, v);
      LowBitsBits(v, f.size);
      assert Or(Zero(), LowBits(v, f.size)) == LowBits(v, f.size);
      LowBitsValue(v, f.size);
    } else {
      BitFieldRoundTrip(f, w, v);
    }
  }

  /**
   * The masked write does not overwrite: with a 3-bit enumeration at bit 5, writing 5
   * into a zero word gives 0xA0, and then writing 2 gives 0xE0 rather than 0x40.
   */
  lemma MaskedScenario(five: Word, two: Word)
    requires ToNat(five) == 5 && ToNat(two) == 2
    ensures var f := Field(5, 3, DefaultAccessMode(Enumeration));
            var w1 := Set(f, Zero(), five);
            ToNat(w1) == 0xA0 && ToNat(Set(f, w1, two)) == 0xE0
  {
    FirstMaskedWrite(five);
    SecondMaskedWrite(two);
    ScenarioValues();
  }

  /** Writing 5 into bits 5 to 7 of a zero word. */
  lemma FirstMaskedWrite(five: Word)
    requires ToNat(five) == 5
    ensures Set(Field(5, 3, BitwiseLogic), Zero(), five) == Falses(5) + [true, false, true] + Falses(24)
  {
    LowBitsOfSmall(five, 5);
    assert Zero() == Falses(5) + [false, false, false] + Falses(24);
    MaskedWriteAtFive(Zero(), five, false, false, false);
  }

  /** Writing 2 over the 5 already in bits 5 to 7. */
  lemma SecondMaskedWrite(two: Word)
    requires ToNat(two) == 2
    ensures Set(Field(5, 3, BitwiseLogic), Falses(5) + [true, false, true] + Falses(24), two)
      == Falses(5) + [true, true, true] + Falses(24)
  {
    LowBitsOfSmall(two, 2);
    MaskedWriteAtFive(Falses(5) + [true, false, true] + Falses(24), two, true, false, true);
  }

  lemma ScenarioValues()
    ensures ToNat(Falses(5) + [true, false, true] + Falses(24)) == 0xA0
    ensures ToNat(Falses(5) + [true, true, true] + Falses(24)) == 0xE0
  {
    PaddedValue(5, [true, false, true], 24);
    PaddedValue(5, [true, true, true], 24);
    assert ToNat([true, false, true]) == 5 && ToNat([true, true, true]) == 7;
    assert Pow2(5) == 32;
  }

  /** A masked write into bits 5 to 7 of a word that is clear elsewhere: each bit is or-ed with the value's. */
  lemma MaskedWriteAtFive(w: Word, v: Word, a0: bool, a1: bool, a2: bool)
    requires w == Falses(5) + [a0, a1, a2] + Falses(24)
    ensures Set(Field(5, 3, BitwiseLogic), w, v)
      == Falses(5) + [a0 || v[0], a1 || v[1], a2 || v[2]] + Falses(24)
  {
    var f := Field(5, 3, BitwiseLogic);
    MaskedSetBits(f, w, v);
    SetFrame(f, w, v);
  }

  /** The three low bits of a word holding a number below 8. */
  lemma LowBitsOfSmall(v: Word, n: nat)
    requires ToNat(v) == n && n < 8
    ensures v[0] == (n % 2 == 1) && v[1] == ((n / 2) % 2 == 1) && v[2] == ((n / 4) % 2 == 1)
  {
    ToNatFromNat(v);
    NatBitsStep(n, 32);
    NatBitsStep(n / 2, 31);
    NatBitsStep(n / 4, 30);
    assert n / 2 / 2 == n / 4;
  }

  /** A `bool` bit-field at bit 3 set to `true` in a zero word gives the word 8. */
  lemma BoolFieldScenario()
    ensures var f := Field(3, 1, DefaultAccessMode(Integral));
            ToNat(Set(f, Zero(), FromBool(true))) == 8 && Get(f, Set(f, Zero(), FromBool(true))) == FromBool(true)
  {
    var f := Field(3, 1, FieldAccess);
    var w := Set(f, Zero(), FromBool(true));
    assert w == Falses(3) + [true] + Falses(28);
    PaddedValue(3, [true], 28);
    assert Pow2(3) == 8;
  }

  // ---------------------------------------------------------------------------
  // Access wrappers

  /** `read_write_register_field`, `read_only_register_field` and `write_only_register_field`. */
  datatype Permission = ReadWrite | ReadOnly | WriteOnly

  /** The outcome of an operation that a wrapper may not expose. */
  datatype Gate<T> = Denied | Granted(value: T)

  /** `get()`, or the conversion to `value_type`: only the read-write and read-only wrappers have it. */
  function Read(p: Permission, f: Field, w: Word): (r: Gate<Word>)
    requires ValidField(f)
    ensures r.Granted? <==> p != WriteOnly
    ensures r.Granted? ==> forall i | 0 <= i < 32 :: r.value[i] <==> i < f.size && w[f.offset + i]
  {
    GetBits(f, w);
    if p == WriteOnly then Denied else Granted(Get(f, w))
  }

  /** `set(value)` or `operator=(value)`: only the read-write and write-only wrappers have it. */
  function Write(p: Permission, f: Field, w: Word, v: Word): (r: Gate<Word>)
    requires ValidField(f)
    ensures r.Granted? <==> p != ReadOnly
    ensures r.Granted? ==> forall i | 0 <= i < 32 && !InField(f, i) :: r.value[i] == w[i]
  {
    SetFrame(f, w, v);
    if p == ReadOnly then Denied else Granted(Set(f, w, v))
  }

  /** Through a read-write bit-field, a write is read back truncated to the field. */
  lemma ReadWriteRoundTrip(f: Field, w: Word, v: Word)
    requires ValidField(f) && f.access == FieldAccess
    ensures Write(ReadWrite, f, w, v).Granted?
    ensures Read(ReadWrite, f, Write(ReadWrite, f, w, v).value) == Granted(LowBits(v, f.size))
  {
    BitFieldRoundTrip(f, w, v);
  }

  // ---------------------------------------------------------------------------
  // Comparisons

  /** `operator==(register_field_base const&)`: the two fields' reads are equal. */
  function FieldEquals(f: Field, w: Word, u: Word): (r: bool)
    requires ValidField(f)
    ensures r <==> forall i | f.offset <= i < f.offset + f.size :: w[i] == u[i]
  {
    ReadsEqualBits(f, w, u);
    Get(f, w) == Get(f, u)
  }

  /** Two reads of a field are equal exactly when the words agree on the field's bits. */
  lemma ReadsEqualBits(f: Field, w: Word, u: Word)
    requires ValidField(f)
    ensures Get(f, w) == Get(f, u) <==> forall i | f.offset <= i < f.offset + f.size :: w[i] == u[i]
  {
    GetBits(f, w);
    GetBits(f, u);
    if forall i | f.offset <= i < f.offset + f.size :: w[i] == u[i] {
      assert forall i | 0 <= i < 32 :: Get(f, w)[i] == Get(f, u)[i];
    }
    if Get(f, w) == Get(f, u) {
      forall i | f.offset <= i < f.offset + f.size
        ensures w[i] == u[i]
      {
        assert Get(f, w)[i - f.offset] == Get(f, u)[i - f.offset];
      }
    }
  }

  /** `operator!=(register_field_base const&)`: the negation of `FieldEquals`. */
  function FieldNotEquals(f: Field, w: Word, u: Word): (r: bool)
    requires ValidField(f)
    ensures r <==> exists i | f.offset <= i < f.offset + f.size :: w[i] != u[i]
  {
    !FieldEquals(f, w, u)
  }

  /**
   * `operator==(value_type const&)` as written: it compares `get()` with `get()`, not
   * with its argument, so the answer is always `true`.
   */
  function FieldEqualsValueAsWritten(f: Field, w: Word, x: Word): (r: bool)
    requires ValidField(f)
    ensures r
  {
    Get(f, w) == Get(f, w)
  }

  /** `operator==(value_type const&)` as evidently intended: the read equals the value. */
  function FieldEqualsValue(f: Field, w: Word, x: Word): (r: bool)
    requires ValidField(f)
    ensures r <==> ToNat(x) == (ToNat(w) / Pow2(f.offset)) % Pow2(f.size)
  {
    GetValue(f, w);
    ToNatFromNat(x);
    ToNatFromNat(Get(f, w));
    Get(f, w) == x
  }

  /** A field holding 3 compares equal to 5 under the operator as written. */
  lemma FieldEqualsValueCounterexample()
    ensures var f := Field(0, 4, FieldAccess);
            var w := FromNat(3);
            FieldEqualsValueAsWritten(f, w, FromNat(5)) && !FieldEqualsValue(f, w, FromNat(5))
  {
    var f := Field(0, 4, FieldAccess);
    var w := FromNat(3);
    FromNatToNat(3);
    FromNatToNat(5);
    Pow2Of32();
    assert Pow2(4) == 16;
  }

  /** `operator!=(value_type const&)` is `!(*this == other)`, so as written it is always `false`. */
  function FieldNotEqualsValueAsWritten(f: Field, w: Word, x: Word): (r: bool)
    requires ValidField(f)
    ensures !r
  {
    !FieldEqualsValueAsWritten(f, w, x)
  }

  /** `operator!=(value_type const&)` over the intended equality. */
  function FieldNotEqualsValue(f: Field, w: Word, x: Word): (r: bool)
    requires ValidField(f)
    ensures r <==> ToNat(x) != (ToNat(w) / Pow2(f.offset)) % Pow2(f.size)
  {
    !FieldEqualsValue(f, w, x)
  }

  /** `operator<(register_field_base const&)`: the reads compare as numbers. */
  function FieldLess(f: Field, w: Word, u: Word): (r: bool)
    requires ValidField(f)
    ensures r <==> (ToNat(w) / Pow2(f.offset)) % Pow2(f.size) < (ToNat(u) / Pow2(f.offset)) % Pow2(f.size)
  {
    GetValue(f, w);
    GetValue(f, u);
    ToNat(Get(f, w)) < ToNat(Get(f, u))
  }

  /** `operator<(value_type const&)`: the read is below the value. */
  function FieldLessValue(f: Field, w: Word, x: Word): (r: bool)
    requires ValidField(f)
    ensures r <==> (ToNat(w) / Pow2(f.offset)) % Pow2(f.size) < ToNat(x)
  {
    GetValue(f, w);
    ToNat(Get(f, w)) < ToNat(x)
  }

  /**
   * The order `value < field` that the free `operator<(T const& rhs, field const& lhs)`
   * is meant to give: the value is below the read.  As declared that operator calls
   * the protected `<` and `!=` of the base through a base reference, so no use of it
   * compiles; this is the order its body spells out over the intended equality.
   */
  function ValueLessField(f: Field, w: Word, x: Word): (r: bool)
    requires ValidField(f)
    ensures r <==> ToNat(x) < (ToNat(w) / Pow2(f.offset)) % Pow2(f.size)
  {
    !FieldLessValue(f, w, x) && FieldNotEqualsValue(f, w, x)
  }

  /** The intended comparisons form a trichotomy between a field and a value. */
  lemma ValueComparisonTrichotomy(f: Field, w: Word, x: Word)
    requires ValidField(f)
    ensures FieldLessValue(f, w, x) || FieldEqualsValue(f, w, x) || ValueLessField(f, w, x)
    ensures !(FieldLessValue(f, w, x) && ValueLessField(f, w, x))
    ensures FieldEqualsValue(f, w, x) ==> !FieldLessValue(f, w, x) && !ValueLessField(f, w, x)
  {
  }
}

=== FILE: scb.dfy ===
/**
 * The System Control Block of `hal/scb.hpp`: its register unions as field lists, the
 * system handler priority array, the 16-word layout, `get_cpu_id`, and the mapping
 * `irqn_to_index` of `src/nvic.cpp` from exception numbers to handler indices.
 */
module Scb {
  import opened Bits
  import opened Registers
  import opened FieldArrays
  import opened CommonTypes
  import opened Layout

  // ---------------------------------------------------------------------------
  // Register unions

  function CpuIdRegister(): seq<FieldDesc>
  {
    [ FieldDesc("revision", RawField(0, 4), ReadOnly),
      FieldDesc("partno", RawField(4, 12), ReadOnly),
      FieldDesc("constant", RawField(16, 4), ReadOnly),
      FieldDesc("variant", RawField(20, 4), ReadOnly),
      FieldDesc("implementer", RawField(24, 8), ReadOnly) ]
  }

  function InterruptControlState(): seq<FieldDesc>
  {
    [ FieldDesc("vectactive", RawField(0, 9), ReadOnly),
      FieldDesc("rettobase", RawField(11, 1), ReadOnly),
      FieldDesc("vectpending", RawField(12, 9), ReadOnly),
      FieldDesc("isrpending", BoolField(22), ReadOnly),
      FieldDesc("isrpreemt", BoolField(23), ReadOnly),
      FieldDesc("pendstclr", EnumField(25, 1), WriteOnly),
      FieldDesc("pendstset", EnumField(26, 1), ReadWrite),
      FieldDesc("pendsvclr", EnumField(25, 1), WriteOnly),
      FieldDesc("pendsvset", EnumField(26, 1), ReadWrite),
      FieldDesc("nmipendset", EnumField(26, 1), ReadWrite) ]
  }

  function VectorTableOffset(): seq<FieldDesc>
  {
    [ FieldDesc("tbloff", RawField(7, 22), ReadWrite),
      FieldDesc("tblbase", EnumField(29, 1), ReadWrite) ]
  }

  function AppInterruptAndResetControl(): seq<FieldDesc>
  {
    [ FieldDesc("vectreset", EnumField(0, 1), ReadWrite),
      FieldDesc("vectclractive", EnumField(1, 1), ReadWrite),
      FieldDesc("sysresetreq", EnumField(2, 1), ReadWrite),
      FieldDesc("prigroup", EnumField(8, 3), ReadWrite),
      FieldDesc("edniannes", EnumField(2, 1), ReadOnly),
      FieldDesc("vectkeystat", RawField(16, 16), ReadOnly),
      FieldDesc("vectkey", RawField(16, 16), ReadWrite) ]
  }

  function SystemControl(): seq<FieldDesc>
  {
    [ FieldDesc("sleeponexit", RawField(1, 1), ReadWrite),
      FieldDesc("sleepdeep", RawField(2, 1), ReadWrite),
      FieldDesc("sevonpend", EnumField(3, 1), ReadWrite) ]
  }

  function ConfigurationControl(): seq<FieldDesc>
  {
    [ FieldDesc("nonebasethrdena", EnumField(0, 1), ReadWrite),
      FieldDesc("usersetmpend", EnumField(1, 1), ReadWrite),
      FieldDesc("unalign_trp", EnumField(2, 1), ReadWrite),
      FieldDesc("div_0_trp", EnumField(3, 1), ReadWrite),
      FieldDesc("bfhfnmign", EnumField(8, 1), ReadWrite),
      FieldDesc("stkalign", RawField(9, 1), ReadOnly) ]
  }

  function SystemHandlerControlAndState(): seq<FieldDesc>
  {
    [ FieldDesc("memfaultact", EnumField(0, 1), ReadWrite),
      FieldDesc("busfaultact", EnumField(1, 1), ReadWrite),
      FieldDesc("usgfaultact", EnumField(2, 1), ReadWrite),
      FieldDesc("svcallact", EnumField(7, 1), ReadWrite),
      FieldDesc("pednsvact", EnumField(10, 1), ReadWrite),
      FieldDesc("sestickact", EnumField(11, 1), ReadWrite),
      FieldDesc("usgfaultpended", EnumField(12, 1), ReadWrite),
      FieldDesc("memfaultpended", EnumField(13, 1), ReadWrite),
      FieldDesc("busfaultpended", EnumField(14, 1), ReadWrite),
      FieldDesc("svcallpended", EnumField(15, 1), ReadWrite),
      FieldDesc("memfaultena", EnumField(16, 1), ReadWrite),
      FieldDesc("busfaultena", EnumField(17, 1), ReadWrite),
      FieldDesc("usgfaultena", EnumField(18, 1), ReadWrite) ]
  }

  function ConfigurableFaultStatus(): seq<FieldDesc>
  {
    [ FieldDesc("iaccviol", RawField(0, 1), ReadWrite),
      FieldDesc("daccviol", RawField(1, 1), ReadWrite),
      FieldDesc("munstkerr", RawField(3, 1), ReadWrite),
      FieldDesc("mstkerr", RawField(4, 1), ReadWrite),
      FieldDesc("mmarvalid", RawField(7, 1), ReadWrite),
      FieldDesc("ibuserr", RawField(8, 1), ReadWrite),
      FieldDesc("precierr", RawField(9, 1), ReadWrite),
      FieldDesc("ipreciserr", RawField(10, 1), ReadWrite),
      FieldDesc("unstkerr", RawField(11, 1), ReadWrite),
      FieldDesc("stkerr", RawField(12, 1), ReadWrite),
      FieldDesc("bfarvalid", RawField(15, 1), ReadWrite),
      FieldDesc("undefinstr", RawField(16, 1), ReadWrite),
      FieldDesc("invstate", RawField(17, 1), ReadWrite),
      FieldDesc("invpc", RawField(18, 1), ReadWrite),
      FieldDesc("nocp", RawField(19, 1), ReadWrite),
      FieldDesc("unaligned", RawField(24, 1), ReadWrite),
      FieldDesc("dibyzero", RawField(15, 1), ReadWrite) ]
  }

  function HardFaultStatus(): seq<FieldDesc>
  {
    [ FieldDesc("vecttbl", RawField(1, 1), ReadWrite),
      FieldDesc("forced", RawField(30, 1), ReadWrite),
      FieldDesc("debugevt", RawField(31, 1), ReadWrite) ]
  }

  function DebugFaultStatus(): seq<FieldDesc>
  {
    [ FieldDesc("halted", RawField(0, 1), ReadWrite),
      FieldDesc("bkpt", RawField(1, 1), ReadWrite),
      FieldDesc("dwttrap", RawField(2, 1), ReadWrite),
      FieldDesc("vcatch", RawField(3, 1), ReadWrite),
      FieldDesc("external", RawField(4, 1), ReadWrite) ]
  }

  /** `memmanage_fault_address_register` and `bus_fault_address_register`: one 32-bit field. */
  function FaultAddress(): seq<FieldDesc>
  {
    [ FieldDesc("address", RawField(0, 32), ReadWrite) ]
  }

  /** Every field of every SCB register union lies inside its 32-bit word. */
  lemma UnionsValid()
    ensures UnionValid(CpuIdRegister()) && UnionValid(InterruptControlState())
    ensures UnionValid(VectorTableOffset()) && UnionValid(AppInterruptAndResetControl())
    ensures UnionValid(SystemControl()) && UnionValid(ConfigurationControl())
    ensures UnionValid(SystemHandlerControlAndState()) && UnionValid(ConfigurableFaultStatus())
    ensures UnionValid(HardFaultStatus()) && UnionValid(DebugFaultStatus()) && UnionValid(FaultAddress())
  {
    StatusUnionsValid();
    FaultStatusUnionsValid();
    ControlUnionsValid();
  }

  lemma StatusUnionsValid()
    ensures UnionValid(SystemHandlerControlAndState())
    ensures UnionValid(HardFaultStatus()) && UnionValid(DebugFaultStatus()) && UnionValid(FaultAddress())
  {
  }

  lemma FaultStatusUnionsValid()
    ensures UnionValid(ConfigurableFaultStatus())
  {
  }

  lemma ControlUnionsValid()
    ensures UnionValid(CpuIdRegister()) && UnionValid(InterruptControlState())
    ensures UnionValid(VectorTableOffset()) && UnionValid(AppInterruptAndResetControl())
    ensures UnionValid(SystemControl()) && UnionValid(ConfigurationControl())
  {
  }

  /**
   * The fields declared on the same bits: `pendstclr` and `pendsvclr` share bit 25;
   * `pendstset`, `pendsvset` and `nmipendset` share bit 26; `edniannes` shares bit 2
   * with `sysresetreq`; `dibyzero` shares bit 15 with `bfarvalid`.
   */
  lemma AliasedFields()
    ensures InterruptControlState()[5].field == InterruptControlState()[7].field
    ensures InterruptControlState()[6].field == InterruptControlState()[8].field == InterruptControlState()[9].field
    ensures Overlap(AppInterruptAndResetControl()[2].field, AppInterruptAndResetControl()[4].field)
    ensures ConfigurableFaultStatus()[10].field == ConfigurableFaultStatus()[16].field
  {
  }

  /** No two fields of the union share a bit. */
  predicate NoSharedBits(fs: seq<FieldDesc>)
  {
    forall j, k | 0 <= j < k < |fs| :: !Overlap(fs[j].field, fs[k].field)
  }

  /** Each field ends at or before the start of the next. */
  predicate Ascending(fs: seq<FieldDesc>)
  {
    forall k | 0 <= k < |fs| - 1 :: fs[k].field.offset + fs[k].field.size <= fs[k + 1].field.offset
  }

  /** Fields listed in ascending bit order share no bit. */
  lemma AscendingNoShared(fs: seq<FieldDesc>)
    requires Ascending(fs)
    ensures NoSharedBits(fs)
  {
    forall j, k | 0 <= j < k < |fs|
      ensures !Overlap(fs[j].field, fs[k].field)
    {
      AscendingGap(fs, j, k);
    }
  }

  lemma {:induction false} AscendingGap(fs: seq<FieldDesc>, j: nat, k: nat)
    requires Ascending(fs) && j < k < |fs|
    ensures fs[j].field.offset + fs[j].field.size <= fs[k].field.offset
    decreases k - j
  {
    if k > j + 1 {
      AscendingGap(fs, j, k - 1);
    }
  }

  /**
   * As declared, setting `pendsvset` raises bit 26, the bit of `pendstset`: it pends
   * SysTick and leaves bit 28, where the Cortex-M3 keeps PENDSVSET, as it was.
   */
  lemma PendSvSetPendsSysTick(w: Word)
    ensures InterruptControlState()[8].name == "pendsvset"
    ensures var r := Set(InterruptControlState()[8].field, w, BitWord(true));
      && r == Set(InterruptControlState()[6].field, w, BitWord(true))
      && r[26] && r[28] == w[28]
    ensures !NoSharedBits(InterruptControlState())
  {
    RaiseFlagIsFieldWrite(w, 26);
    assert Overlap(InterruptControlState()[5].field, InterruptControlState()[7].field);
  }

  /**
   * The interrupt control and state register with the bit positions of the ARMv7-M
   * architecture: PENDSVCLR at bit 27, PENDSVSET at bit 28 and NMIPENDSET at bit 31,
   * the separate flags the field comments describe.  Every other field is as declared.
   */
  function InterruptControlStateIntended(): (fs: seq<FieldDesc>)
    ensures UnionValid(fs) && NoSharedBits(fs)
    ensures |fs| == |InterruptControlState()|
    ensures forall k | 0 <= k < |fs| ::
      fs[k].name == InterruptControlState()[k].name && fs[k].perm == InterruptControlState()[k].perm
    ensures forall k | 0 <= k < 7 :: fs[k] == InterruptControlState()[k]
  {
    var fs := InterruptControlState()[7 := FieldDesc("pendsvclr", EnumField(27, 1), WriteOnly)]
                                     [8 := FieldDesc("pendsvset", EnumField(28, 1), ReadWrite)]
                                     [9 := FieldDesc("nmipendset", EnumField(31, 1), ReadWrite)];
    AscendingNoShared(fs);
    fs
  }

  /** With the intended positions, setting `pendsvset` raises bit 28 and leaves the SysTick bit 26 alone. */
  lemma PendSvSetIntended(w: Word)
    ensures var r := Set(InterruptControlStateIntended()[8].field, w, BitWord(true));
      r[28] && r[26] == w[26]
  {
    RaiseFlagIsFieldWrite(w, 28);
  }

  /**
   * As declared, `edniannes` reads bit 2, the `sysresetreq` bit, so the endianness
   * read back is whatever a reset request left there.
   */
  lemma EndiannessReadsResetRequest(w: Word)
    ensures AppInterruptAndResetControl()[4].name == "edniannes"
    ensures Get(AppInterruptAndResetControl()[4].field, w)[0] == w[2]
    ensures Overlap(AppInterruptAndResetControl()[4].field, AppInterruptAndResetControl()[2].field)
  {
    GetBits(AppInterruptAndResetControl()[4].field, w);
  }

  /**
   * The application interrupt and reset control register with ENDIANNESS at bit 15,
   * as the ARMv7-M architecture places it: it shares no bit with any other field.
   */
  function AppInterruptAndResetControlIntended(): (fs: seq<FieldDesc>)
    ensures UnionValid(fs) && |fs| == |AppInterruptAndResetControl()|
    ensures forall k | 0 <= k < |fs| && k != 4 :: fs[k] == AppInterruptAndResetControl()[k]
    ensures fs[4].name == "edniannes" && fs[4].perm == ReadOnly
    ensures forall k | 0 <= k < |fs| && k != 4 :: !Overlap(fs[4].field, fs[k].field)
  {
    AppInterruptAndResetControl()[4 := FieldDesc("edniannes", EnumField(15, 1), ReadOnly)]
  }

  /** The intended `edniannes` reads bit 15. */
  lemma EndiannessIntended(w: Word)
    ensures Get(AppInterruptAndResetControlIntended()[4].field, w)[0] == w[15]
  {
    GetBits(AppInterruptAndResetControlIntended()[4].field, w);
  }

  /**
   * As declared, `dibyzero` is bit 15, the `bfarvalid` bit, so a divide-by-zero
   * usage fault cannot be told from a valid bus fault address.
   */
  lemma DivByZeroReadsBusFault(w: Word)
    ensures ConfigurableFaultStatus()[16].name == "dibyzero"
    ensures Get(ConfigurableFaultStatus()[16].field, w) == Get(ConfigurableFaultStatus()[10].field, w)
    ensures Get(ConfigurableFaultStatus()[16].field, w)[0] == w[15]
    ensures !NoSharedBits(ConfigurableFaultStatus())
  {
    GetBits(ConfigurableFaultStatus()[16].field, w);
    assert Overlap(ConfigurableFaultStatus()[10].field, ConfigurableFaultStatus()[16].field);
  }

  /**
   * The configurable fault status register with DIVBYZERO at bit 25, as the ARMv7-M
   * architecture places it: then no two fields share a bit.
   */
  function ConfigurableFaultStatusIntended(): (fs: seq<FieldDesc>)
    ensures UnionValid(fs) && NoSharedBits(fs)
    ensures |fs| == |ConfigurableFaultStatus()| && fs[16].name == "dibyzero"
    ensures forall k | 0 <= k < 16 :: fs[k] == ConfigurableFaultStatus()[k]
  {
    var fs := ConfigurableFaultStatus()[16 := FieldDesc("dibyzero", RawField(25, 1), ReadWrite)];
    FaultStatusIntendedAscending(fs);
    AscendingNoShared(fs);
    fs
  }

  lemma FaultStatusIntendedAscending(fs: seq<FieldDesc>)
    requires fs == ConfigurableFaultStatus()[16 := FieldDesc("dibyzero", RawField(25, 1), ReadWrite)]
    ensures Ascending(fs) && UnionValid(fs)
  {
  }

  /** The intended `dibyzero` reads bit 25. */
  lemma DivByZeroIntended(w: Word)
    ensures Get(ConfigurableFaultStatusIntended()[16].field, w)[0] == w[25]
  {
    GetBits(ConfigurableFaultStatusIntended()[16].field, w);
  }

  /** `prigroup` is an enumeration, so it takes the masked strategy and a write cannot lower it. */
  lemma PrigroupIsMasked(w: Word, v: Word)
    ensures AppInterruptAndResetControl()[3].field == Field(8, 3, BitwiseLogic)
    ensures forall i | 0 <= i < 32 && w[i] :: Set(Field(8, 3, BitwiseLogic), w, v)[i]
  {
    MaskedSetMonotone(Field(8, 3, BitwiseLogic), w, v);
  }

  // ---------------------------------------------------------------------------
  // System handler priorities

  /** `system_handler_priority_register`: 12 eight-bit priorities in 3 words. */
  const HandlerPriorities := ArraySpec(8, 12, 3, 8, 0)

  /** `system_handler_index_t`. */
  datatype SystemHandler = MemManageFault | BusFaultHandler | UsageFaultHandler | SvCallHandler
                         | DebugMonitorHandler | PendSvHandler | SysTickHandler

  function HandlerIndex(h: SystemHandler): int
  {
    match h
    case MemManageFault => 0
    case BusFaultHandler => 1
    case UsageFaultHandler => 2
    case SvCallHandler => 7
    case DebugMonitorHandler => 8
    case PendSvHandler => 10
    case SysTickHandler => 11
  }

  /** The priority array is valid, fills its 3 words, and every handler index names one of its elements. */
  lemma HandlerPrioritiesFit(h: SystemHandler)
    ensures Valid(HandlerPriorities)
    ensures HandlerPriorities.fieldCount * HandlerPriorities.storageSize == HandlerPriorities.registerCount * WordBits
    ensures 0 <= HandlerIndex(h) < HandlerPriorities.fieldCount
  {
  }

  /** `irqn_to_index`: `(static_cast<std::uint32_t>(irqn) & 0xf) - 4` in `std::uint32_t`, then read as an `int` enumerator. */
  function IrqnToIndex(n: Irqn): (r: int)
    ensures r == n % 16 - 4
    ensures -16 <= n < 0 ==> r == n + 12
  {
    var low := AsUint32(n) % 16;
    assert low == n % 16 by {
      if n < 0 {
        assert AsUint32(n) == n + 16 * 0x1000_0000;
      }
    }
    var diff := (low - 4) % U32;
    AsInt32(diff)
  }

  /** Reading a `std::uint32_t` as a 32-bit signed integer. */
  function AsInt32(u: nat): (r: int)
    requires u < U32
    ensures -0x8000_0000 <= r < 0x8000_0000 && r % U32 == u
  {
    if u < 0x8000_0000 then u else u - U32
  }

  /**
   * The exception numbers that have a configurable priority map to their handler
   * index; the non-maskable interrupt and the hard fault map to -2 and -1, which
   * name no handler.
   */
  lemma IrqnToIndexHandlers()
    ensures IrqnToIndex(MemoryManagement) == HandlerIndex(MemManageFault)
    ensures IrqnToIndex(BusFault) == HandlerIndex(BusFaultHandler)
    ensures IrqnToIndex(UsageFault) == HandlerIndex(UsageFaultHandler)
    ensures IrqnToIndex(SvCall) == HandlerIndex(SvCallHandler)
    ensures IrqnToIndex(DebugMonitor) == HandlerIndex(DebugMonitorHandler)
    ensures IrqnToIndex(PendSv) == HandlerIndex(PendSvHandler)
    ensures IrqnToIndex(SysTick) == HandlerIndex(SysTickHandler)
    ensures IrqnToIndex(NonMaskableInt) == -2 && IrqnToIndex(HardFault) == -1
  {
  }

  /** Distinct system exceptions get distinct indices, and every index from -4 to 11 is reached. */
  lemma IrqnToIndexInjective(m: Irqn, n: Irqn)
    requires -16 <= m < 0 && -16 <= n < 0
    ensures IrqnToIndex(m) == IrqnToIndex(n) <==> m == n
    ensures -4 <= IrqnToIndex(n) < 12
  {
  }

  // ---------------------------------------------------------------------------
  // The scb structure

  const ScbBase: nat := 0xe000_ed00
  const AfsrAddress: nat := 0xe000_ed3c
  /** `end_address`: the AFSR address plus `sizeof(auxilary_fault_address_register)`. */
  const ScbEnd: nat := AfsrAddress + 4

  /** `auxilary_fault_address_register`: 32 one-bit elements in one word. */
  const AuxFaultBits := ArraySpec(1, 32, 1, 1, 0)

  function ScbMembers(): seq<Member>
  {
    [ Member("cpuid", 0, 1), Member("icsr", 1, 1), Member("voff", 2, 1), Member("aircr", 3, 1),
      Member("scr", 4, 1), Member("ccr", 5, 1), Member("shp", 6, HandlerPriorities.registerCount),
      Member("shcsr", 9, 1), Member("cfsr", 10, 1), Member("hfsr", 11, 1), Member("dfsr", 12, 1),
      Member("mmfar", 13, 1), Member("bfar", 14, 1), Member("afsr", 15, AuxFaultBits.registerCount) ]
  }

  /**
   * `sizeof(scb) == end_address - base_address`: the members lie back to back,
   * 16 words or 0x40 bytes in all, with `shp` at 0xe000ed18, `shcsr` at 0xe000ed24
   * and the AFSR last, at its architectural address.
   */
  lemma ScbLayout()
    ensures Contiguous(ScbMembers())
    ensures SizeWords(ScbMembers()) == 16
    ensures 4 * SizeWords(ScbMembers()) == ScbEnd - ScbBase == 0x40
    ensures ScbBase + 4 * Words(ScbMembers(), 0, 13) == AfsrAddress
    ensures ScbBase + 4 * Words(ScbMembers(), 0, 6) == 0xe000_ed18
    ensures ScbBase + 4 * Words(ScbMembers(), 0, 7) == 0xe000_ed24
  {
    var ms := ScbMembers();
    assert Contiguous(ms);
    SizeIsEnd(ms);
    OffsetIsSum(ms, 13);
    OffsetIsSum(ms, 6);
    OffsetIsSum(ms, 7);
  }

  /** The SCB as its 16 words, in layout order. */
  predicate ScbWords(s: seq<Word>)
  {
    |s| == 16
  }

  /** `get_cpu_id`: a `cpu_id` whose raw word is the CPUID register's raw word, the first of the SCB. */
  function GetCpuId(s: seq<Word>): (id: Word)
    requires ScbWords(s)
    ensures forall k | 0 <= k < |CpuIdFields()| ::
      Get(CpuIdFields()[k], id) == Get(CpuIdRegister()[k].field, s[ScbMembers()[0].offset])
  {
    s[0]
  }

  /** The copy is faithful: a word is determined by its CPUID fields, so `get_cpu_id` returns exactly the register. */
  lemma GetCpuIdIsRegister(s: seq<Word>, id: Word)
    requires ScbWords(s)
    requires forall k | 0 <= k < |CpuIdFields()| ::
      Get(CpuIdFields()[k], id) == Get(CpuIdRegister()[k].field, s[ScbMembers()[0].offset])
    ensures id == GetCpuId(s)
  {
    CpuIdFieldsDetermineWord(id, GetCpuId(s));
  }
}

=== FILE: system.dfy ===
/**
 * `hal/system.hpp` and `system.cpp`: the one system `clock`, which keeps the system
 * frequency in hertz and a `std::uint32_t` count of SysTick interrupts, read back as
 * milliseconds.  The single static instance is modelled as a value that each entry
 * point takes and returns.
 */
module SystemClock {
  import opened Bits
  import opened Traits
  import opened Chrono
  import opened Frequency

  /** `clock`: the members `system_frequency_` (hertz) and `tick_`. */
  datatype Clock = Clock(frequency: Freq, tick: nat)

  predicate ValidClock(c: Clock)
  {
    Valid(c.frequency) && c.frequency.period == Hertz && c.tick < U32
  }

  /** The frequency `system_init` sets: 54 MHz. */
  const InitFrequency: nat := 54_000_000

  /**
   * `mutable_instance`: a function-local static object, whose members are
   * zero-initialised because the defaulted constructor initialises none of them.
   */
  function Initial(): (c: Clock)
    ensures ValidClock(c)
    ensures c.tick == 0 && InHertz(c.frequency) == 0
  {
    Clock(Freq(0, Hertz), 0)
  }

  /** `instance()` hands out the object `mutable_instance()` holds. */
  function Instance(state: Clock): (c: Clock)
    ensures c.tick == state.tick && c.frequency == state.frequency
  {
    state
  }

  /** `increment_tick`: one more interrupt, wrapping to 0 after 2^32 - 1. */
  function IncrementTick(c: Clock): (r: Clock)
    requires ValidClock(c)
    ensures ValidClock(r) && r.frequency == c.frequency
    ensures c.tick + 1 < U32 ==> r.tick == c.tick + 1
    ensures c.tick + 1 == U32 ==> r.tick == 0
  {
    Clock(c.frequency, ToUint32(c.tick + 1))
  }

  /** `tick()`. */
  function Tick(c: Clock): (r: nat)
    requires ValidClock(c)
    ensures r < U32 && r == Instance(c).tick
  {
    c.tick
  }

  /** `system_frequency()`. */
  function SystemFrequency(c: Clock): (f: Freq)
    requires ValidClock(c)
    ensures Valid(f) && f.period == Hertz && InHertz(f) == f.count
  {
    c.frequency
  }

  /** `ticks_per_millisecond`: the whole number of cycles in a millisecond. */
  function TicksPerMillisecond(c: Clock): (r: nat)
    requires ValidClock(c)
    ensures r * 1000 <= InHertz(c.frequency) < (r + 1) * 1000
  {
    c.frequency.count / 1000
  }

  /**
   * `now()`: the tick as a count of `std::int32_t` milliseconds, so a tick of 2^31
   * or more reads as a negative duration.
   */
  function Now(c: Clock): (t: Duration)
    requires ValidClock(c)
    ensures ValidDuration(t) && t.period == Milli
    ensures (t.count - c.tick) % U32 == 0
    ensures c.tick < I32Limit ==> t.count == c.tick
    ensures c.tick >= I32Limit ==> t.count < 0
  {
    FitsUnchanged(c.tick);
    Duration(ToInt32(c.tick), Milli)
  }

  /**
   * The private setter `system_frequency(frequency<Period>)`: the assignment converts
   * the argument to hertz with `frequency_cast`.
   */
  function SetFrequency(c: Clock, f: Freq): (r: Clock)
    requires ValidClock(c) && Valid(f)
    ensures ValidClock(r) && r.tick == c.tick
    ensures InHertz(f) < U32 ==> InHertz(r.frequency) == InHertz(f)
  {
    CastToDivisorWhenFits(f, Hertz);
    Clock(FrequencyCast(f, Hertz), c.tick)
  }

  /**
   * `system_init`: sets the system frequency to 54,000,000 Hz.  The argument is a
   * plain integer, which the setter's template cannot take as a `frequency`; it is
   * read as hertz.
   */
  function SystemInit(c: Clock): (r: Clock)
    requires ValidClock(c)
    ensures ValidClock(r) && r.tick == c.tick
    ensures InHertz(r.frequency) == InitFrequency
    ensures TicksPerMillisecond(r) == 54_000
  {
    SetFrequency(c, Freq(InitFrequency, Hertz))
  }

  /** `system_tick`, the SysTick handler: `increment_tick` on the instance. */
  function SystemTick(c: Clock): (r: Clock)
    requires ValidClock(c)
    ensures ValidClock(r) && r.frequency == c.frequency
    ensures (r.tick - (c.tick + 1)) % U32 == 0
  {
    IncrementTick(c)
  }

  // ---------------------------------------------------------------------------
  // Properties

  /** One interrupt moves `now()` forward by one millisecond, modulo 2^32. */
  lemma TickAdvancesNow(c: Clock)
    requires ValidClock(c)
    ensures (Now(SystemTick(c)).count - (Now(c).count + 1)) % U32 == 0
    ensures c.tick + 1 < I32Limit ==> Now(SystemTick(c)).count == Now(c).count + 1
  {
    var a := Now(c).count;
    var b := Now(SystemTick(c)).count;
    var t := SystemTick(c).tick;
    CongruentSum(b - t, t - (c.tick + 1), c.tick - a);
    assert b - (a + 1) == (b - t) + (t - (c.tick + 1)) + (c.tick - a);
  }

  /** Three multiples of 2^32 add up to a multiple of 2^32. */
  lemma CongruentSum(x: int, y: int, z: int)
    requires x % U32 == 0 && y % U32 == 0 && z % U32 == 0
    ensures (x + y + z) % U32 == 0
  {
    assert x == (x / U32) * U32;
    assert y == (y / U32) * U32;
    assert z == (z / U32) * U32;
    assert x + y + z == (x / U32 + y / U32 + z / U32) * U32;
  }

  /** The events that reach the clock: `system_init` and SysTick interrupts. */
  datatype Event = Init | Interrupt

  /** The clock after the events, in order. */
  function Run(c: Clock, es: seq<Event>): (r: Clock)
    requires ValidClock(c)
    ensures ValidClock(r)
    decreases |es|
  {
    if |es| == 0 then c
    else
      var next := if es[0] == Init then SystemInit(c) else SystemTick(c);
      Run(next, es[1..])
  }

  /** The number of interrupts among the events. */
  function Interrupts(es: seq<Event>): nat
  {
    if |es| == 0 then 0
    else (if es[0] == Interrupt then 1 else 0) + Interrupts(es[1..])
  }

  /**
   * The tick counts the interrupts modulo 2^32, whatever `system_init` does in
   * between, and the frequency is 54 MHz once `system_init` has run.
   */
  lemma {:induction false} RunCountsInterrupts(c: Clock, es: seq<Event>)
    requires ValidClock(c)
    ensures Run(c, es).tick == (c.tick + Interrupts(es)) % U32
    ensures Init in es ==> InHertz(Run(c, es).frequency) == InitFrequency
    ensures Init !in es ==> Run(c, es).frequency == c.frequency
    decreases |es|
  {
    if |es| == 0 {
      FitsUnchanged(c.tick);
    } else {
      var next := if es[0] == Init then SystemInit(c) else SystemTick(c);
      RunCountsInterrupts(next, es[1..]);
      assert es == [es[0]] + es[1..];
      var n := Interrupts(es[1..]);
      var step := if es[0] == Interrupt then 1 else 0;
      assert (next.tick - (c.tick + step)) % U32 == 0;
      ShiftedMod(next.tick, c.tick + step, n);
      if es[0] == Interrupt && Init in es[1..] {
        assert InHertz(Run(c, es).frequency) == InitFrequency;
      }
    }
  }

  /** Adding the same amount to two numbers congruent modulo 2^32 keeps them congruent. */
  lemma ShiftedMod(x: nat, y: nat, n: nat)
    requires (x - y) % U32 == 0
    ensures (x + n) % U32 == (y + n) % U32
  {
    var k := (x - y) / U32;
    assert x + n == (y + n) + k * U32;
    ModMultiple(y + n, k);
  }

  /** Adding a multiple of 2^32 leaves the remainder unchanged. */
  lemma ModMultiple(a: int, k: int)
    ensures (a + k * U32) % U32 == a % U32
  {
    var q := a / U32;
    var m := a % U32;
    assert a + k * U32 == U32 * (q + k) + m;
    IntDivModUnique(a + k * U32, q + k, m, U32);
  }

  /** From the zero-initialised instance, `system_init` gives 54,000 ticks per millisecond at tick 0. */
  lemma InitFromStart()
    ensures SystemInit(Initial()).tick == 0
    ensures TicksPerMillisecond(SystemInit(Initial())) == 54_000
    ensures Now(SystemInit(Initial())) == Duration(0, Milli)
  {
  }

  /**
   * Setting the frequency and counting an interrupt touch different members, so they
   * commute; setting the same frequency twice is setting it once; and 54 MHz given in
   * megahertz stores the same clock as `system_init`.
   */
  lemma SettersIndependent(c: Clock, f: Freq)
    requires ValidClock(c) && Valid(f)
    ensures SystemTick(SetFrequency(c, f)) == SetFrequency(SystemTick(c), f)
    ensures SetFrequency(SetFrequency(c, f), f) == SetFrequency(c, f)
    ensures SetFrequency(c, Freq(54, MegaHertz)) == SystemInit(c)
  {
    CastToDivisorWhenFits(Freq(54, MegaHertz), Hertz);
    CastToDivisorWhenFits(Freq(InitFrequency, Hertz), Hertz);
  }
}

=== FILE: systick.dfy ===
/**
 * The SysTick timer of `hal/systick.hpp`: the control and status, reload, current
 * value and calibration registers, and the accessors of `systick`.  The enable
 * flags are `bool` bit-fields that overwrite; the clock source and the count flag
 * are one-bit enumerations, which take the masked strategy.
 */
module SysTick {
  import opened Bits
  import opened Registers
  import opened CommonTypes
  import opened Layout

  const SysTickBase: nat := 0xe000_e010

  const EnableBit: nat := 0
  const HandlerEnableBit: nat := 1
  const SourceBit: nat := 2
  const CountFlagBit: nat := 16

  function ControlStatusRegister(): seq<FieldDesc>
  {
    [ FieldDesc("enable", BoolField(EnableBit), ReadWrite),
      FieldDesc("handler_enable", BoolField(HandlerEnableBit), ReadWrite),
      FieldDesc("source", EnumField(SourceBit, 1), ReadWrite),
      FieldDesc("count_flag", EnumField(CountFlagBit, 1), ReadWrite) ]
  }

  /** `reload_value_register` and `current_value_register`: 24 bits from bit 0. */
  const ReloadField := RawField(0, 24)
  const CurrentField := RawField(0, 24)

  function CalibrationRegister(): seq<FieldDesc>
  {
    [ FieldDesc("ten_ms", RawField(0, 24), ReadOnly),
      FieldDesc("skew", RawField(30, 1), ReadOnly),
      FieldDesc("noref", RawField(31, 1), ReadOnly) ]
  }

  /**
   * Every field fits its word; the enable flags are bit-fields while the source and
   * count flag are masked; the calibration fields do not overlap.
   */
  lemma SysTickRegistersValid()
    ensures UnionValid(ControlStatusRegister()) && UnionValid(CalibrationRegister())
    ensures ValidField(ReloadField) && ValidField(CurrentField)
    ensures ControlStatusRegister()[0].field.access == FieldAccess
    ensures ControlStatusRegister()[1].field.access == FieldAccess
    ensures ControlStatusRegister()[2].field == Field(2, 1, BitwiseLogic)
    ensures ControlStatusRegister()[3].field == Field(16, 1, BitwiseLogic)
    ensures forall j, k | 0 <= j < k < |CalibrationRegister()| ::
      !Overlap(CalibrationRegister()[j].field, CalibrationRegister()[k].field)
  {
  }

  /** The four registers of `systick`, in layout order. */
  datatype SysTickRegs = SysTickRegs(controlStatus: Word, reloadValue: Word, currentValue: Word, calibration: Word)

  function SysTickMembers(): seq<Member>
  {
    [ Member("control_status_", 0, 1), Member("reload_value_", 1, 1),
      Member("current_value_", 2, 1), Member("calibration_", 3, 1) ]
  }

  /** `sizeof(systick) == sizeof(raw_register) * 4`. */
  lemma SysTickLayout()
    ensures Contiguous(SysTickMembers()) && SizeWords(SysTickMembers()) == 4
  {
    SizeIsEnd(SysTickMembers());
  }

  /** `clock_source_t` and `count_flag_t`. */
  datatype ClockSource = ExternalClock | CoreClock
  datatype CountFlag = CountClear | CountedToZero

  // ---------------------------------------------------------------------------
  // Accessors

  /** `enabled()`. */
  function Enabled(s: SysTickRegs): (r: bool)
    ensures r == s.controlStatus[EnableBit]
  {
    ReadFlag(s.controlStatus, EnableBit)
  }

  /** `enable()` and `disable()`: `control_status_.enable = true` or `false`. */
  function SetEnabled(s: SysTickRegs, on: bool): (r: SysTickRegs)
    ensures r.controlStatus[EnableBit] == on && r == s.(controlStatus := r.controlStatus)
    ensures forall i | 0 <= i < 32 && i != EnableBit :: r.controlStatus[i] == s.controlStatus[i]
  {
    s.(controlStatus := WriteFlag(s.controlStatus, EnableBit, on))
  }

  /** `handler_enabled()`. */
  function HandlerEnabled(s: SysTickRegs): (r: bool)
    ensures r == s.controlStatus[HandlerEnableBit]
  {
    ReadFlag(s.controlStatus, HandlerEnableBit)
  }

  /** `handler_enable()` and `handler_disable()`. */
  function SetHandlerEnabled(s: SysTickRegs, on: bool): (r: SysTickRegs)
    ensures r.controlStatus[HandlerEnableBit] == on && r == s.(controlStatus := r.controlStatus)
    ensures forall i | 0 <= i < 32 && i != HandlerEnableBit :: r.controlStatus[i] == s.controlStatus[i]
  {
    s.(controlStatus := WriteFlag(s.controlStatus, HandlerEnableBit, on))
  }

  /** `source()`: `core_clock` exactly when bit 2 is set. */
  function Source(s: SysTickRegs): (r: ClockSource)
    ensures r == CoreClock <==> s.controlStatus[SourceBit]
  {
    if ReadEnumFlag(s.controlStatus, SourceBit) then CoreClock else ExternalClock
  }

  /** `set_source(value)`: the masked write ORs the enumerator into bit 2, so it can set the bit but never clear it. */
  function SetSource(s: SysTickRegs, v: ClockSource): (r: SysTickRegs)
    ensures r.controlStatus[SourceBit] == (s.controlStatus[SourceBit] || v == CoreClock)
    ensures r == s.(controlStatus := r.controlStatus)
    ensures forall i | 0 <= i < 32 && i != SourceBit :: r.controlStatus[i] == s.controlStatus[i]
  {
    if v == CoreClock then s.(controlStatus := RaiseFlag(s.controlStatus, SourceBit))
    else
      SourceWriteZero(s.controlStatus);
      s.(controlStatus := Set(EnumField(SourceBit, 1), s.controlStatus, BitWord(false)))
  }

  /** Writing the enumerator 0 through the masked field changes nothing. */
  lemma SourceWriteZero(w: Word)
    ensures Set(EnumField(SourceBit, 1), w, BitWord(false)) == w
  {
    MaskedSetBits(EnumField(SourceBit, 1), w, BitWord(false));
    SetFrame(EnumField(SourceBit, 1), w, BitWord(false));
  }

  /** `count_flag()`: `counted_to_0` exactly when bit 16 is set. */
  function GetCountFlag(s: SysTickRegs): (r: CountFlag)
    ensures r == CountedToZero <==> s.controlStatus[CountFlagBit]
  {
    if ReadEnumFlag(s.controlStatus, CountFlagBit) then CountedToZero else CountClear
  }

  /** `reload_value()`: the low 24 bits of the reload register. */
  function ReloadValue(s: SysTickRegs): (r: Word)
    ensures r == LowBits(s.reloadValue, 24)
  {
    GetBits(ReloadField, s.reloadValue);
    LowBitsBits(s.reloadValue, 24);
    Get(ReloadField, s.reloadValue)
  }

  /** `set_reload_value(value)`: a direct 24-bit write; bits 24 to 31 of the register keep their value. */
  function SetReloadValue(s: SysTickRegs, v: Word): (r: SysTickRegs)
    ensures r == s.(reloadValue := r.reloadValue)
    ensures forall i | 24 <= i < 32 :: r.reloadValue[i] == s.reloadValue[i]
  {
    SetFrame(ReloadField, s.reloadValue, v);
    s.(reloadValue := Set(ReloadField, s.reloadValue, v))
  }

  /** `current_value()`: the low 24 bits of the current value register. */
  function CurrentValue(s: SysTickRegs): (r: Word)
    ensures r == LowBits(s.currentValue, 24)
  {
    GetBits(CurrentField, s.currentValue);
    LowBitsBits(s.currentValue, 24);
    Get(CurrentField, s.currentValue)
  }

  /** `set_reload_value(v); reload_value() == v mod 2^24`. */
  lemma ReloadRoundTrip(s: SysTickRegs, v: Word)
    ensures ToNat(ReloadValue(SetReloadValue(s, v))) == ToNat(v) % Pow2(24)
    ensures ReloadValue(SetReloadValue(s, v)) == LowBits(v, 24)
  {
    BitFieldRoundTrip(ReloadField, s.reloadValue, v);
  }

  /** Enabling and handler enabling read back what was written and do not disturb each other. */
  lemma EnableRoundTrip(s: SysTickRegs, a: bool, b: bool)
    ensures Enabled(SetEnabled(s, a)) == a && HandlerEnabled(SetHandlerEnabled(s, b)) == b
    ensures HandlerEnabled(SetEnabled(s, a)) == HandlerEnabled(s)
    ensures Enabled(SetHandlerEnabled(s, b)) == Enabled(s)
    ensures Source(SetEnabled(s, a)) == Source(s)
  {
  }

  /**
   * The clock source is sticky: once `core_clock` has been selected, selecting the
   * external clock leaves it at `core_clock`.
   */
  lemma SourceIsSticky(s: SysTickRegs)
    ensures Source(SetSource(s, CoreClock)) == CoreClock
    ensures Source(SetSource(SetSource(s, CoreClock), ExternalClock)) == CoreClock
    ensures Source(SetSource(s, ExternalClock)) == Source(s)
  {
  }
}

=== FILE: timer.dfy ===
/**
 * The general-purpose timer of `hal/timer.hpp` and `src/timer.cpp`: four register
 * words (control, value, reload, interrupt), the accessors of `timer`, and
 * `timer::configure` with its fall-through `switch` on the input source.
 */
module Timer {
  import opened Bits
  import opened Registers
  import opened CommonTypes
  import opened Layout

  // ---------------------------------------------------------------------------
  // Register layouts

  /** `control_register`: four `bool` bit-fields. */
  const EnableBit: nat := 0
  const ExtEnableBit: nat := 1
  const ExtClockBit: nat := 2
  const InterruptEnableBit: nat := 3

  function ControlRegister(): seq<FieldDesc>
  {
    [ FieldDesc("enable", BoolField(EnableBit), ReadWrite),
      FieldDesc("ext_enable", BoolField(ExtEnableBit), ReadWrite),
      FieldDesc("ext_clock", BoolField(ExtClockBit), ReadWrite),
      FieldDesc("interrupt_enable", BoolField(InterruptEnableBit), ReadWrite) ]
  }

  /** `value_register` and `reload_register`: one 32-bit raw field. */
  const CounterField := RawField(0, 32)

  /** `interrupt_register`: the read-only `set` flag and the write-only `reset` bit share bit 0. */
  function InterruptRegister(): seq<FieldDesc>
  {
    [ FieldDesc("set", BoolField(0), ReadOnly),
      FieldDesc("reset", RawField(0, 1), WriteOnly) ]
  }

  /** The control fields occupy bits 0 to 3, all direct bit-fields; the interrupt fields alias. */
  lemma TimerRegistersValid()
    ensures UnionValid(ControlRegister()) && UnionValid(InterruptRegister()) && ValidField(CounterField)
    ensures forall k | 0 <= k < |ControlRegister()| ::
      ControlRegister()[k].field == Field(k, 1, FieldAccess)
    ensures CounterField == Field(0, 32, FieldAccess)
    ensures InterruptRegister()[0].field == InterruptRegister()[1].field
  {
  }

  /** The timer's four registers, in layout order. */
  datatype TimerRegs = TimerRegs(ctrl: Word, value: Word, reload: Word, interrupt: Word)

  function TimerMembers(): seq<Member>
  {
    [ Member("ctrl_", 0, 1), Member("value_", 1, 1), Member("reload_", 2, 1), Member("interrupt_", 3, 1) ]
  }

  /** `sizeof(timer) == sizeof(raw_register) * 4`. */
  lemma TimerLayout()
    ensures Contiguous(TimerMembers()) && SizeWords(TimerMembers()) == 4
  {
    SizeIsEnd(TimerMembers());
  }

  // ---------------------------------------------------------------------------
  // Accessors

  /** `start()`: `ctrl_.enable = true`. */
  function Start(t: TimerRegs): (r: TimerRegs)
    ensures r.ctrl[EnableBit] && r == t.(ctrl := r.ctrl)
    ensures forall i | 0 <= i < 32 && i != EnableBit :: r.ctrl[i] == t.ctrl[i]
  {
    t.(ctrl := WriteFlag(t.ctrl, EnableBit, true))
  }

  /** `stop()`: `ctrl_.enable = false`. */
  function Stop(t: TimerRegs): (r: TimerRegs)
    ensures !r.ctrl[EnableBit] && r == t.(ctrl := r.ctrl)
    ensures forall i | 0 <= i < 32 && i != EnableBit :: r.ctrl[i] == t.ctrl[i]
  {
    t.(ctrl := WriteFlag(t.ctrl, EnableBit, false))
  }

  /** `get_interrupt()`: the `set` flag. */
  function GetInterrupt(t: TimerRegs): (r: bool)
    ensures r == t.interrupt[0]
  {
    ReadFlag(t.interrupt, 0)
  }

  /** `clear_interrupt()`: `interrupt_.reset = 1`, a direct write of bit 0. */
  function ClearInterrupt(t: TimerRegs): (r: TimerRegs)
    ensures r.interrupt[0] && r == t.(interrupt := r.interrupt)
    ensures forall i | 1 <= i < 32 :: r.interrupt[i] == t.interrupt[i]
  {
    t.(interrupt := WriteFlag(t.interrupt, 0, true))
  }

  /** `enable_inrerrupt()`: `ctrl_.interrupt_enable = true`. */
  function EnableInterrupt(t: TimerRegs): (r: TimerRegs)
    ensures r.ctrl[InterruptEnableBit] && r == t.(ctrl := r.ctrl)
    ensures forall i | 0 <= i < 32 && i != InterruptEnableBit :: r.ctrl[i] == t.ctrl[i]
  {
    t.(ctrl := WriteFlag(t.ctrl, InterruptEnableBit, true))
  }

  /** `disable_iterrupt()`: `ctrl_.interrupt_enable = false`. */
  function DisableInterrupt(t: TimerRegs): (r: TimerRegs)
    ensures !r.ctrl[InterruptEnableBit] && r == t.(ctrl := r.ctrl)
    ensures forall i | 0 <= i < 32 && i != InterruptEnableBit :: r.ctrl[i] == t.ctrl[i]
  {
    t.(ctrl := WriteFlag(t.ctrl, InterruptEnableBit, false))
  }

  /** `get_value()`: the 32-bit field reads the whole word. */
  function GetValue(t: TimerRegs): (r: Word)
    ensures r == t.value
  {
    GetBits(CounterField, t.value);
    Get(CounterField, t.value)
  }

  /** `set_value(val)`: the 32-bit field stores the whole value. */
  function SetValue(t: TimerRegs, v: Word): (r: TimerRegs)
    ensures r.value == v && r.ctrl == t.ctrl && r.reload == t.reload && r.interrupt == t.interrupt
  {
    t.(value := v)
  }

  /** Writing the whole value is the write of the 32-bit field `set_value` performs. */
  lemma SetValueIsFieldWrite(t: TimerRegs, v: Word)
    ensures SetValue(t, v).value == Set(CounterField, t.value, v)
  {
  }

  /** `reset()`: `value_ = 0`. */
  function ResetValue(t: TimerRegs): (r: TimerRegs)
    ensures ToNat(r.value) == 0 && r == t.(value := r.value)
  {
    ToNatFalses(32);
    SetValue(t, Zero())
  }

  /** `get_reload()`. */
  function GetReload(t: TimerRegs): (r: Word)
    ensures r == t.reload
  {
    GetBits(CounterField, t.reload);
    Get(CounterField, t.reload)
  }

  /** `set_reload(val)`. */
  function SetReload(t: TimerRegs, v: Word): (r: TimerRegs)
    ensures r.reload == v && r.ctrl == t.ctrl && r.value == t.value && r.interrupt == t.interrupt
  {
    t.(reload := v)
  }

  /** Writing the whole reload value is the write of the 32-bit field `set_reload` performs. */
  lemma SetReloadIsFieldWrite(t: TimerRegs, v: Word)
    ensures SetReload(t, v).reload == Set(CounterField, t.reload, v)
  {
  }

  /** Start and stop undo each other exactly; so do enabling and disabling the interrupt. */
  lemma StartStopInverse(t: TimerRegs)
    ensures Stop(Start(t)).ctrl[EnableBit] == false && Start(Stop(t)).ctrl[EnableBit]
    ensures !t.ctrl[EnableBit] ==> Stop(Start(t)) == t
    ensures t.ctrl[EnableBit] ==> Start(Stop(t)) == t
  {
    if !t.ctrl[EnableBit] {
      assert Stop(Start(t)).ctrl == t.ctrl;
    }
    if t.ctrl[EnableBit] {
      assert Start(Stop(t)).ctrl == t.ctrl;
    }
  }

  lemma InterruptEnableInverse(t: TimerRegs)
    ensures !t.ctrl[InterruptEnableBit] ==> DisableInterrupt(EnableInterrupt(t)) == t
    ensures t.ctrl[InterruptEnableBit] ==> EnableInterrupt(DisableInterrupt(t)) == t
  {
    if !t.ctrl[InterruptEnableBit] {
      assert DisableInterrupt(EnableInterrupt(t)).ctrl == t.ctrl;
    } else {
      assert EnableInterrupt(DisableInterrupt(t)).ctrl == t.ctrl;
    }
  }

  /** Writes to the value and reload registers read back unchanged, and `reset()` reads back 0. */
  lemma ValueRoundTrip(t: TimerRegs, v: Word)
    ensures GetValue(SetValue(t, v)) == v && GetReload(SetReload(t, v)) == v
    ensures ToNat(GetValue(ResetValue(t))) == 0
    ensures GetReload(SetValue(t, v)) == GetReload(t) && GetValue(SetReload(t, v)) == GetValue(t)
  {
  }

  // ---------------------------------------------------------------------------
  // configure

  /** `timer_input`. */
  datatype TimerInput = SysClock | ExtInput | ExtClock

  /** `timer_init`. */
  datatype TimerInit = TimerInit(value: Word, reload: Word, enable: bool, interruptEnable: bool, input: TimerInput)

  /**
   * The `switch (init.input)` of `configure`: `ext_input` sets `ext_enable` and,
   * having no `break`, falls through to also set `ext_clock`.
   */
  function SelectInput(ctrl: Word, input: TimerInput): (r: Word)
    ensures r[ExtEnableBit] == (input == ExtInput || ctrl[ExtEnableBit])
    ensures r[ExtClockBit] == (input != SysClock || ctrl[ExtClockBit])
    ensures forall i | 0 <= i < 32 && i != ExtEnableBit && i != ExtClockBit :: r[i] == ctrl[i]
  {
    match input
    case SysClock => ctrl
    case ExtInput => WriteFlag(WriteFlag(ctrl, ExtEnableBit, true), ExtClockBit, true)
    case ExtClock => WriteFlag(ctrl, ExtClockBit, true)
  }

  /**
   * `timer::configure(init)`, statement by statement.  The writes to the control
   * register are collected in `ConfigureCtrl`; the other registers are written
   * independently of it.
   */
  function Configure(t: TimerRegs, init: TimerInit): (r: TimerRegs)
    ensures r.value == init.value && r.reload == init.reload
    ensures !r.interrupt[0] && forall i | 1 <= i < 32 :: r.interrupt[i] == t.interrupt[i]
  {
    var t1 := t.(ctrl := Zero());
    var t2 := ResetValue(t1);
    var t3 := SetReload(t2, Zero());
    var t4 := t3.(interrupt := WriteFlag(t3.interrupt, 0, false));
    var t5 := SetValue(t4, init.value);
    var t6 := SetReload(t5, init.reload);
    t6.(ctrl := ConfigureCtrl(init))
  }

  /**
   * The control writes of `configure`: `ctrl_.raw = 0`, `enable = true`,
   * `interrupt_enable = init.interrupt_enable`, the input `switch`, and
   * `enable = init.enable`.
   */
  function ConfigureCtrl(init: TimerInit): (w: Word)
  {
    var c1 := WriteFlag(Zero(), EnableBit, true);
    var c2 := WriteFlag(c1, InterruptEnableBit, init.interruptEnable);
    var c3 := SelectInput(c2, init.input);
    WriteFlag(c3, EnableBit, init.enable)
  }

  /** The control word `configure` should leave: one bit per `init` flag, every other bit clear. */
  function ConfiguredControl(init: TimerInit): (w: Word)
  {
    seq(32, i =>
      if i == EnableBit then init.enable
      else if i == ExtEnableBit then init.input == ExtInput
      else if i == ExtClockBit then init.input != SysClock
      else if i == InterruptEnableBit then init.interruptEnable
      else false)
  }

  /**
   * After `configure` the control register holds exactly the requested setup:
   * `enable` and `interrupt_enable` as given, `ext_enable` only for the external
   * input, `ext_clock` for both external sources, and bits 4 to 31 clear.
   */
  lemma ConfigureControl(t: TimerRegs, init: TimerInit)
    ensures Configure(t, init).ctrl == ConfiguredControl(init)
    ensures forall i | 4 <= i < 32 :: !Configure(t, init).ctrl[i]
  {
    ConfigureCtrlBits(init);
  }

  lemma ConfigureCtrlBits(init: TimerInit)
    ensures ConfigureCtrl(init) == ConfiguredControl(init)
  {
    var c1 := WriteFlag(Zero(), EnableBit, true);
    var c2 := WriteFlag(c1, InterruptEnableBit, init.interruptEnable);
    var c3 := SelectInput(c2, init.input);
    var c4 := WriteFlag(c3, EnableBit, init.enable);
    forall i | 0 <= i < 32
      ensures c4[i] == ConfiguredControl(init)[i]
    {
      assert c1[i] == (i == EnableBit);
      assert c2[i] == if i == InterruptEnableBit then init.interruptEnable else c1[i];
    }
  }

  /** `configure` forgets the previous control, value and reload registers, and repeating it changes nothing. */
  lemma ConfigureIdempotent(t: TimerRegs, u: TimerRegs, init: TimerInit)
    requires t.interrupt == u.interrupt
    ensures Configure(t, init) == Configure(u, init)
    ensures Configure(Configure(t, init), init) == Configure(t, init)
  {
    ConfigureControl(t, init);
    ConfigureControl(u, init);
    ConfigureControl(Configure(t, init), init);
    var a := Configure(Configure(t, init), init).interrupt;
    assert a == Configure(t, init).interrupt;
  }
}

=== FILE: to_chars.dfy ===
/**
 * `util/to_chars.hpp`: `reverse_string` and the integer serialiser `to_chars`.
 *
 * A C++ `char` buffer is a `string`; `'\0'` is the terminator.  The serialiser is
 * modelled by the characters it stores, in order from `buffer[0]`, whether or not
 * they fit in `buffer_length`: a stored sequence longer than the buffer is a write
 * past its end.
 */
module ToChars {
  import opened Bits

  /** `number_base`, whose enumerators are the radixes. */
  datatype NumberBase = Bin | Oct | Dec | Hex

  function BaseValue(b: NumberBase): (r: nat)
    ensures 2 <= r <= 16
    ensures r == 2 <==> b == Bin
  {
    match b
    case Bin => 2
    case Oct => 8
    case Dec => 10
    case Hex => 16
  }

  // ---------------------------------------------------------------------------
  // Integer types

  /** A `std::integral` type of 8, 16, 32 or 64 bits, signed or not. */
  datatype IntType = IntType(bits: nat, signed: bool)

  predicate ValidType(t: IntType)
  {
    t.bits == 8 || t.bits == 16 || t.bits == 32 || t.bits == 64
  }

  /** The width after integral promotion: the 8- and 16-bit types compute as the 32-bit `int`. */
  function PromotedBits(t: IntType): (r: nat)
    ensures r >= t.bits && r >= 32
  {
    if t.bits < 32 then 32 else t.bits
  }

  /** The values the type represents. */
  predicate InRange(t: IntType, v: int)
    requires t.bits >= 1
  {
    if t.signed then -(Pow2(t.bits - 1) as int) <= v < Pow2(t.bits - 1) else 0 <= v < Pow2(t.bits)
  }

  /** `std::make_unsigned_t`. */
  function Unsigned(t: IntType): (u: IntType)
    ensures u.bits == t.bits && !u.signed
  {
    t.(signed := false)
  }

  /**
   * `static_cast<std::make_unsigned_t<Integer>>(v)` of a value of the type: the
   * value modulo 2^bits, so a negative value gains 2^bits.
   */
  function ToUnsigned(t: IntType, v: int): (r: nat)
    requires t.bits >= 1 && InRange(t, v)
    ensures InRange(Unsigned(t), r)
    ensures r == v || r == v + Pow2(t.bits)
  {
    assert Pow2(t.bits) == 2 * Pow2(t.bits - 1);
    if v < 0 then v + Pow2(t.bits) else v
  }

  /** `std::ptrdiff_t` on the 32-bit target. */
  const PtrDiff := IntType(32, true)

  // ---------------------------------------------------------------------------
  // Digits

  /** `digit_chars`. */
  const DigitChars: string := "0123456789abcdef"

  function DigitChar(d: nat): char
    requires d < 16
  {
    DigitChars[d]
  }

  /** The digit a character stands for, lowercase hexadecimal. */
  function DigitValue(c: char): nat
  {
    if '0' <= c <= '9' then (c as int) - ('0' as int)
    else if 'a' <= c <= 'f' then (c as int) - ('a' as int) + 10
    else 0
  }

  lemma DigitRoundTrip(d: nat)
    requires d < 16
    ensures DigitValue(DigitChar(d)) == d
    ensures DigitChar(d) != ' ' && DigitChar(d) != '-' && DigitChar(d) != '\0'
  {
  }

  /** The loop `*current++ = digit_chars[value % base]; value /= base`: digits least significant first. */
  function LsbDigits(v: nat, b: nat): (r: string)
    requires 2 <= b <= 16
    ensures v == 0 <==> r == []
    decreases v
  {
    if v == 0 then [] else [DigitChar(v % b)] + LsbDigits(v / b, b)
  }

  /** The number of digits of `v` in base `b`, none for zero. */
  function DigitCount(v: nat, b: nat): nat
    requires 2 <= b
    decreases v
  {
    if v == 0 then 0 else 1 + DigitCount(v / b, b)
  }

  /** The conventional numeral: digits most significant first. */
  function MsbDigits(v: nat, b: nat): (r: string)
    requires 2 <= b <= 16
    ensures v == 0 <==> r == []
    ensures |r| == DigitCount(v, b)
    decreases v
  {
    if v == 0 then [] else MsbDigits(v / b, b) + [DigitChar(v % b)]
  }

  /** The text of a magnitude: its numeral, or `"0"` for zero. */
  function Numeral(v: nat, b: nat): (r: string)
    requires 2 <= b <= 16
    ensures |r| >= 1
  {
    if v == 0 then "0" else MsbDigits(v, b)
  }

  /** Reading a numeral back, most significant digit first. */
  function Parse(s: string, b: nat): nat
  {
    if s == [] then 0 else Parse(s[..|s| - 1], b) * b + DigitValue(s[|s| - 1])
  }

  /** Appending a digit multiplies by the base and adds the digit. */
  lemma ParseSnoc(s: string, c: char, b: nat)
    ensures Parse(s + [c], b) == Parse(s, b) * b + DigitValue(c)
  {
    assert (s + [c])[..|s|] == s;
  }

  lemma DivModSplit(v: nat, b: nat)
    requires b > 0
    ensures (v / b) * b + v % b == v
  {
  }

  /** Parsing the numeral of `v` gives `v` back. */
  lemma {:induction false} ParseMsbDigits(v: nat, b: nat)
    requires 2 <= b <= 16
    ensures Parse(MsbDigits(v, b), b) == v
    decreases v
  {
    if v > 0 {
      ParseMsbDigits(v / b, b);
      ParseSnoc(MsbDigits(v / b, b), DigitChar(v % b), b);
      DigitRoundTrip(v % b);
      DivModSplit(v, b);
    }
  }

  lemma ParseNumeral(v: nat, b: nat)
    requires 2 <= b <= 16
    ensures Parse(Numeral(v, b), b) == v
  {
    if v > 0 {
      ParseMsbDigits(v, b);
    } else {
      assert Numeral(v, b)[..0] == [];
    }
  }

  /** A numeral of a positive value has no leading zero, and none of its characters is a space, sign or NUL. */
  lemma {:induction false} MsbDigitsShape(v: nat, b: nat)
    requires 2 <= b <= 16
    ensures v > 0 ==> MsbDigits(v, b)[0] != '0'
    ensures forall k | 0 <= k < |MsbDigits(v, b)| :: MsbDigits(v, b)[k] in DigitChars && MsbDigits(v, b)[k] != '-'
    decreases v
  {
    if v > 0 {
      MsbDigitsShape(v / b, b);
      var s := MsbDigits(v / b, b);
      var d := DigitChar(v % b);
      assert MsbDigits(v, b) == s + [d];
      DigitShape(v % b);
      if v / b == 0 {
        assert v % b == v by {
          DivModSplit(v, b);
          assert (v / b) * b == 0;
        }
      } else {
        assert (s + [d])[0] == s[0];
      }
      assert forall k | 0 <= k < |s| :: (s + [d])[k] == s[k];
    }
  }

  /** A digit character is one of `digit_chars`, not a sign, and `'0'` only for 0. */
  lemma DigitShape(d: nat)
    requires d < 16
    ensures DigitChar(d) in DigitChars && DigitChar(d) != '-'
    ensures d > 0 ==> DigitChar(d) != '0'
  {
    DigitRoundTrip(d);
  }

  /** The numeral of `v` has at most `n` digits when `v < 2^n`. */
  lemma {:induction false} MsbDigitsLength(v: nat, b: nat, n: nat)
    requires 2 <= b <= 16 && v < Pow2(n)
    ensures |MsbDigits(v, b)| <= n
    decreases v
  {
    if v > 0 {
      assert n > 0;
      var q := v / b;
      assert q < Pow2(n - 1) by {
        assert q * b <= v;
        MulMono(q, q, 2, b);
        assert Pow2(n) == 2 * Pow2(n - 1);
      }
      QuotientDecreases(v, b);
      MsbDigitsLength(q, b, n - 1);
    }
  }

  // ---------------------------------------------------------------------------
  // Reversal

  /** The characters of `s` in reverse order. */
  function Reverse(s: string): (r: string)
    ensures |r| == |s|
  {
    seq(|s|, k requires 0 <= k < |s| => s[|s| - 1 - k])
  }

  lemma ReverseAppend(a: string, b: string)
    ensures Reverse(a + b) == Reverse(b) + Reverse(a)
  {
  }

  lemma ReverseReverse(s: string)
    ensures Reverse(Reverse(s)) == s
  {
  }

  /** Reversing the digits produced least significant first gives the numeral. */
  lemma {:induction false} ReverseLsbDigits(v: nat, b: nat)
    requires 2 <= b <= 16
    ensures Reverse(LsbDigits(v, b)) == MsbDigits(v, b)
    decreases v
  {
    if v > 0 {
      ReverseLsbDigits(v / b, b);
      ReverseAppend([DigitChar(v % b)], LsbDigits(v / b, b));
    }
  }

  /**
   * `reverse_string(first, last)` on positions `first` to `last` inclusive of the
   * buffer `a`: swaps from both ends until the cursors meet.
   */
  method ReverseString(a: string, first: nat, last: int) returns (r: string)
    requires first <= last + 1 <= |a|
    ensures r == a[..first] + Reverse(a[first..last + 1]) + a[last + 1..]
  {
    r := a;
    var i: int := first;
    var j: int := last;
    while i < j
      invariant first <= i <= j + 1 && j <= last && i + j == first + last
      invariant SwappedOutside(a, r, first, last, i, j)
    {
      SwapStep(a, r, first, last, i, j);
      r := r[i := r[j]][j := r[i]];
      i := i + 1;
      j := j - 1;
    }
    SwappedAll(a, r, first, last, i, j);
  }

  /** Positions outside `[i, j]` within `[first, last]` hold their mirror image; the rest are untouched. */
  predicate SwappedOutside(a: string, r: string, first: nat, last: int, i: int, j: int)
  {
    && |r| == |a| && last < |a|
    && forall k {:trigger r[k]} | 0 <= k < |a| ::
      r[k] == if first <= k <= last && (k < i || j < k) then a[first + last - k] else a[k]
  }

  /** One swap of the cursors moves both inward. */
  lemma SwapStep(a: string, r: string, first: nat, last: int, i: int, j: int)
    requires first <= i < j <= last < |a| && i + j == first + last
    requires SwappedOutside(a, r, first, last, i, j)
    ensures SwappedOutside(a, r[i := r[j]][j := r[i]], first, last, i + 1, j - 1)
  {
    var r1 := r[i := r[j]][j := r[i]];
    forall k | 0 <= k < |a|
      ensures r1[k] == if first <= k <= last && (k < i + 1 || j - 1 < k) then a[first + last - k] else a[k]
    {
      if k == i {
        assert r1[k] == r[j] == a[j];
      } else if k == j {
        assert r1[k] == r[i] == a[i];
      } else {
        assert r1[k] == r[k];
      }
    }
  }

  /** When the cursors have met, the whole range is reversed. */
  lemma SwappedAll(a: string, r: string, first: nat, last: int, i: int, j: int)
    requires first <= last + 1 <= |a|
    requires first <= i <= j + 1 && j <= last && i + j == first + last && i >= j
    requires SwappedOutside(a, r, first, last, i, j)
    ensures r == a[..first] + Reverse(a[first..last + 1]) + a[last + 1..]
  {
    var s := a[..first] + Reverse(a[first..last + 1]) + a[last + 1..];
    forall k | 0 <= k < |a|
      ensures r[k] == s[k]
    {
      if first <= k <= last {
        assert s[k] == Reverse(a[first..last + 1])[k - first];
      }
    }
  }

  // ---------------------------------------------------------------------------
  // The binary branch

  /**
   * The two's complement pattern of the promoted value: `(value >> k) & 1` is bit
   * `k` of it for every shift below the promoted width, a negative value shifting
   * in ones.
   */
  function Pattern(t: IntType, value: int): (p: nat)
    requires t.bits >= 1 && InRange(t, value)
    ensures p < Pow2(PromotedBits(t))
  {
    PromotedRange(t, value);
    if value < 0 then value + Pow2(PromotedBits(t)) else value
  }

  /** A value of the type is within the promoted range either side of zero. */
  lemma PromotedRange(t: IntType, value: int)
    requires t.bits >= 1 && InRange(t, value)
    ensures -(Pow2(PromotedBits(t)) as int) <= value < Pow2(PromotedBits(t))
  {
    assert -(Pow2(t.bits - 1) as int) <= value < Pow2(t.bits) by {
      assert Pow2(t.bits) == 2 * Pow2(t.bits - 1);
    }
    RangeBelow(t.bits, PromotedBits(t), value);
  }

  lemma RangeBelow(n: nat, p: nat, v: int)
    requires 1 <= n <= p && -(Pow2(n - 1) as int) <= v < Pow2(n)
    ensures -(Pow2(p) as int) <= v < Pow2(p)
  {
    HalfBelow(n, p);
  }

  /** The values of the type lie within half the promoted range. */
  lemma PromotedHalf(t: IntType)
    requires t.bits >= 1
    ensures Pow2(t.bits) <= Pow2(PromotedBits(t))
    ensures Pow2(PromotedBits(t)) == 2 * Pow2(PromotedBits(t) - 1)
    ensures Pow2(t.bits - 1) <= Pow2(PromotedBits(t) - 1)
  {
    HalfBelow(t.bits, PromotedBits(t));
  }

  lemma HalfBelow(n: nat, p: nat)
    requires 1 <= n <= p
    ensures Pow2(n) <= Pow2(p) && Pow2(p) == 2 * Pow2(p - 1) && Pow2(n - 1) <= Pow2(p - 1)
  {
    Pow2Mono(n - 1, p - 1);
  }

  lemma Pow2Mono(a: nat, b: nat)
    requires a <= b
    ensures Pow2(a) <= Pow2(b)
  {
    Pow2Add(a, b - a);
    MulMono(Pow2(a), Pow2(a), 1, Pow2(b - a));
  }

  /** Adding a multiple of the modulus keeps the remainder. */
  lemma ModAddMultiple(x: int, m: nat, k: nat)
    requires m >= 1 && x + m * k >= 0
    ensures (x + m * k) % m == x % m
  {
    var q := x / m;
    var r := x % m;
    assert x == m * q + r;
    assert x + m * k == r + m * (q + k);
    assert q + k >= 0 by {
      if q + k <= -1 {
        MulNeg(m, q + k);
      }
      assert q + k <= -1 ==> x + m * k < 0;
    }
    DivModUnique(r, q + k, m);
  }

  lemma MulNeg(m: nat, y: int)
    requires m >= 1 && y <= -1
    ensures m * y <= -(m as int)
  {
    assert m * y == -(m * -y);
    MulMono(1, m, 1, -y);
  }

  /** Below the promoted width the pattern and the value agree modulo 2^w. */
  lemma PatternMod(t: IntType, value: int, w: nat)
    requires t.bits >= 1 && InRange(t, value) && w <= PromotedBits(t)
    ensures Pattern(t, value) % Pow2(w) == value % Pow2(w)
  {
    var p := Pattern(t, value);
    if value < 0 {
      PromotedRange(t, value);
      WrapMod(value, w, PromotedBits(t));
      assert p == value + Pow2(PromotedBits(t));
    } else {
      assert p == value;
    }
  }

  /** Adding 2^p to a value keeps its remainder modulo 2^w for w up to p. */
  lemma WrapMod(v: int, w: nat, p: nat)
    requires w <= p && v + Pow2(p) >= 0
    ensures (v + Pow2(p)) % Pow2(w) == v % Pow2(w)
  {
    Pow2Add(w, p - w);
    ModAddMultiple(v, Pow2(w), Pow2(p - w));
  }

  /**
   * The binary digits below the type's width are those of the unsigned counterpart;
   * from the type's width up to the promoted width a negative value extends its sign.
   */
  lemma BinaryValue(t: IntType, value: int, w: nat)
    requires t.bits >= 1 && InRange(t, value)
    ensures w <= t.bits ==> value % Pow2(w) == ToUnsigned(t, value) % Pow2(w)
    ensures t.bits <= w ==> value % Pow2(w) == if value < 0 then value + Pow2(w) else value
  {
    if w <= t.bits && value < 0 {
      LowBitsKept(t, value, w);
    }
    if t.bits <= w {
      SignExtended(t, value, w);
    }
  }

  lemma LowBitsKept(t: IntType, value: int, w: nat)
    requires t.bits >= 1 && InRange(t, value) && w <= t.bits && value < 0
    ensures value % Pow2(w) == ToUnsigned(t, value) % Pow2(w)
  {
    Pow2Add(w, t.bits - w);
    assert t.signed;
    assert ToUnsigned(t, value) == value + Pow2(w) * Pow2(t.bits - w);
    ModAddMultiple(value, Pow2(w), Pow2(t.bits - w));
  }

  lemma SignExtended(t: IntType, value: int, w: nat)
    requires t.bits >= 1 && InRange(t, value) && t.bits <= w
    ensures value % Pow2(w) == if value < 0 then value + Pow2(w) else value
  {
    Pow2Mono(t.bits, w);
    assert Pow2(t.bits) == 2 * Pow2(t.bits - 1);
    if value < 0 {
      assert 0 <= value + Pow2(w) < Pow2(w);
      ModAddMultiple(value, Pow2(w), 1);
      DivModUnique(value + Pow2(w), 0, Pow2(w));
    } else {
      assert value < Pow2(w);
      DivModUnique(value, 0, Pow2(w));
    }
  }

  /** The digit `(value >> k) & 1`: bit `k` of the pattern `p`. */
  function BitChar(p: nat, k: nat): (c: char)
    ensures c == '0' || c == '1'
  {
    if (p / Pow2(k)) % 2 == 1 then '1' else '0'
  }

  /** The binary loop from bit `w - 1` down to bit 0, with a space after each bit whose index is a nonzero multiple of 8. */
  function BinaryText(p: nat, w: nat): string
    decreases w
  {
    if w == 0 then []
    else [BitChar(p, w - 1)] + (if (w - 1) % 8 == 0 && w - 1 != 0 then " " else "") + BinaryText(p, w - 1)
  }

  /** The low `w` bits of `p`, most significant first. */
  function BinaryDigits(p: nat, w: nat): (r: string)
    ensures |r| == w
    decreases w
  {
    if w == 0 then [] else [BitChar(p, w - 1)] + BinaryDigits(p, w - 1)
  }

  function StripSpaces(s: string): string
  {
    if s == [] then [] else (if s[0] == ' ' then [] else [s[0]]) + StripSpaces(s[1..])
  }

  lemma {:induction false} StripAppend(a: string, b: string)
    ensures StripSpaces(a + b) == StripSpaces(a) + StripSpaces(b)
  {
    if a == [] {
      assert a + b == b;
    } else {
      assert (a + b)[0] == a[0];
      assert (a + b)[1..] == a[1..] + b;
      StripAppend(a[1..], b);
      var head: string := if a[0] == ' ' then [] else [a[0]];
      assert StripSpaces(a + b) == head + (StripSpaces(a[1..]) + StripSpaces(b));
      assert StripSpaces(a) == head + StripSpaces(a[1..]);
    }
  }

  /** `w` digits and one space per full group of 8 below the top group. */
  lemma {:induction false} BinaryLength(p: nat, w: nat)
    ensures |BinaryText(p, w)| == if w == 0 then 0 else w + (w - 1) / 8
  {
    if w > 1 {
      BinaryLength(p, w - 1);
      GroupStep(w - 1);
    }
  }

  /** Counting groups of 8: one more whole group exactly when `m` is a multiple of 8. */
  lemma GroupStep(m: nat)
    requires m >= 1
    ensures m / 8 == (m - 1) / 8 + (if m % 8 == 0 then 1 else 0)
  {
    var q := (m - 1) / 8;
    var r := (m - 1) % 8;
    assert m - 1 == 8 * q + r;
    if r == 7 {
      DivModUnique(0, q + 1, 8);
      assert m == 0 + 8 * (q + 1);
    } else {
      DivModUnique(r + 1, q, 8);
      assert m == r + 1 + 8 * q;
    }
  }

  /** An index `j` places past a multiple of 8 is `j` modulo 8. */
  lemma OffsetInGroup(w: nat, j: nat)
    requires w % 8 == 0 && j < 8
    ensures (w + j) % 8 == j
  {
    assert w == 8 * (w / 8);
    DivModUnique(j, w / 8, 8);
  }

  /** Without its spaces the text is exactly the `w` low bits, most significant first. */
  lemma {:induction false} BinaryStrip(p: nat, w: nat)
    ensures StripSpaces(BinaryText(p, w)) == BinaryDigits(p, w)
  {
    if w > 0 {
      var sp: string := if (w - 1) % 8 == 0 && w - 1 != 0 then " " else "";
      BinaryStrip(p, w - 1);
      StripAppend([BitChar(p, w - 1)] + sp, BinaryText(p, w - 1));
      StripAppend([BitChar(p, w - 1)], sp);
      assert StripSpaces([BitChar(p, w - 1)]) == [BitChar(p, w - 1)] by {
        assert [BitChar(p, w - 1)][1..] == [];
      }
      if sp != "" {
        assert sp[1..] == [];
      }
    }
  }

  /** A leading digit adds its weight. */
  lemma {:induction false} ParseCons(c: char, s: string)
    ensures Parse([c] + s, 2) == DigitValue(c) * Pow2(|s|) + Parse(s, 2)
    decreases |s|
  {
    if s != [] {
      var init := s[..|s| - 1];
      var t := [c] + s;
      assert t[..|t| - 1] == [c] + init;
      assert t[|t| - 1] == s[|s| - 1];
      ParseCons(c, init);
      var d := DigitValue(c);
      var low := Parse(init, 2);
      var e := DigitValue(s[|s| - 1]);
      assert Parse(t, 2) == (d * Pow2(|init|) + low) * 2 + e;
      assert Parse(s, 2) == low * 2 + e;
      assert Pow2(|s|) == 2 * Pow2(|init|);
      Distribute(d, Pow2(|init|), low, e);
    } else {
      assert [c] + s == [c];
      assert [c][..0] == [];
      assert Parse([c], 2) == DigitValue(c);
      assert Pow2(0) == 1;
    }
  }

  lemma Distribute(d: nat, x: nat, low: nat, e: nat)
    ensures (d * x + low) * 2 + e == d * (2 * x) + (low * 2 + e)
  {
  }

  /** Splitting off bit `w`: `p mod 2^(w+1)` is bit `w` times `2^w` plus `p mod 2^w`. */
  lemma ModPow2Split(p: nat, w: nat)
    ensures p % Pow2(w + 1) == ((p / Pow2(w)) % 2) * Pow2(w) + p % Pow2(w)
  {
    assert Pow2(w + 1) == 2 * Pow2(w);
    SplitMod(p, Pow2(w));
  }

  /** `p mod 2m` is the parity of `p / m`, times `m`, plus `p mod m`. */
  lemma SplitMod(p: nat, m: nat)
    requires m >= 1
    ensures p % (2 * m) == ((p / m) % 2) * m + p % m
  {
    var q := p / m;
    var r := p % m;
    var b := q % 2;
    var h := q / 2;
    assert p == m * q + r;
    assert q == 2 * h + b;
    assert m * q == (2 * m) * h + b * m by {
      assert m * (2 * h + b) == m * (2 * h) + m * b;
    }
    var x := b * m + r;
    assert x < 2 * m by {
      assert b <= 1;
      MulMono(b, 1, m, m);
    }
    DivModUnique(x, h, 2 * m);
    assert x + (2 * m) * h == p;
  }

  /** Reading the binary digits back gives the pattern modulo 2^w. */
  lemma {:induction false} ParseBinaryDigits(p: nat, w: nat)
    ensures Parse(BinaryDigits(p, w), 2) == p % Pow2(w)
  {
    if w > 0 {
      var c := BitChar(p, w - 1);
      var rest := BinaryDigits(p, w - 1);
      assert BinaryDigits(p, w) == [c] + rest;
      ParseBinaryDigits(p, w - 1);
      ParseCons(c, rest);
      BitDigit(p, w - 1);
      ModPow2Split(p, w - 1);
    }
  }

  /** The digit `BitChar` writes is bit `k` of the pattern. */
  lemma BitDigit(p: nat, k: nat)
    ensures DigitValue(BitChar(p, k)) == (p / Pow2(k)) % 2
  {
  }

  /** Above a group boundary `w` and up to the next one, the digits come first and then a space. */
  lemma {:induction false} BinaryRun(p: nat, w: nat, m: nat)
    requires w > 0 && w % 8 == 0 && w < m <= w + 8
    ensures BinaryText(p, m) == BinaryDigits(p, m)[..m - w] + " " + BinaryText(p, w)
    decreases m
  {
    if m > w + 1 {
      BinaryRun(p, w, m - 1);
      BinaryRunStep(p, w, m);
    } else {
      BinaryRunFirst(p, w);
    }
  }

  /** The bit just above a group boundary is followed by the boundary's space. */
  lemma BinaryRunFirst(p: nat, w: nat)
    requires w > 0 && w % 8 == 0
    ensures BinaryText(p, w + 1) == BinaryDigits(p, w + 1)[..1] + " " + BinaryText(p, w)
  {
    var c := [BitChar(p, w)];
    assert BinaryDigits(p, w + 1) == c + BinaryDigits(p, w);
    assert (c + BinaryDigits(p, w))[..1] == c;
  }

  /** A further bit inside the group goes in front of the run. */
  lemma BinaryRunStep(p: nat, w: nat, m: nat)
    requires w > 0 && w % 8 == 0 && w + 1 < m <= w + 8
    requires BinaryText(p, m - 1) == BinaryDigits(p, m - 1)[..m - 1 - w] + " " + BinaryText(p, w)
    ensures BinaryText(p, m) == BinaryDigits(p, m)[..m - w] + " " + BinaryText(p, w)
  {
    var c := [BitChar(p, m - 1)];
    var rest := BinaryDigits(p, m - 1);
    assert BinaryDigits(p, m) == c + rest;
    OffsetInGroup(w, m - 1 - w);
    assert BinaryText(p, m) == c + BinaryText(p, m - 1);
    PrependRun(c, rest, m - 1 - w, BinaryText(p, w));
  }

  /** Putting one more digit in front of a run of `n` digits followed by a tail. */
  lemma PrependRun(c: string, rest: string, n: nat, tail: string)
    requires n <= |rest|
    ensures c + (rest[..n] + " " + tail) == (c + rest)[..|c| + n] + " " + tail
  {
    assert (c + rest)[..|c| + n] == c + rest[..n];
  }

  /** Every group boundary below the top carries a space: the text is the top 8 bits, a space, then the rest. */
  lemma BinaryGroups(p: nat, w: nat)
    requires w > 0 && w % 8 == 0
    ensures BinaryText(p, w + 8) == BinaryDigits(p, w + 8)[..8] + " " + BinaryText(p, w)
  {
    BinaryRun(p, w, w + 8);
  }

  // ---------------------------------------------------------------------------
  // The other bases

  /** The most negative value of a signed type, whose negation the source cannot represent. */
  function MinValue(t: IntType): int
    requires t.bits >= 1
  {
    -(Pow2(t.bits - 1) as int)
  }

  /** `sign`: only a signed decimal is printed with a sign. */
  function Negative(t: IntType, value: int, base: NumberBase): bool
  {
    t.signed && base == Dec && value < 0
  }

  /** The magnitude printed: `-value` for a negative decimal, the unsigned counterpart for other signed bases. */
  function Magnitude(t: IntType, value: int, base: NumberBase): nat
    requires t.bits >= 1 && InRange(t, value)
  {
    if Negative(t, value, base) then -value
    else if t.signed && base != Dec then ToUnsigned(t, value)
    else value
  }

  /** The number as text, most significant digit first, with `'-'` in front of a negative decimal. */
  function NumberText(t: IntType, value: int, base: NumberBase): (r: string)
    requires t.bits >= 1 && InRange(t, value)
  {
    (if Negative(t, value, base) then "-" else "") + Numeral(Magnitude(t, value, base), BaseValue(base))
  }

  /** Reading an optionally signed numeral. */
  function ReadBack(s: string, b: nat): int
  {
    if |s| > 0 && s[0] == '-' then -(Parse(s[1..], b) as int) else Parse(s, b)
  }

  /**
   * The text reads back as the value itself, except that a signed value in a base
   * other than 10 reads back as its unsigned counterpart.
   */
  lemma NumberTextReadsBack(t: IntType, value: int, base: NumberBase)
    requires t.bits >= 1 && InRange(t, value)
    ensures ReadBack(NumberText(t, value, base), BaseValue(base))
      == if t.signed && base != Dec then ToUnsigned(t, value) else value
  {
    var m := Magnitude(t, value, base);
    var b := BaseValue(base);
    ParseNumeral(m, b);
    if Negative(t, value, base) {
      NegativeReadsBack(m, b);
    } else {
      NumeralUnsigned(m, b);
    }
  }

  lemma NegativeReadsBack(m: nat, b: nat)
    requires 2 <= b <= 16
    ensures ReadBack("-" + Numeral(m, b), b) == -(Parse(Numeral(m, b), b) as int)
  {
    assert ("-" + Numeral(m, b))[1..] == Numeral(m, b);
  }

  lemma NumeralUnsigned(m: nat, b: nat)
    requires 2 <= b <= 16
    ensures ReadBack("" + Numeral(m, b), b) == Parse(Numeral(m, b), b)
  {
    MsbDigitsShape(m, b);
    assert "" + Numeral(m, b) == Numeral(m, b);
    assert Numeral(m, b)[0] != '-';
  }

  /** What the source stores before padding: the digits least significant first (`'0'` for zero), then `'-'`. */
  function Core(t: IntType, value: int, base: NumberBase): (r: string)
    requires t.bits >= 1 && InRange(t, value)
    ensures r == Reverse(NumberText(t, value, base))
  {
    var m := Magnitude(t, value, base);
    var b := BaseValue(base);
    ReverseLsbDigits(m, b);
    ReverseAppend(if Negative(t, value, base) then "-" else "", Numeral(m, b));
    ReverseReverse(LsbDigits(m, b));
    (if m == 0 then "0" else LsbDigits(m, b)) + (if Negative(t, value, base) then "-" else "")
  }

  function Fill(c: char, n: nat): (r: string)
    ensures |r| == n && forall k | 0 <= k < n :: r[k] == c
  {
    seq(n, _ => c)
  }

  function Min(a: int, b: int): int
  {
    if a <= b then a else b
  }

  /** The padding loop as written: append `fill` while `current < buffer + buffer_length && current <= buffer + width`. */
  function PadAsWritten(s: string, len: nat, width: int, fill: char): string
    decreases len - |s|
  {
    if |s| < len && |s| <= width then PadAsWritten(s + [fill], len, width, fill) else s
  }

  /** The loop stops at `buffer_length` or at `width + 1` characters, whichever comes first. */
  lemma {:induction false} PadAsWrittenShape(s: string, len: nat, width: int, fill: char)
    ensures var n := if |s| < len && |s| <= width then Min(len, width + 1) - |s| else 0;
      n >= 0 && PadAsWritten(s, len, width, fill) == s + Fill(fill, n)
    decreases len - |s|
  {
    if |s| < len && |s| <= width {
      PadAsWrittenShape(s + [fill], len, width, fill);
      var n := Min(len, width + 1) - |s|;
      assert s + [fill] + Fill(fill, n - 1) == s + Fill(fill, n);
    }
  }

  /** The width of the binary loop: `width`, or `sizeof(Integer) * 8` when it is not positive. */
  function BinaryWidth(t: IntType, width: int): (w: nat)
    requires ValidType(t) && width <= PromotedBits(t)
    ensures 1 <= w <= PromotedBits(t)
    ensures width <= 0 ==> w == t.bits
  {
    if width <= 0 then t.bits else width
  }

  /**
   * The arguments of a call: a value of the type, a `std::int8_t` width and, in
   * binary, a width whose top shift `value >> (width - 1)` stays below the promoted
   * width (a shift by the width or more is undefined).
   */
  predicate ArgsValid(t: IntType, value: int, base: NumberBase, width: int)
  {
    && ValidType(t) && InRange(t, value) && -128 <= width < 128
    && (base == Bin ==> width <= PromotedBits(t))
  }

  /**
   * The sign handling of a signed decimal is defined: `1 << (bit_count - 1)` shifts
   * an `int` by less than 32 bits, and `value = -value` does not overflow.  The 8-
   * and 16-bit types negate in `int`, so only the 32-bit minimum overflows; for a
   * 64-bit type the sign test itself shifts an `int` by 63.
   */
  predicate NegationDefined(t: IntType, value: int, base: NumberBase)
    requires t.bits >= 1
  {
    t.signed && base == Dec ==> t.bits < 32 || (t.bits == 32 && value != MinValue(t))
  }

  /** What a call of `to_chars` as written needs to be free of undefined behaviour. */
  predicate CallValid(t: IntType, value: int, base: NumberBase, width: int)
  {
    ArgsValid(t, value, base, width) && NegationDefined(t, value, base)
  }

  /**
   * The binary branch: the bits, grouped by spaces, then NUL.  It does not consult
   * `buffer_length`.  Without the spaces the text reads back as the value modulo
   * 2^width.
   */
  function BinaryChars(t: IntType, value: int, width: int): (r: string)
    requires ArgsValid(t, value, Bin, width)
    ensures var w := BinaryWidth(t, width);
      && |r| == w + (w - 1) / 8 + 1 && r[|r| - 1] == '\0'
      && Parse(StripSpaces(r[..|r| - 1]), 2) == value % Pow2(w)
      && |StripSpaces(r[..|r| - 1])| == w
  {
    var p := Pattern(t, value);
    var w := BinaryWidth(t, width);
    BinaryLength(p, w);
    BinaryStrip(p, w);
    ParseBinaryDigits(p, w);
    PatternMod(t, value, w);
    var r := BinaryText(p, w) + ['\0'];
    assert r[..|r| - 1] == BinaryText(p, w);
    r
  }

  /** The number of fill characters the loop as written adds to `n` characters. */
  function PadCountAsWritten(n: nat, len: nat, width: int): nat
  {
    if n < len && n <= width then Min(len, width + 1) - n else 0
  }

  /** Reversing fill then the reversed text puts the fill in front. */
  lemma PaddedReverse(text: string, fill: char, n: nat)
    ensures Reverse(Reverse(text) + Fill(fill, n)) == Fill(fill, n) + text
  {
    ReverseAppend(Reverse(text), Fill(fill, n));
    ReverseReverse(text);
  }

  /**
   * `value = -value` as written: the negation converted back to the type, so the
   * minimum of a type narrower than `int` comes back as itself.
   */
  function NegateAsWritten(t: IntType, value: int): (r: int)
    requires t.bits >= 1 && InRange(t, value) && value < 0
    ensures InRange(t, r)
    ensures r == if value == MinValue(t) then value else -value
  {
    var n := -value;
    assert Pow2(t.bits) == 2 * Pow2(t.bits - 1);
    if n < Pow2(t.bits - 1) then n else n - Pow2(t.bits)
  }

  /**
   * What the source stores before padding, as written: the digits of the value
   * after the negation (`'0'` for zero, none while it is negative, since the loop
   * runs only while it is positive), then `'-'` when the sign was set.
   */
  function CoreAsWritten(t: IntType, value: int, base: NumberBase): string
    requires t.bits >= 1 && InRange(t, value)
  {
    var m: int := if Negative(t, value, base) then NegateAsWritten(t, value) else Magnitude(t, value, base);
    (if m == 0 then "0" else if m > 0 then LsbDigits(m, BaseValue(base)) else "")
      + (if Negative(t, value, base) then "-" else "")
  }

  /**
   * The number as text as written: the number's text, except that the minimum of
   * a signed type in decimal leaves only its sign.
   */
  function TextAsWritten(t: IntType, value: int, base: NumberBase): (r: string)
    requires t.bits >= 1 && InRange(t, value)
    ensures r == Reverse(CoreAsWritten(t, value, base))
    ensures |r| <= |NumberText(t, value, base)|
    ensures r == NumberText(t, value, base) <==> !(Negative(t, value, base) && value == MinValue(t))
  {
    if Negative(t, value, base) && value == MinValue(t) then
      assert CoreAsWritten(t, value, base) == "-";
      "-"
    else
      var text := NumberText(t, value, base);
      assert CoreAsWritten(t, value, base) == Core(t, value, base);
      ReverseReverse(text);
      text
  }

  /**
   * The other bases as written: store the core, pad, reverse the stored
   * characters and put the NUL after them.  The result is the fill, then the
   * text, then NUL.
   */
  function PaddedCharsAsWritten(len: nat, t: IntType, value: int, base: NumberBase, width: int, fill: char): (r: string)
    requires t.bits >= 1 && InRange(t, value)
    ensures var text := TextAsWritten(t, value, base);
      r == Fill(fill, PadCountAsWritten(|text|, len, width)) + text + ['\0']
  {
    var text := TextAsWritten(t, value, base);
    var core := CoreAsWritten(t, value, base);
    ReverseReverse(core);
    PadAsWrittenShape(core, len, width, fill);
    PaddedReverse(text, fill, PadCountAsWritten(|text|, len, width));
    Reverse(PadAsWritten(core, len, width, fill)) + ['\0']
  }

  /** A signed value in a base other than 10 prints as its unsigned counterpart. */
  lemma UnsignedCounterpart(t: IntType, value: int, base: NumberBase)
    requires t.bits >= 1 && InRange(t, value) && t.signed && base != Dec
    ensures NumberText(Unsigned(t), ToUnsigned(t, value), base) == NumberText(t, value, base)
  {
  }

  /**
   * `to_chars(buffer, buffer_length, value, base, width, fill)` as written: the
   * characters stored from `buffer[0]` on, the terminating NUL included.
   */
  function ToCharsAsWritten(len: nat, t: IntType, value: int, base: NumberBase, width: int, fill: char): (r: string)
    requires CallValid(t, value, base, width)
    ensures base == Bin ==> r == BinaryChars(t, value, width)
    ensures base != Bin ==> var text := TextAsWritten(t, value, base);
      r == Fill(fill, PadCountAsWritten(|text|, len, width)) + text + ['\0']
    decreases if t.signed then 1 else 0
  {
    if base == Bin then BinaryChars(t, value, width)
    else if t.signed && base != Dec then
      UnsignedCounterpart(t, value, base);
      ToCharsAsWritten(len, Unsigned(t), ToUnsigned(t, value), base, width, fill)
    else PaddedCharsAsWritten(len, t, value, base, width, fill)
  }

  // ---------------------------------------------------------------------------
  // Padding as intended

  /** The padding loop as intended: pad to `width` characters while the NUL still fits. */
  function PadFixed(s: string, len: nat, width: int, fill: char): string
    decreases len - |s|
  {
    if |s| < width && |s| + 1 < len then PadFixed(s + [fill], len, width, fill) else s
  }

  function PadCount(n: nat, len: nat, width: int): nat
  {
    if n < width && n + 1 < len then Min(width, len - 1) - n else 0
  }

  lemma {:induction false} PadFixedShape(s: string, len: nat, width: int, fill: char)
    ensures PadFixed(s, len, width, fill) == s + Fill(fill, PadCount(|s|, len, width))
    decreases len - |s|
  {
    if |s| < width && |s| + 1 < len {
      PadFixedShape(s + [fill], len, width, fill);
      var n := PadCount(|s|, len, width);
      assert s + [fill] + Fill(fill, n - 1) == s + Fill(fill, n);
    }
  }

  function PaddedChars(len: nat, t: IntType, value: int, base: NumberBase, width: int, fill: char): (r: string)
    requires t.bits >= 1 && InRange(t, value)
    ensures var text := NumberText(t, value, base);
      r == Fill(fill, PadCount(|text|, len, width)) + text + ['\0']
  {
    var text := NumberText(t, value, base);
    PadFixedShape(Core(t, value, base), len, width, fill);
    PaddedReverse(text, fill, PadCount(|text|, len, width));
    Reverse(PadFixed(Core(t, value, base), len, width, fill)) + ['\0']
  }

  function Max(a: int, b: int): int
  {
    if a >= b then a else b
  }

  /**
   * `to_chars` with the padding as intended: the text is padded to exactly `width`
   * characters, and when the number fits in the buffer so does the NUL.
   */
  function ToChars(len: nat, t: IntType, value: int, base: NumberBase, width: int, fill: char): (r: string)
    requires ArgsValid(t, value, base, width)
    ensures base == Bin ==> r == BinaryChars(t, value, width)
    ensures base != Bin ==> var text := NumberText(t, value, base);
      && r == Fill(fill, PadCount(|text|, len, width)) + text + ['\0']
      && (|text| < len ==> |r| <= len && |r| - 1 == Max(|text|, Min(width, len - 1)))
    decreases if t.signed then 1 else 0
  {
    if base == Bin then BinaryChars(t, value, width)
    else if t.signed && base != Dec then
      UnsignedCounterpart(t, value, base);
      ToChars(len, Unsigned(t), ToUnsigned(t, value), base, width, fill)
    else PaddedChars(len, t, value, base, width, fill)
  }

  // ---------------------------------------------------------------------------
  // Where the padding loop as written goes wrong

  /** The length of the characters stored as written: the fill, the text and the NUL. */
  lemma AsWrittenLength(len: nat, t: IntType, value: int, base: NumberBase, width: int, fill: char)
    requires CallValid(t, value, base, width) && base != Bin
    ensures var n := |TextAsWritten(t, value, base)|;
      |ToCharsAsWritten(len, t, value, base, width, fill)| == PadCountAsWritten(n, len, width) + n + 1
  {
    var text := TextAsWritten(t, value, base);
    var r := ToCharsAsWritten(len, t, value, base, width, fill);
    assert r == Fill(fill, PadCountAsWritten(|text|, len, width)) + text + ['\0'];
  }

  /** The length of the characters stored as intended. */
  lemma IntendedLength(len: nat, t: IntType, value: int, base: NumberBase, width: int, fill: char)
    requires ArgsValid(t, value, base, width) && base != Bin
    ensures var n := |NumberText(t, value, base)|;
      |ToChars(len, t, value, base, width, fill)| == PadCount(n, len, width) + n + 1
  {
    var text := NumberText(t, value, base);
    var r := ToChars(len, t, value, base, width, fill);
    assert r == Fill(fill, PadCount(|text|, len, width)) + text + ['\0'];
  }

  /** As written, when the number fits but `width` reaches the end of the buffer, the NUL is stored one past the end. */
  lemma NulPastEnd(len: nat, t: IntType, value: int, base: NumberBase, width: int, fill: char)
    requires CallValid(t, value, base, width) && base != Bin
    requires |NumberText(t, value, base)| < len <= width + 1
    ensures |ToCharsAsWritten(len, t, value, base, width, fill)| == len + 1
    ensures |ToChars(len, t, value, base, width, fill)| == len
  {
    AsWrittenLength(len, t, value, base, width, fill);
    IntendedLength(len, t, value, base, width, fill);
  }

  /** A `std::uint32_t` 5 in decimal, width 40, into the 33-character buffer `uart::write` uses: 34 characters stored. */
  lemma NulPastEndExample()
    ensures |ToCharsAsWritten(33, IntType(32, false), 5, Dec, 40, ' ')| == 34
    ensures |ToChars(33, IntType(32, false), 5, Dec, 40, ' ')| == 33
  {
    Pow2Of32();
    assert |NumberText(IntType(32, false), 5, Dec)| == 1 by {
      assert Magnitude(IntType(32, false), 5, Dec) == 5;
      assert MsbDigits(5, 10) == MsbDigits(0, 10) + [DigitChar(5)];
    }
    NulPastEnd(33, IntType(32, false), 5, Dec, 40, ' ');
  }

  /** As written, a number shorter than `width` comes out `width + 1` characters wide. */
  lemma WidthPlusOne(len: nat, t: IntType, value: int, base: NumberBase, width: int, fill: char)
    requires CallValid(t, value, base, width) && base != Bin
    requires |NumberText(t, value, base)| <= width && width + 1 < len
    ensures |ToCharsAsWritten(len, t, value, base, width, fill)| - 1 == width + 1
    ensures |ToChars(len, t, value, base, width, fill)| - 1 == width
  {
    AsWrittenLength(len, t, value, base, width, fill);
    IntendedLength(len, t, value, base, width, fill);
  }

  // ---------------------------------------------------------------------------
  // The minimum of a narrow signed type in decimal

  /**
   * As written, the minimum of `std::int8_t` or `std::int16_t` in decimal prints as
   * a lone `'-'`: the negation converts back to the minimum, the digit loop runs
   * only while the value is positive, and the sign is still appended.  The text
   * reads back as 0.
   */
  lemma MinimumAsWritten(len: nat, t: IntType, width: int, fill: char)
    requires ValidType(t) && t.signed && t.bits < 32 && -128 <= width < 128
    ensures CallValid(t, MinValue(t), Dec, width)
    ensures ToCharsAsWritten(len, t, MinValue(t), Dec, width, fill)
      == Fill(fill, PadCountAsWritten(1, len, width)) + "-" + ['\0']
    ensures ReadBack(TextAsWritten(t, MinValue(t), Dec), 10) == 0 != MinValue(t)
  {
    var v := MinValue(t);
    assert InRange(t, v) && v < 0;
    assert TextAsWritten(t, v, Dec) == "-";
    assert ("-")[1..] == "";
  }

  /**
   * With the sign handled as intended, a decimal number of any valid type prints as
   * fill, then a text that reads back as the value, then NUL.
   */
  lemma DecimalReadsBack(len: nat, t: IntType, value: int, width: int, fill: char)
    requires ArgsValid(t, value, Dec, width)
    ensures var r := ToChars(len, t, value, Dec, width, fill);
      var n := PadCount(|NumberText(t, value, Dec)|, len, width);
      n < |r| && r[|r| - 1] == '\0' && ReadBack(r[n..|r| - 1], 10) == value
  {
    var text := NumberText(t, value, Dec);
    var r := ToChars(len, t, value, Dec, width, fill);
    var n := PadCount(|text|, len, width);
    assert r[n..|r| - 1] == text;
    NumberTextReadsBack(t, value, Dec);
  }

  /** `std::int8_t{-128}` in decimal into a 5-character buffer: `"-"` as written, `"-128"` as intended. */
  lemma MinimumExample()
    ensures ToCharsAsWritten(5, IntType(8, true), -128, Dec, 0, ' ') == "-" + ['\0']
    ensures ToChars(5, IntType(8, true), -128, Dec, 0, ' ') == "-128" + ['\0']
  {
    var t := IntType(8, true);
    assert Pow2(8) == 256 by { Pow2Of8(); }
    assert MinValue(t) == -128;
    MinimumAsWritten(5, t, 0, ' ');
    assert Fill(' ', 0) == "";
    MinimumText();
    var r := ToChars(5, t, -128, Dec, 0, ' ');
    assert PadCount(4, 5, 0) == 0;
    assert r == Fill(' ', 0) + "-128" + ['\0'];
  }

  lemma MinimumText()
    ensures NumberText(IntType(8, true), -128, Dec) == "-128"
  {
    Pow2Of8();
    assert Magnitude(IntType(8, true), -128, Dec) == 128;
    assert MsbDigits(1, 10) == "1";
    assert MsbDigits(12, 10) == "12";
    assert MsbDigits(128, 10) == "128";
  }

  /** `reinterpret_cast<std::ptrdiff_t>(pointer)` of a 32-bit address. */
  function AsPtrDiff(address: nat): (v: int)
    requires address < U32
    ensures InRange(PtrDiff, v) && ToUnsigned(PtrDiff, v) == address
  {
    Pow2Of32();
    assert Pow2(32) == 2 * Pow2(31);
    if address < 0x8000_0000 then address else address - U32
  }

  /** `sizeof(std::ptrdiff_t) * 2`: two hexadecimal digits per byte. */
  const PointerWidth: int := 8

  /** `to_chars(buffer, buffer_length, pointer)` as written: hexadecimal, width 8, fill `'0'`. */
  function PointerToCharsAsWritten(len: nat, address: nat): string
    requires address < U32
  {
    Pow2Of32();
    ToCharsAsWritten(len, PtrDiff, AsPtrDiff(address), Hex, PointerWidth, '0')
  }

  /** The pointer overload over the intended padding. */
  function PointerToChars(len: nat, address: nat): string
    requires address < U32
  {
    Pow2Of32();
    ToChars(len, PtrDiff, AsPtrDiff(address), Hex, PointerWidth, '0')
  }

  /** An address of eight hexadecimal digits gets one `'0'` in front as written, none when intended. */
  lemma PointerPadding(len: nat, address: nat)
    requires address < U32 && len > 9
    requires |NumberText(PtrDiff, AsPtrDiff(address), Hex)| == 8
    ensures var text := NumberText(PtrDiff, AsPtrDiff(address), Hex);
      && PointerToCharsAsWritten(len, address) == "0" + text + ['\0']
      && PointerToChars(len, address) == text + ['\0']
  {
    var text := NumberText(PtrDiff, AsPtrDiff(address), Hex);
    assert PadCountAsWritten(|text|, len, PointerWidth) == 1;
    assert PadCount(|text|, len, PointerWidth) == 0;
    assert Fill('0', 1) == "0";
    assert Fill('0', 0) + text == text;
  }

  /** The SRAM address 0x20000000 prints as nine digits as written, as eight when intended. */
  lemma PointerExample()
    ensures PointerToCharsAsWritten(16, 0x2000_0000) == "0" + "20000000" + ['\0']
    ensures PointerToChars(16, 0x2000_0000) == "20000000" + ['\0']
  {
    SramAddressText();
    var text := NumberText(PtrDiff, AsPtrDiff(0x2000_0000), Hex);
    assert text == "20000000";
    PointerPadding(16, 0x2000_0000);
  }

  lemma SramAddressText()
    ensures AsPtrDiff(0x2000_0000) == 0x2000_0000
    ensures NumberText(PtrDiff, 0x2000_0000, Hex) == "20000000"
  {
    assert MsbDigits(0x2, 16) == "2";
    assert MsbDigits(0x20, 16) == "20";
    assert MsbDigits(0x200, 16) == "200";
    assert MsbDigits(0x2000, 16) == "2000";
    assert MsbDigits(0x2_0000, 16) == "20000";
    assert MsbDigits(0x20_0000, 16) == "200000";
    assert MsbDigits(0x200_0000, 16) == "2000000";
    assert MsbDigits(0x2000_0000, 16) == "20000000";
  }

  // ---------------------------------------------------------------------------
  // Digit counts

  function Power(b: nat, e: nat): nat
  {
    if e == 0 then 1 else b * Power(b, e - 1)
  }

  /** A value below `b^n` has at most `n` digits in base `b`. */
  lemma {:induction false} MsbDigitsFit(v: nat, b: nat, n: nat)
    requires 2 <= b <= 16 && v < Power(b, n)
    ensures |MsbDigits(v, b)| <= n
  {
    DigitCountFit(v, b, n);
  }

  lemma {:induction false} DigitCountFit(v: nat, b: nat, n: nat)
    requires 2 <= b && v < Power(b, n)
    ensures DigitCount(v, b) <= n
    decreases v
  {
    if v > 0 {
      QuotientBelowPower(v, b, n);
      QuotientDecreases(v, b);
      DigitCountFit(v / b, b, n - 1);
    }
  }

  lemma QuotientDecreases(v: nat, b: nat)
    requires v > 0 && b >= 2
    ensures v / b < v
  {
    var q := v / b;
    assert q * b <= v;
    if q >= v {
      MulMono(v, q, 2, b);
    }
  }

  lemma QuotientBelowPower(v: nat, b: nat, n: nat)
    requires 2 <= b && 0 < v < Power(b, n)
    ensures n > 0 && v / b < Power(b, n - 1)
  {
    assert Power(b, n) == b * Power(b, n - 1);
    DivBelow(v, b, Power(b, n - 1));
  }

  lemma DivBelow(v: nat, b: nat, p: nat)
    requires b > 0 && v < b * p
    ensures v / b < p
  {
    assert b * (v / b) <= v;
    MulMonoRight(b, p, v / b);
  }

  lemma MulMonoRight(b: nat, x: nat, y: nat)
    ensures x <= y ==> b * x <= b * y
  {
    if x <= y {
      MulMono(b, b, x, y);
    }
  }

  /** 2^(2k) = 4^k, and 4^k is at most b^k for b at least 4. */
  lemma {:induction false} Pow2Power(k: nat, b: nat)
    requires b >= 4
    ensures Pow2(2 * k) == Power(4, k) <= Power(b, k)
  {
    if k > 0 {
      Pow2Power(k - 1, b);
      assert Pow2(2 * k) == 4 * Pow2(2 * (k - 1));
      assert 4 * Power(4, k - 1) <= b * Power(b, k - 1) by {
        MulMono(4, b, Power(4, k - 1), Power(b, k - 1));
      }
    }
  }

  lemma MulMono(a: nat, b: nat, x: nat, y: nat)
    requires a <= b && x <= y
    ensures a * x <= b * y
  {
    assert a * x <= b * x;
    assert b * x <= b * y;
  }

  /** In a base of at least 8 the text of any value of the type has at most `bits / 2 + 1` characters. */
  lemma NumberTextLength(t: IntType, value: int, base: NumberBase)
    requires 2 <= t.bits && t.bits % 2 == 0 && InRange(t, value) && base != Bin
    ensures |NumberText(t, value, base)| <= t.bits / 2 + 1
  {
    var m := Magnitude(t, value, base);
    var b := BaseValue(base);
    var k := t.bits / 2;
    MagnitudeBound(t, value, base);
    assert 2 * k == t.bits;
    Pow2Power(k, b);
    if m > 0 {
      MsbDigitsFit(m, b, k);
    }
  }

  /** The printed magnitude is below 2^bits. */
  lemma MagnitudeBound(t: IntType, value: int, base: NumberBase)
    requires t.bits >= 1 && InRange(t, value)
    ensures Magnitude(t, value, base) < Pow2(t.bits)
  {
    assert Pow2(t.bits) == 2 * Pow2(t.bits - 1);
  }

  /** Leading zeros do not change the value of a numeral. */
  lemma {:induction false} ParseLeadingZeros(n: nat, s: string, b: nat)
    ensures Parse(Fill('0', n) + s, b) == Parse(s, b)
    decreases |s|
  {
    if s == [] {
      ParseZeros(n, b);
      assert Fill('0', n) + s == Fill('0', n);
    } else {
      var init := s[..|s| - 1];
      assert (Fill('0', n) + s)[..n + |s| - 1] == Fill('0', n) + init;
      ParseLeadingZeros(n, init, b);
    }
  }

  lemma {:induction false} ParseZeros(n: nat, b: nat)
    ensures Parse(Fill('0', n), b) == 0
  {
    if n > 0 {
      assert Fill('0', n)[..n - 1] == Fill('0', n - 1);
      ParseZeros(n - 1, b);
    }
  }

  /** Eight hexadecimal digits span the 32-bit range. */
  lemma SixteenToTheEighth()
    ensures Power(16, 8) == U32
  {
    assert Power(16, 2) == 256;
    assert Power(16, 4) == 65536;
  }

  /** A pointer prints as the plain hexadecimal numeral of its address, at most eight digits. */
  lemma PointerText(address: nat)
    requires address < U32
    ensures NumberText(PtrDiff, AsPtrDiff(address), Hex) == Numeral(address, 16)
    ensures |Numeral(address, 16)| <= 8
  {
    SixteenToTheEighth();
    if address > 0 {
      MsbDigitsFit(address, 16, 8);
    }
  }

  /**
   * With the intended padding a pointer prints as exactly eight hexadecimal digits
   * that read back as the address.
   */
  lemma PointerRoundTrip(len: nat, address: nat)
    requires address < U32 && len > 8
    ensures var r := PointerToChars(len, address);
      |r| == 9 && r[8] == '\0' && Parse(r[..8], 16) == address
  {
    var text := NumberText(PtrDiff, AsPtrDiff(address), Hex);
    PointerText(address);
    ParseNumeral(address, 16);
    var r := PointerToChars(len, address);
    var n := PadCount(|text|, len, PointerWidth);
    assert r[..8] == Fill('0', n) + text;
    ParseLeadingZeros(n, text, 16);
  }
}

=== FILE: traits.dfy ===
/**
 * `util/traits.hpp`: compile-time sign, absolute value, greatest common divisor and
 * minimum over `std::intmax_t`, and `common_ratio`, the coarsest period both of two
 * periods are whole multiples of.  C++ integer division and remainder truncate toward
 * zero; they are written out here over Dafny's Euclidean operators.
 */
module Traits {

  /** `static_sign<Pn>`: -1 for a negative argument, 1 otherwise. */
  function StaticSign(p: int): (r: int)
    ensures r == -1 || r == 1
    ensures r == -1 <==> p < 0
  {
    if p < 0 then -1 else 1
  }

  /** `static_abs<Pn>`: `Pn * static_sign<Pn>`. */
  function StaticAbs(p: int): (r: nat)
    ensures p >= 0 ==> r == p
    ensures p < 0 ==> r == -p
  {
    p * StaticSign(p)
  }

  /** `static_min<Pn, Qn>`. */
  function StaticMin(p: int, q: int): (r: int)
    ensures r <= p && r <= q
    ensures r == p || r == q
  {
    if p < q then p else q
  }

  /** The built-in `/` on `std::intmax_t`: the quotient truncated toward zero. */
  function TruncDiv(p: int, q: int): int
    requires q != 0
  {
    if (p < 0) == (q < 0) then StaticAbs(p) / StaticAbs(q) else -(StaticAbs(p) / StaticAbs(q))
  }

  /** The built-in `%` on `std::intmax_t`: the remainder takes the sign of the dividend. */
  function TruncRem(p: int, q: int): (r: int)
    requires q != 0
    ensures StaticAbs(r) < StaticAbs(q)
    ensures r != 0 ==> (r < 0 <==> p < 0)
  {
    if p >= 0 then p % StaticAbs(q) else -((-p) % StaticAbs(q))
  }

  /** Truncated division and remainder recombine to the dividend. */
  lemma TruncDivRem(p: int, q: int)
    requires q != 0
    ensures p == TruncDiv(p, q) * q + TruncRem(p, q)
  {
    var a: int := StaticAbs(p);
    var b: int := StaticAbs(q);
    var t: int := a / b;
    var m: int := a % b;
    assert a == t * b + m;
    assert TruncRem(p, q) == if p >= 0 then m else -m;
    SignedProduct(t, b, (p < 0) != (q < 0), q < 0);
  }

  /** The sign bookkeeping of truncated division: `(±t) * (±b)`. */
  lemma SignedProduct(t: int, b: int, negQuot: bool, negDiv: bool)
    ensures (if negQuot then -t else t) * (if negDiv then -b else b)
      == if negQuot != negDiv then -(t * b) else t * b
  {
  }

  /**
   * `static_gcd<Pn, Qn>`: Euclid's recursion on the truncated remainder, ending in
   * `static_abs` of the other argument when either is 0.  With both arguments 0 the
   * two partial specialisations are equally good and the program does not compile.
   */
  function StaticGcd(p: int, q: int): (r: nat)
    requires p != 0 || q != 0
    ensures r > 0
    decreases StaticAbs(q)
  {
    if q == 0 then StaticAbs(p)
    else if p == 0 then StaticAbs(q)
    else StaticGcd(q, TruncRem(p, q))
  }

  /** `d` divides `x`. */
  predicate Divides(d: nat, x: int)
    requires d > 0
  {
    x % d == 0
  }

  /** Euclidean division is determined by any decomposition with a remainder in range. */
  lemma IntDivModUnique(x: int, k: int, m: nat, d: nat)
    requires d > 0 && m < d && x == d * k + m
    ensures x / d == k && x % d == m
  {
    var k2 := x / d;
    if k > k2 {
      MulGap(d, k, k2);
      assert false;
    } else if k < k2 {
      MulGap(d, k2, k);
      assert false;
    }
  }

  /** Multiples of `d` at different indices are at least `d` apart. */
  lemma MulGap(d: nat, a: int, b: int)
    requires a > b
    ensures d * a - d * b >= d
  {
    assert d * a - d * b == d * (a - b);
    MulAtLeastOne(d, a - b);
  }

  lemma MulAtLeastOne(d: nat, n: int)
    requires n >= 1
    ensures d * n >= d
  {
    assert d * n == d + d * (n - 1);
  }

  /** A product with a positive factor is positive exactly when the other factor is. */
  lemma PositiveFactor(g: nat, x: int)
    requires g > 0
    ensures g * x > 0 <==> x > 0
  {
    if x > 0 {
      MulAtLeastOne(g, x);
    } else if x < 0 {
      MulAtLeastOne(g, -x);
      assert g * x == -(g * -x);
    }
  }

  /** A multiple of `d` is divisible by `d`. */
  lemma DividesMultiple(d: nat, k: int)
    requires d > 0
    ensures Divides(d, d * k)
  {
    IntDivModUnique(d * k, k, 0, d);
  }

  /** A sum of multiples of `d` is a multiple of `d`. */
  lemma DividesCombination(d: nat, a: int, b: int, k: int)
    requires d > 0 && Divides(d, a) && Divides(d, b)
    ensures Divides(d, a + k * b)
  {
    var i := a / d;
    var j := b / d;
    assert a == d * i;
    assert b == d * j;
    assert k * b == d * (k * j);
    assert a + k * b == d * (i + k * j);
    DividesMultiple(d, i + k * j);
  }

  /** Divisibility ignores the sign. */
  lemma DividesAbs(d: nat, x: int)
    requires d > 0
    ensures Divides(d, x) <==> Divides(d, StaticAbs(x))
  {
    if Divides(d, x) {
      DividesCombination(d, 0, x, StaticSign(x));
      assert 0 + StaticSign(x) * x == StaticAbs(x);
    }
    if Divides(d, StaticAbs(x)) {
      DividesCombination(d, 0, StaticAbs(x), StaticSign(x));
      assert 0 + StaticSign(x) * StaticAbs(x) == x;
    }
  }

  /** `static_gcd` divides both arguments. */
  lemma {:induction false} GcdDivides(p: int, q: int)
    requires p != 0 || q != 0
    ensures Divides(StaticGcd(p, q), p) && Divides(StaticGcd(p, q), q)
    decreases StaticAbs(q)
  {
    var g := StaticGcd(p, q);
    if q == 0 {
      DividesMultiple(g, StaticSign(p));
      assert g * StaticSign(p) == p;
      DividesMultiple(g, 0);
    } else if p == 0 {
      DividesMultiple(g, StaticSign(q));
      assert g * StaticSign(q) == q;
      DividesMultiple(g, 0);
    } else {
      var r := TruncRem(p, q);
      GcdDivides(q, r);
      TruncDivRem(p, q);
      DividesCombination(g, r, q, TruncDiv(p, q));
      assert r + TruncDiv(p, q) * q == p;
    }
  }

  /** Every common divisor of the arguments divides `static_gcd`, so it is the greatest. */
  lemma {:induction false} GcdGreatest(p: int, q: int, d: nat)
    requires p != 0 || q != 0
    requires d > 0 && Divides(d, p) && Divides(d, q)
    ensures Divides(d, StaticGcd(p, q))
    ensures d <= StaticGcd(p, q)
    decreases StaticAbs(q)
  {
    var g := StaticGcd(p, q);
    if q == 0 {
      DividesAbs(d, p);
    } else if p == 0 {
      DividesAbs(d, q);
    } else {
      var r := TruncRem(p, q);
      TruncDivRem(p, q);
      DividesCombination(d, p, q, -TruncDiv(p, q));
      assert p + -TruncDiv(p, q) * q == r;
      GcdGreatest(q, r, d);
    }
    DivisorAtMost(d, g);
  }

  /** A divisor of a positive number is no larger than it. */
  lemma DivisorAtMost(d: nat, g: nat)
    requires d > 0 && g > 0 && Divides(d, g)
    ensures d <= g
  {
    assert g == d * (g / d);
    if g / d >= 1 {
      MulAtLeastOne(d, g / d);
    }
  }

  /** The check in the header: `static_gcd<100, 1000>` is 100. */
  lemma GcdExample()
    ensures StaticGcd(100, 1000) == 100
  {
    assert TruncRem(100, 1000) == 100;
    assert TruncRem(1000, 100) == 0;
  }

  // ---------------------------------------------------------------------------
  // std::ratio

  /** A `std::ratio`: numerator and denominator. */
  datatype Ratio = Ratio(num: int, den: int)

  /** A period usable by `frequency` and by `chrono::duration`: a positive ratio in lowest terms. */
  predicate PositiveRatio(r: Ratio)
  {
    r.num > 0 && r.den > 0
  }

  /**
   * `std::ratio<N, D>`: the sign moves to the numerator and both terms are divided
   * by their greatest common divisor.
   */
  function MakeRatio(n: int, d: int): (r: Ratio)
    requires d != 0
    ensures r.den > 0
    ensures r.num * d == n * r.den
    ensures n > 0 && d > 0 ==> r.num > 0
    ensures StaticGcd(r.num, r.den) == 1
  {
    var g := StaticGcd(n, d);
    ReducedTerms(n, d);
    ScaleTerms(n / g, StaticAbs(d) / g, g, StaticSign(d), n, d);
    LowestTerms(n / g, StaticAbs(d) / g, g, StaticSign(d), n, d);
    Ratio(StaticSign(d) * (n / g), StaticAbs(d) / g)
  }

  /**
   * After dividing by the greatest common divisor no common factor is left: a common
   * divisor `e` of the reduced terms makes `g * e` a common divisor of `n` and `d`,
   * which is at most `g`.
   */
  lemma LowestTerms(n1: int, d1: int, g: nat, s: int, n: int, d: int)
    requires (s == 1 || s == -1) && d1 > 0 && d != 0
    requires g == StaticGcd(n, d) && n == g * n1 && s * d == g * d1
    ensures StaticGcd(s * n1, d1) == 1
  {
    var e := StaticGcd(s * n1, d1);
    GcdDivides(s * n1, d1);
    ExactQuotient(e, s * n1);
    ExactQuotient(e, d1);
    SignMovesOut(g, s, n1);
    ScaledDivisor(g, e, s, s * n1, n);
    ScaledDivisor(g, e, s, d1, d);
    PositiveFactor(g, e);
    GcdGreatest(n, d, g * e);
    if e > 1 {
      MulGap(g, e, 1);
      assert false;
    }
  }

  /** A sign factor moves out of a product. */
  lemma SignMovesOut(g: int, s: int, x: int)
    requires s == 1 || s == -1
    ensures g * (s * x) == s * (g * x)
  {
  }

  /** If `s * y` is `g * x` for a sign `s` and `e` divides `x`, then `g * e` divides `y`. */
  lemma ScaledDivisor(g: nat, e: nat, s: int, x: int, y: int)
    requires g > 0 && e > 0 && (s == 1 || s == -1)
    requires s * y == g * x && x == e * (x / e)
    ensures Divides(g * e, y)
  {
    var k := x / e;
    assert y == s * (s * y);
    assert y == (g * e) * (s * k);
    DividesMultiple(g * e, s * k);
  }

  /** Both terms are exact multiples of their greatest common divisor. */
  lemma ReducedTerms(n: int, d: int)
    requires d != 0
    ensures var g := StaticGcd(n, d);
      n == g * (n / g) && StaticSign(d) * d == g * (StaticAbs(d) / g)
  {
    var g := StaticGcd(n, d);
    GcdDivides(n, d);
    DividesAbs(g, d);
    ExactQuotient(g, n);
    ExactQuotient(g, StaticAbs(d));
    if d < 0 {
      assert StaticSign(d) * d == -d;
    }
  }

  /** A multiple of `g` is `g` times its quotient. */
  lemma ExactQuotient(g: nat, x: int)
    requires g > 0 && Divides(g, x)
    ensures x == g * (x / g)
  {
  }

  /** The algebra behind `MakeRatio`: dividing both terms by `g` keeps the value. */
  lemma ScaleTerms(n1: int, d1: int, g: nat, s: int, n: int, d: int)
    requires g > 0 && (s == 1 || s == -1)
    requires n == g * n1 && s * d == g * d1 && d != 0
    ensures d1 > 0 <== s * d > 0
    ensures (s * n1) * d == n * d1
    ensures n > 0 && s == 1 ==> s * n1 > 0
  {
    assert (s * n1) * d == n1 * (s * d);
    assert n1 * (s * d) == n1 * (g * d1);
    assert n * d1 == (g * n1) * d1;
    PositiveFactor(g, d1);
    PositiveFactor(g, n1);
  }

  /** A whole number as a ratio is already in lowest terms. */
  lemma WholeRatio(n: int)
    ensures MakeRatio(n, 1) == Ratio(n, 1)
  {
    if n != 0 {
      assert TruncRem(n, 1) == 0;
    }
  }

  /** `common_ratio_t<Period1, Period2>`: `ratio<gcd of the numerators, (den1 / gcd of the denominators) * den2>`. */
  function CommonRatio(a: Ratio, b: Ratio): (r: Ratio)
    requires PositiveRatio(a) && PositiveRatio(b)
    ensures PositiveRatio(r)
  {
    var gd := StaticGcd(a.den, b.den);
    GcdDivides(a.den, b.den);
    DivisorAtMost(gd, a.den);
    QuotientPositive(a.den, gd, b.den);
    MakeRatio(StaticGcd(a.num, b.num), (a.den / gd) * b.den)
  }

  /**
   * For whole periods the common ratio is the whole period of the greatest common
   * divisor: both periods are multiples of it, and of nothing coarser.
   */
  lemma CommonRatioOfWholePeriods(a: nat, b: nat, d: nat)
    requires a > 0 && b > 0
    ensures CommonRatio(Ratio(a, 1), Ratio(b, 1)) == Ratio(StaticGcd(a, b), 1)
    ensures Divides(StaticGcd(a, b), a) && Divides(StaticGcd(a, b), b)
    ensures d > 0 && Divides(d, a) && Divides(d, b) ==> d <= StaticGcd(a, b)
  {
    assert StaticGcd(1, 1) == 1 by {
      assert TruncRem(1, 1) == 0;
    }
    WholeRatio(StaticGcd(a, b));
    GcdDivides(a, b);
    if d > 0 && Divides(d, a) && Divides(d, b) {
      GcdGreatest(a, b, d);
    }
  }

  /** Dividing by a divisor no larger than the dividend leaves a positive quotient, and so a positive product. */
  lemma QuotientPositive(n: nat, g: nat, m: nat)
    requires 0 < g <= n && m > 0
    ensures (n / g) * m > 0
  {
    assert n / g >= 1;
    PositiveFactor(m, n / g);
    assert m * (n / g) == (n / g) * m;
  }

  /** `std::ratio_divide<R1, R2>`: the quotient of two ratios, in lowest terms. */
  function RatioDivide(a: Ratio, b: Ratio): (r: Ratio)
    requires PositiveRatio(a) && PositiveRatio(b)
    ensures PositiveRatio(r)
    ensures r.num * (a.den * b.num) == (a.num * b.den) * r.den
  {
    PositiveFactor(a.den, b.num);
    PositiveFactor(b.den, a.num);
    assert a.num * b.den == b.den * a.num;
    MakeRatio(a.num * b.den, a.den * b.num)
  }

  /** A whole multiple of `d` over `d` is the whole number `k`. */
  lemma MultipleRatio(k: nat, d: nat)
    requires k > 0 && d > 0
    ensures MakeRatio(k * d, d) == Ratio(k, 1)
  {
    PositiveFactor(d, k);
    assert k * d == d * k;
    IntDivModUnique(k * d, k, 0, d);
    assert TruncRem(k * d, d) == 0;
    assert StaticGcd(k * d, d) == d;
    IntDivModUnique(d, 1, 0, d);
  }

  /** One over a positive number is in lowest terms. */
  lemma UnitRatio(d: nat)
    requires d > 0
    ensures MakeRatio(1, d) == Ratio(1, d)
  {
    if d > 1 {
      assert TruncRem(1, d) == 1;
      assert TruncRem(d, 1) == 0;
    } else {
      assert TruncRem(1, 1) == 0;
    }
    assert StaticGcd(1, d) == 1;
    assert StaticAbs(d) / 1 == d;
  }

  const Kilo := Ratio(1000, 1)
  const Mega := Ratio(1000_000, 1)

  /** The check in the header: the common ratio of `kilo` and `mega` is `kilo`. */
  lemma CommonRatioExample()
    ensures CommonRatio(Kilo, Mega) == Kilo
  {
    CommonRatioOfWholePeriods(1000, 1000_000, 1);
    GcdOfMultiple(1000, 1000_000);
  }

  /** The greatest common divisor of a number and one of its multiples is the number. */
  lemma GcdOfMultiple(d: nat, n: nat)
    requires d > 0 && n > 0 && Divides(d, n)
    ensures StaticGcd(d, n) == d && StaticGcd(n, d) == d
  {
    GcdDivides(d, n);
    GcdGreatest(d, n, d);
    DivisorAtMost(StaticGcd(d, n), d);
    GcdDivides(n, d);
    GcdGreatest(n, d, d);
    DivisorAtMost(StaticGcd(n, d), d);
  }
}

=== FILE: uart.dfy ===
/**
 * The UART of `hal/uart.hpp` and `src/uart.cpp`: its five registers, the register
 * composition of `uart::configure`, the handler table with its slot allocation,
 * the interrupt dispatch, and the output settings kept by `uart_handle`.
 *
 * Callbacks are represented by whether they are set; calling one is reported as
 * the dispatch decision, not executed.
 */
module Uart {
  import opened Bits
  import opened Registers
  import opened CommonTypes
  import opened Layout
  import opened ToChars

  // ---------------------------------------------------------------------------
  // Registers

  /** `data_register`: an 8-bit direct field at bit 0. */
  const DataField := RawField(0, 8)
  /** `bauddiv_register`: a 20-bit masked field at bit 0. */
  const BaudField := Field(0, 20, BitwiseLogic)

  const TxBit: nat := 0
  const RxBit: nat := 1
  const TxOverrunBit: nat := 2
  const RxOverrunBit: nat := 3

  function StateRegister(): seq<FieldDesc>
  {
    [ FieldDesc("tx_buffer_full", BoolField(0), ReadOnly),
      FieldDesc("rx_buffer_full", BoolField(1), ReadOnly),
      FieldDesc("tx_buffer_overrun", RawField(2, 1), ReadWrite),
      FieldDesc("rx_buffer_overrun", RawField(3, 1), ReadWrite) ]
  }

  function ControlRegister(): seq<FieldDesc>
  {
    [ FieldDesc("tx_enable", BoolField(0), ReadWrite),
      FieldDesc("rx_enable", BoolField(1), ReadWrite),
      FieldDesc("tx_interrupt_enable", BoolField(2), ReadWrite),
      FieldDesc("rx_interrupt_enable", BoolField(3), ReadWrite),
      FieldDesc("tx_overrun_interrupt_enable", BoolField(4), ReadWrite),
      FieldDesc("rx_overrun_interrupt_enable", BoolField(5), ReadWrite),
      FieldDesc("hs_test_mode", BoolField(6), ReadWrite) ]
  }

  /** `interrupt_register`: four read-only flags, and four write-only `clear_t` fields that all sit on bit 0. */
  function InterruptRegister(): seq<FieldDesc>
  {
    [ FieldDesc("tx_interrupt", BoolField(0), ReadOnly),
      FieldDesc("rx_interrupt", BoolField(1), ReadOnly),
      FieldDesc("tx_overrun_interrupt", BoolField(2), ReadOnly),
      FieldDesc("rx_overrun_interrupt", BoolField(3), ReadOnly),
      FieldDesc("tx_interrupt_clear", EnumField(0, 1), WriteOnly),
      FieldDesc("rx_interrupt_clear", EnumField(0, 1), WriteOnly),
      FieldDesc("tx_overrun_interrupt_clear", EnumField(0, 1), WriteOnly),
      FieldDesc("rx_overrun_interrupt_clear", EnumField(0, 1), WriteOnly) ]
  }

  /**
   * The unions are valid; the control flags are bit-fields at bits 0 to 6; the four
   * clear fields are masked one-bit fields on bit 0; the baud divisor is a masked
   * 20-bit field.
   */
  lemma UartRegistersValid()
    ensures UnionValid(StateRegister()) && UnionValid(ControlRegister()) && UnionValid(InterruptRegister())
    ensures ValidField(DataField) && ValidField(BaudField)
    ensures forall k | 0 <= k < |ControlRegister()| :: ControlRegister()[k].field == Field(k, 1, FieldAccess)
    ensures forall k | 4 <= k < |InterruptRegister()| :: InterruptRegister()[k].field == Field(0, 1, BitwiseLogic)
    ensures BaudField == Field(0, 20, DefaultAccessMode(Enumeration)) && DataField.access == FieldAccess
  {
  }

  /**
   * `interrupt_register` as evidently intended: each clear field on the bit of the
   * flag it clears, as the timer's `set` and `reset` share the bit they act on.
   */
  function InterruptRegisterIntended(): seq<FieldDesc>
  {
    InterruptRegister()[..4] +
    [ FieldDesc("tx_interrupt_clear", EnumField(TxBit, 1), WriteOnly),
      FieldDesc("rx_interrupt_clear", EnumField(RxBit, 1), WriteOnly),
      FieldDesc("tx_overrun_interrupt_clear", EnumField(TxOverrunBit, 1), WriteOnly),
      FieldDesc("rx_overrun_interrupt_clear", EnumField(RxOverrunBit, 1), WriteOnly) ]
  }

  /**
   * The intended union keeps every name, permission and flag of the declared one;
   * each clear field sits on its flag's bit, and no two clear fields share a bit.
   */
  lemma InterruptRegisterIntendedValid()
    ensures var fs := InterruptRegisterIntended();
      && UnionValid(fs) && |fs| == |InterruptRegister()| == 8
      && (forall k | 0 <= k < 8 :: fs[k].name == InterruptRegister()[k].name && fs[k].perm == InterruptRegister()[k].perm)
      && fs[..4] == InterruptRegister()[..4]
      && (forall k | 4 <= k < 8 :: fs[k].field == EnumField(fs[k - 4].field.offset, 1))
      && (forall j, k | 4 <= j < k < 8 :: !Overlap(fs[j].field, fs[k].field))
  {
  }

  /** The five registers of `uart`, in layout order. */
  datatype UartRegs = UartRegs(data: Word, state: Word, ctrl: Word, interrupt: Word, bauddiv: Word)

  function UartMembers(): seq<Member>
  {
    [ Member("data_", 0, 1), Member("state_", 1, 1), Member("ctrl_", 2, 1),
      Member("interrupt_", 3, 1), Member("bauddiv_", 4, 1) ]
  }

  /** `sizeof(uart) == 4 * 5`. */
  lemma UartLayout()
    ensures Contiguous(UartMembers()) && 4 * SizeWords(UartMembers()) == 20
  {
    SizeIsEnd(UartMembers());
  }

  // ---------------------------------------------------------------------------
  // Register accessors

  /** `tx_interrupt()`, `rx_interrupt()`: the interrupt flags. */
  function TxInterrupt(u: UartRegs): (r: bool)
    ensures r == u.interrupt[TxBit]
  {
    ReadFlag(u.interrupt, TxBit)
  }

  function RxInterrupt(u: UartRegs): (r: bool)
    ensures r == u.interrupt[RxBit]
  {
    ReadFlag(u.interrupt, RxBit)
  }

  /** `tx_interrupt_enabled()`, `rx_interrupt_enabled()`: control bits 2 and 3. */
  function TxInterruptEnabled(u: UartRegs): (r: bool)
    ensures r == u.ctrl[2]
  {
    ReadFlag(u.ctrl, 2)
  }

  function RxInterruptEnabled(u: UartRegs): (r: bool)
    ensures r == u.ctrl[3]
  {
    ReadFlag(u.ctrl, 3)
  }

  /**
   * `clear_tx_interrupt()` and `clear_rx_interrupt()`: both write `clear_t::clear`
   * through a masked field on bit 0, so both OR a 1 into bit 0 and nothing else.
   */
  function ClearTxInterrupt(u: UartRegs): (r: UartRegs)
    ensures r.interrupt[0] && r == u.(interrupt := r.interrupt)
    ensures forall i | 1 <= i < 32 :: r.interrupt[i] == u.interrupt[i]
  {
    u.(interrupt := RaiseFlag(u.interrupt, 0))
  }

  function ClearRxInterrupt(u: UartRegs): (r: UartRegs)
    ensures r.interrupt[0] && r == u.(interrupt := r.interrupt)
    ensures forall i | 1 <= i < 32 :: r.interrupt[i] == u.interrupt[i]
  {
    u.(interrupt := RaiseFlag(u.interrupt, 0))
  }

  /**
   * As declared, clearing the receive interrupt writes the transmit flag's bit:
   * it is the same write as clearing the transmit interrupt, and bit 1, where the
   * receive flag reads, is not written.
   */
  lemma RxClearWritesTxBit(u: UartRegs)
    ensures InterruptRegister()[5].field.offset == InterruptRegister()[0].field.offset != InterruptRegister()[1].field.offset
    ensures ClearRxInterrupt(u) == ClearTxInterrupt(u)
    ensures ClearRxInterrupt(u).interrupt[RxBit] == u.interrupt[RxBit]
    ensures !u.interrupt[RxBit] ==> ClearRxInterrupt(u) != ClearInterrupt(u, RxBit)
  {
    if !u.interrupt[RxBit] {
      assert ClearInterrupt(u, RxBit).interrupt[RxBit];
    }
  }

  /**
   * Writing `clear_t::clear` through the intended clear field of flag `bit`: a 1
   * into that bit and nothing else.  The transmit clear is the declared one.
   */
  function ClearInterrupt(u: UartRegs, bit: nat): (r: UartRegs)
    requires bit < 4
    ensures r.interrupt == Set(InterruptRegisterIntended()[4 + bit].field, u.interrupt, BitWord(true))
    ensures r.interrupt[bit] && r == u.(interrupt := r.interrupt)
    ensures forall i | 0 <= i < 32 && i != bit :: r.interrupt[i] == u.interrupt[i]
    ensures bit == TxBit ==> r == ClearTxInterrupt(u)
  {
    IntendedClearField(bit);
    RaiseFlagIsFieldWrite(u.interrupt, bit);
    u.(interrupt := RaiseFlag(u.interrupt, bit))
  }

  /** The intended clear field of flag `bit` is the one-bit field on that bit. */
  lemma IntendedClearField(bit: nat)
    requires bit < 4
    ensures InterruptRegisterIntended()[4 + bit].field == EnumField(bit, 1)
    ensures ValidField(EnumField(bit, 1))
  {
  }

  /** `tx_buffer_full()`, `rx_buffer_full()`, `tx_buffer_overrun()`, `rx_buffer_overrun()`: state bits 0 to 3. */
  function StateFlag(u: UartRegs, bit: nat): (r: bool)
    requires bit < 4
    ensures r == u.state[bit]
  {
    ReadFlag(u.state, bit)
  }

  /** `reset_tx_buffer_overrun()` and `reset_rx_buffer_overrun()`: write 1 to state bit 2 or 3. */
  function ResetOverrun(u: UartRegs, bit: nat): (r: UartRegs)
    requires bit == TxOverrunBit || bit == RxOverrunBit
    ensures r.state[bit] && r == u.(state := r.state)
    ensures forall i | 0 <= i < 32 && i != bit :: r.state[i] == u.state[i]
  {
    u.(state := WriteFlag(u.state, bit, true))
  }

  /** The store of `put(c)` once the transmit buffer has room: `data_ = c`. */
  function PutData(u: UartRegs, c: Word): (r: UartRegs)
    ensures r == u.(data := r.data)
    ensures forall i | 8 <= i < 32 :: r.data[i] == u.data[i]
  {
    SetFrame(DataField, u.data, c);
    u.(data := Set(DataField, u.data, c))
  }

  /** The load of `get()` once the receive buffer is full: `data_.get()`, the low 8 bits. */
  function GetData(u: UartRegs): (r: Word)
    ensures r == LowBits(u.data, 8)
  {
    GetBits(DataField, u.data);
    LowBitsBits(u.data, 8);
    Get(DataField, u.data)
  }

  /** A character sent through the data register is read back truncated to 8 bits. */
  lemma DataRoundTrip(u: UartRegs, c: Word)
    ensures GetData(PutData(u, c)) == LowBits(c, 8)
    ensures ToNat(GetData(PutData(u, c))) == ToNat(c) % 256
  {
    BitFieldRoundTrip(DataField, u.data, c);
    assert Pow2(8) == 256 by {
      Pow2Add(4, 4);
      assert Pow2(4) == 16;
    }
  }

  // ---------------------------------------------------------------------------
  // configure

  /** `uart_init`, with each `tx_rx` pair spelled out. */
  datatype UartInit = UartInit(
    txEnable: bool, rxEnable: bool,
    txInterrupt: bool, rxInterrupt: bool,
    txOverrunInterrupt: bool, rxOverrunInterrupt: bool,
    baudRate: nat,
    hsTestMode: bool)

  /** The seven control flags of `init`, in bit order 0 to 6. */
  function ControlFlags(init: UartInit): (fl: seq<bool>)
    ensures |fl| == 7
  {
    [init.txEnable, init.rxEnable, init.txInterrupt, init.rxInterrupt,
     init.txOverrunInterrupt, init.rxOverrunInterrupt, init.hsTestMode]
  }

  /** The control word `configure` asks for: bit k is the k-th flag of `init`, bits 7 to 31 clear. */
  function RequestedControl(init: UartInit): (w: Word)
  {
    seq(32, i => 0 <= i < 7 && ControlFlags(init)[i])
  }

  /** The first `k` flags written one after another, flag j into bit j, as `new_ctrl.<flag> = ...` does. */
  function WriteFlags(w: Word, fl: seq<bool>, k: nat): Word
    requires k <= |fl| <= WordBits
  {
    if k == 0 then w else WriteFlag(WriteFlags(w, fl, k - 1), k - 1, fl[k - 1])
  }

  /** `new_ctrl`: a default `control_register` (raw word 0) with the seven flags written. */
  function NewControl(init: UartInit): Word
  {
    WriteFlags(Zero(), ControlFlags(init), 7)
  }

  /** After `k` flag writes, bits below `k` carry their flags and the rest are as before. */
  lemma {:induction false} WriteFlagsBits(w: Word, fl: seq<bool>, k: nat)
    requires k <= |fl| <= WordBits
    ensures forall i | 0 <= i < 32 :: WriteFlags(w, fl, k)[i] == if i < k then fl[i] else w[i]
  {
    if k > 0 {
      WriteFlagsBits(w, fl, k - 1);
    }
  }

  /** Writing the seven flags into a zero word gives exactly the requested control word. */
  lemma NewControlIsRequested(init: UartInit)
    ensures NewControl(init) == RequestedControl(init)
  {
    WriteFlagsBits(Zero(), ControlFlags(init), 7);
  }

  /** `data_ = 0`: clears the 8-bit data field and nothing else. */
  function ClearData(w: Word): (r: Word)
    ensures forall i | 0 <= i < 32 :: r[i] == (i >= 8 && w[i])
  {
    BitFieldSetBits(DataField, w, Zero());
    SetFrame(DataField, w, Zero());
    Set(DataField, w, Zero())
  }

  /** `bauddiv_ = q` through the masked field: the quotient's low 20 bits are ORed in. */
  function StoreDivisor(w: Word, q: nat): (r: Word)
    ensures forall i | 20 <= i < 32 :: r[i] == w[i]
    ensures Get(BaudField, r) == Or(Get(BaudField, w), LowBits(FromNat(q), 20))
  {
    SetFrame(BaudField, w, FromNat(q));
    MaskedAccumulates(BaudField, w, FromNat(q));
    Set(BaudField, w, FromNat(q))
  }

  /**
   * `uart::configure(init)` with the system clock frequency `sysFreq` (a
   * `std::uint32_t` count): `data_ = 0` clears only the 8-bit data field,
   * `bauddiv_ = 0` ORs nothing in, and `bauddiv_ = sysFreq / baud_rate` ORs the
   * quotient's low 20 bits into the divisor.
   */
  function Configure(u: UartRegs, init: UartInit, sysFreq: nat): (r: UartRegs)
    requires init.baudRate > 0
    ensures r.state == Zero() && r.interrupt == Zero()
    ensures forall i | 0 <= i < 32 :: r.data[i] == (i >= 8 && u.data[i])
    ensures forall i | 20 <= i < 32 :: r.bauddiv[i] == u.bauddiv[i]
    ensures Get(BaudField, r.bauddiv) == Or(Get(BaudField, u.bauddiv), LowBits(FromNat(sysFreq / init.baudRate), 20))
  {
    var newCtrl := NewControl(init);
    BaudZeroWriteInert(u.bauddiv);
    var baud0 := Set(BaudField, u.bauddiv, Zero());
    UartRegs(ClearData(u.data), Zero(), newCtrl, Zero(), StoreDivisor(baud0, sysFreq / init.baudRate))
  }

  /** `bauddiv_ = 0` through the masked field leaves the register as it was. */
  lemma BaudZeroWriteInert(w: Word)
    ensures Set(BaudField, w, Zero()) == w
  {
    MaskedSetBits(BaudField, w, Zero());
    SetFrame(BaudField, w, Zero());
  }

  /** After `configure` each control bit 0 to 6 equals its `init` flag and bits 7 to 31 are clear. */
  lemma ConfigureControl(u: UartRegs, init: UartInit, sysFreq: nat)
    requires init.baudRate > 0
    ensures Configure(u, init, sysFreq).ctrl == RequestedControl(init)
  {
    NewControlIsRequested(init);
  }

  /**
   * From a divisor field that reads 0, `configure` leaves the divisor
   * `(sysFreq / baud_rate) mod 2^20`; otherwise old bits survive.
   */
  lemma ConfigureBaudFromZero(u: UartRegs, init: UartInit, sysFreq: nat)
    requires init.baudRate > 0 && sysFreq < U32
    requires Get(BaudField, u.bauddiv) == Zero()
    ensures ToNat(Get(BaudField, Configure(u, init, sysFreq).bauddiv)) == (sysFreq / init.baudRate) % Pow2(20)
  {
    BaudZeroWriteInert(u.bauddiv);
    QuotientAtMost(sysFreq, init.baudRate);
    DivisorFromZero(u.bauddiv, sysFreq / init.baudRate);
  }

  /** Storing `q` into a divisor field that reads 0 leaves it reading `q mod 2^20`. */
  lemma DivisorFromZero(w: Word, q: nat)
    requires q < U32 && Get(BaudField, w) == Zero()
    ensures ToNat(Get(BaudField, StoreDivisor(w, q))) == q % Pow2(20)
  {
    var v := FromNat(q);
    var stored := Get(BaudField, StoreDivisor(w, q));
    assert stored == Or(Zero(), LowBits(v, 20));
    OrZero(LowBits(v, 20));
    assert stored == LowBits(v, 20);
    LowBitsValue(v, 20);
    FromNatToNat(q);
    DivModUnique(q, 0, U32);
    assert ToNat(v) == q;
  }

  lemma OrZero(x: Word)
    ensures Or(Zero(), x) == x
  {
  }

  lemma QuotientAtMost(a: nat, b: nat)
    requires b > 0
    ensures a / b <= a
  {
    var q := a / b;
    assert a == b * q + a % b;
    MulAtLeast(q, b);
  }

  /**
   * Because `bauddiv_ = 0` clears nothing, a second `configure` keeps every divisor
   * bit the first one set.
   */
  lemma ReconfigureKeepsDivisorBits(u: UartRegs, init: UartInit, sysFreq: nat)
    requires init.baudRate > 0
    ensures forall i | 0 <= i < 20 :: u.bauddiv[i] ==> Configure(u, init, sysFreq).bauddiv[i]
  {
    var r := Configure(u, init, sysFreq);
    var q := LowBits(FromNat(sysFreq / init.baudRate), 20);
    GetBits(BaudField, u.bauddiv);
    GetBits(BaudField, r.bauddiv);
    forall i | 0 <= i < 20 && u.bauddiv[i]
      ensures r.bauddiv[i]
    {
      OrBit(Get(BaudField, u.bauddiv), q, i);
    }
  }

  lemma OrBit(a: Word, b: Word, i: nat)
    requires i < 32
    ensures Or(a, b)[i] == (a[i] || b[i])
  {
  }

  /**
   * Configuring for a divisor of 2 over a divisor of 1 leaves 3 in the divider,
   * where the intended `configure` leaves 2.
   */
  lemma ReconfigureOrsDivisors(u: UartRegs, init: UartInit, sysFreq: nat)
    requires init.baudRate > 0 && sysFreq < U32
    requires ToNat(Get(BaudField, u.bauddiv)) == 1 && sysFreq / init.baudRate == 2
    ensures ToNat(Get(BaudField, Configure(u, init, sysFreq).bauddiv)) == 3
    ensures ToNat(Get(BaudField, ConfigureCleared(u, init, sysFreq).bauddiv)) == 2
  {
    SmallDivisors();
    ToNatFromNat(Get(BaudField, u.bauddiv));
    assert Get(BaudField, Configure(u, init, sysFreq).bauddiv) == Or(FromNat(1), LowBits(FromNat(2), 20));
    Pow2Of20();
  }

  /** The words of the divisors 1, 2 and 3, and the OR of the first two. */
  lemma SmallDivisors()
    ensures LowBits(FromNat(2), 20) == FromNat(2)
    ensures ToNat(Or(FromNat(1), FromNat(2))) == 3
  {
    var one := [true] + Falses(31);
    var two := [false, true] + Falses(30);
    var three := [true, true] + Falses(30);
    WordOfOne();
    WordOfTwo();
    assert LowBits(two, 20) == two by {
      LowBitsBits(two, 20);
    }
    OrOneTwo();
    SmallWord(three, [true, true], 30);
    assert ToNat([true, true]) == 3;
  }

  lemma OrOneTwo()
    ensures Or([true] + Falses(31), [false, true] + Falses(30)) == [true, true] + Falses(30)
  {
    var o := Or([true] + Falses(31), [false, true] + Falses(30));
    forall i | 0 <= i < 32
      ensures o[i] == ([true, true] + Falses(30))[i]
    {
      OrBit([true] + Falses(31), [false, true] + Falses(30), i);
    }
  }

  lemma WordOfOne()
    ensures FromNat(1) == [true] + Falses(31)
  {
    SmallWord([true] + Falses(31), [true], 31);
    ToNatFromNat([true] + Falses(31));
  }

  lemma WordOfTwo()
    ensures FromNat(2) == [false, true] + Falses(30)
  {
    SmallWord([false, true] + Falses(30), [false, true], 30);
    assert ToNat([false, true]) == 2;
    ToNatFromNat([false, true] + Falses(30));
  }

  lemma SmallWord(w: Word, b: seq<bool>, m: nat)
    requires w == b + Falses(m)
    ensures ToNat(w) == ToNat(b)
  {
    PaddedValue(0, b, m);
    assert Falses(0) + b + Falses(m) == w;
  }

  lemma Pow2Of20()
    ensures Pow2(20) == 0x10_0000
  {
    assert Pow2(4) == 16;
    assert Pow2(8) == 256 by { Pow2Add(4, 4); }
    assert Pow2(16) == 0x1_0000 by { Pow2Add(8, 8); }
    Pow2Add(4, 16);
  }

  /** The divider register read as a plain bit-field: the same 20 bits at bit 0. */
  const BaudBitField := Field(0, 20, FieldAccess)

  /**
   * `uart::configure` as evidently intended: `bauddiv_ = 0` clears the divider, as an
   * assignment to a bit-field does, so the stored divisor is the new quotient alone.
   */
  function ConfigureCleared(u: UartRegs, init: UartInit, sysFreq: nat): (r: UartRegs)
    requires init.baudRate > 0 && sysFreq < U32
    ensures r.state == Zero() && r.interrupt == Zero() && r.ctrl == RequestedControl(init)
    ensures forall i | 0 <= i < 32 :: r.data[i] == (i >= 8 && u.data[i])
    ensures forall i | 20 <= i < 32 :: r.bauddiv[i] == u.bauddiv[i]
    ensures ToNat(Get(BaudField, r.bauddiv)) == (sysFreq / init.baudRate) % Pow2(20)
  {
    NewControlIsRequested(init);
    UartRegs(ClearData(u.data), Zero(), NewControl(init), Zero(), ClearedDivider(u.bauddiv, sysFreq / init.baudRate))
  }

  /** The divider cleared as a bit-field, then given `q`: it reads `q mod 2^20` and keeps bits 20 to 31. */
  function ClearedDivider(w: Word, q: nat): (r: Word)
    requires q < U32
    ensures forall i | 20 <= i < 32 :: r[i] == w[i]
    ensures ToNat(Get(BaudField, r)) == q % Pow2(20)
  {
    var c := Set(BaudBitField, w, Zero());
    SetFrame(BaudBitField, w, Zero());
    BitFieldSetBits(BaudBitField, w, Zero());
    GetBits(BaudField, c);
    assert Get(BaudField, c) == Zero();
    DivisorFromZero(c, q);
    StoreDivisor(c, q)
  }

  /** The intended `configure` forgets the old divider, so configuring twice is configuring once. */
  lemma ConfigureClearedIdempotent(u: UartRegs, init: UartInit, sysFreq: nat)
    requires init.baudRate > 0 && sysFreq < U32
    ensures ConfigureCleared(ConfigureCleared(u, init, sysFreq), init, sysFreq) == ConfigureCleared(u, init, sysFreq)
  {
    var r := ConfigureCleared(u, init, sysFreq);
    var r2 := ConfigureCleared(r, init, sysFreq);
    assert r2.data == r.data;
    SameDivider(r.bauddiv, r2.bauddiv);
  }

  /** From a divider that reads 0 the intended `configure` agrees with `configure` as written. */
  lemma ConfigureClearedFromZero(u: UartRegs, init: UartInit, sysFreq: nat)
    requires init.baudRate > 0 && sysFreq < U32
    requires Get(BaudField, u.bauddiv) == Zero()
    ensures ConfigureCleared(u, init, sysFreq) == Configure(u, init, sysFreq)
  {
    var r := ConfigureCleared(u, init, sysFreq);
    var c := Configure(u, init, sysFreq);
    ConfigureControl(u, init, sysFreq);
    ConfigureBaudFromZero(u, init, sysFreq);
    SameDivider(r.bauddiv, c.bauddiv);
  }

  /** Two words agreeing on bits 20 to 31 whose dividers read the same number are equal. */
  lemma SameDivider(a: Word, b: Word)
    requires forall i | 20 <= i < 32 :: a[i] == b[i]
    requires ToNat(Get(BaudField, a)) == ToNat(Get(BaudField, b))
    ensures a == b
  {
    ToNatFromNat(Get(BaudField, a));
    ToNatFromNat(Get(BaudField, b));
    GetBits(BaudField, a);
    GetBits(BaudField, b);
    forall i | 0 <= i < 20
      ensures a[i] == b[i]
    {
      assert Get(BaudField, a)[i] == a[i];
      assert Get(BaudField, b)[i] == b[i];
    }
  }

  // ---------------------------------------------------------------------------
  // The handler table

  /** The null `address` of an unused slot. */
  const NoDevice: nat := 0
  /** `uart_count`: the table has room for two devices. */
  const UartCount: nat := 2

  /** `uart_handlers`: the device address and which of the four callbacks are set. */
  datatype Slot = Slot(device: nat, tx: bool, rx: bool, txOverrun: bool, rxOverrun: bool)

  function EmptySlot(): Slot
  {
    Slot(NoDevice, false, false, false, false)
  }

  /** The zero-initialised `handlers` array. */
  function InitialTable(): seq<Slot>
  {
    [EmptySlot(), EmptySlot()]
  }

  /** The occupied slots form a prefix of the table and hold distinct devices. */
  predicate TableInv(t: seq<Slot>)
  {
    && |t| == UartCount
    && forall i, j | 0 <= i < j < |t| && t[j].device != NoDevice ::
         t[i].device != NoDevice && t[i].device != t[j].device
  }

  /** The outcome of `get_handlers`: a slot index and the updated table, or no slot (`assert(false)`). */
  datatype Claim = Claimed(index: nat, table: seq<Slot>) | NoSlot

  /** `get_handlers(device)` from slot `i` on: the first slot that holds `device` or is empty, claiming an empty one. */
  function SlotFrom(t: seq<Slot>, dev: nat, i: nat): (r: Claim)
    requires i <= |t|
    ensures r.Claimed? ==> i <= r.index < |t| && r.table == t[r.index := t[r.index].(device := dev)]
    ensures r.Claimed? ==> t[r.index].device == dev || t[r.index].device == NoDevice
    decreases |t| - i
  {
    if i == |t| then NoSlot
    else if t[i].device == dev then Claimed(i, t)
    else if t[i].device == NoDevice then Claimed(i, t[i := t[i].(device := dev)])
    else SlotFrom(t, dev, i + 1)
  }

  function SlotFor(t: seq<Slot>, dev: nat): (r: Claim)
    ensures r.Claimed? ==> r.index < |t| && r.table == t[r.index := t[r.index].(device := dev)]
    ensures r.Claimed? ==> t[r.index].device == dev || t[r.index].device == NoDevice
  {
    SlotFrom(t, dev, 0)
  }

  /** `get_handlers` as the source writes it: a loop over the slots. */
  method GetHandlers(t: seq<Slot>, dev: nat) returns (r: Claim)
    requires TableInv(t) && dev != NoDevice
    ensures r == SlotFor(t, dev)
    ensures r.Claimed? ==> r.index < |t| && r.table == t[r.index := t[r.index].(device := dev)]
    ensures r.NoSlot? <==> forall k | 0 <= k < |t| :: t[k].device != dev && t[k].device != NoDevice
  {
    var i := 0;
    while i < |t|
      invariant 0 <= i <= |t|
      invariant forall k | 0 <= k < i :: t[k].device != dev && t[k].device != NoDevice
      invariant SlotFrom(t, dev, i) == SlotFor(t, dev)
    {
      if t[i].device == dev {
        return Claimed(i, t);
      } else if t[i].device == NoDevice {
        return Claimed(i, t[i := t[i].(device := dev)]);
      }
      i := i + 1;
    }
    return NoSlot;
  }

  /**
   * A registered device gets its own slot back and the table does not change; an
   * unregistered one claims the first empty slot; the invariant is preserved.
   */
  lemma {:induction false} SlotForCorrect(t: seq<Slot>, dev: nat, i: nat)
    requires TableInv(t) && dev != NoDevice && i <= |t|
    requires forall k | 0 <= k < i :: t[k].device != dev && t[k].device != NoDevice
    ensures SlotFrom(t, dev, i).Claimed? ==> TableInv(SlotFrom(t, dev, i).table)
    ensures SlotFrom(t, dev, i).Claimed? ==> SlotFrom(t, dev, i).table[SlotFrom(t, dev, i).index].device == dev
    ensures forall k | 0 <= k < |t| :: t[k].device == dev ==> SlotFrom(t, dev, i) == Claimed(k, t)
    ensures SlotFrom(t, dev, i).NoSlot? <==> forall k | i <= k < |t| :: t[k].device != dev && t[k].device != NoDevice
    decreases |t| - i
  {
    if i < |t| && t[i].device != dev && t[i].device != NoDevice {
      SlotForCorrect(t, dev, i + 1);
    } else if i < |t| && t[i].device == NoDevice {
      var t2 := t[i := t[i].(device := dev)];
      forall a, b | 0 <= a < b < |t2| && t2[b].device != NoDevice
        ensures t2[a].device != NoDevice && t2[a].device != t2[b].device
      {
        if b == i {
          assert t[a].device != dev;
        }
      }
    }
  }

  /** Two distinct devices fill the table; a third finds no slot. */
  lemma ThirdDeviceHasNoSlot(a: nat, b: nat, c: nat)
    requires a != NoDevice && b != NoDevice && c != NoDevice && a != b && c != a && c != b
    ensures SlotFor(InitialTable(), a).Claimed?
    ensures SlotFor(SlotFor(InitialTable(), a).table, b).Claimed?
    ensures SlotFor(SlotFor(SlotFor(InitialTable(), a).table, b).table, c).NoSlot?
  {
    var t1 := SlotFor(InitialTable(), a).table;
    assert t1 == [EmptySlot().(device := a), EmptySlot()];
    assert SlotFrom(t1, b, 1) == Claimed(1, t1[1 := t1[1].(device := b)]);
    var t2 := SlotFor(t1, b).table;
    assert SlotFrom(t2, c, 2) == NoSlot;
    assert SlotFrom(t2, c, 1) == NoSlot;
  }

  /** Which callback a setter installs. */
  datatype Handler = TxHandler | RxHandler | TxOverrunHandler | RxOverrunHandler

  /** `set_tx_handler`, `set_rx_handler`, `set_tx_overrun_handler`, `set_rx_overrun_handler`. */
  function SetHandler(t: seq<Slot>, dev: nat, h: Handler, present: bool): (r: Claim)
    requires TableInv(t) && dev != NoDevice
    ensures r.NoSlot? <==> SlotFor(t, dev).NoSlot?
    ensures r.Claimed? ==> r.index == SlotFor(t, dev).index && r.index < |r.table| == |t|
    ensures r.Claimed? ==> TableInv(r.table) && r.table[r.index].device == dev
    ensures r.Claimed? ==> forall k | 0 <= k < |t| && k != r.index :: r.table[k] == t[k]
    ensures r.Claimed? ==> match h
      case TxHandler => r.table[r.index].tx == present
      case RxHandler => r.table[r.index].rx == present
      case TxOverrunHandler => r.table[r.index].txOverrun == present
      case RxOverrunHandler => r.table[r.index].rxOverrun == present
  {
    SlotForCorrect(t, dev, 0);
    match SlotFor(t, dev)
    case NoSlot => NoSlot
    case Claimed(i, t2) =>
      var s := t2[i];
      var s2 := match h
        case TxHandler => s.(tx := present)
        case RxHandler => s.(rx := present)
        case TxOverrunHandler => s.(txOverrun := present)
        case RxOverrunHandler => s.(rxOverrun := present);
      Claimed(i, t2[i := s2])
  }

  // ---------------------------------------------------------------------------
  // Interrupt dispatch

  /** Which callback an interrupt routine calls; a receive callback gets the data register's low byte. */
  datatype Dispatch = RxCall(c: Word) | TxCall | TxOverrunCall | RxOverrunCall | NoCall

  datatype Processed = Processed(table: seq<Slot>, regs: UartRegs, call: Dispatch) | Unregistered

  /**
   * `process_interrupt`: receive first — clear the receive interrupt and pass the
   * received byte — else transmit, each only when its callback is set.  The
   * receive interrupt is cleared through the intended clear field, on its own bit.
   */
  function ProcessInterrupt(t: seq<Slot>, dev: nat, u: UartRegs): (r: Processed)
    requires TableInv(t) && dev != NoDevice
    ensures r.Unregistered? <==> SlotFor(t, dev).NoSlot?
    ensures r.Processed? ==> TableInv(r.table) && r.table == SlotFor(t, dev).table
    ensures r.Processed? ==> var s := r.table[SlotFor(t, dev).index];
      && (r.call.RxCall? <==> RxInterrupt(u) && s.rx)
      && (r.call.TxCall? <==> !(RxInterrupt(u) && s.rx) && TxInterrupt(u) && s.tx)
      && (r.call.RxCall? ==> r.call.c == GetData(u))
      && (r.call.NoCall? ==> r.regs == u)
      && (r.call.RxCall? ==> r.regs == ClearInterrupt(u, RxBit))
      && (r.call.TxCall? ==> r.regs == ClearInterrupt(u, TxBit))
  {
    SlotForCorrect(t, dev, 0);
    match SlotFor(t, dev)
    case NoSlot => Unregistered
    case Claimed(i, t2) =>
      if RxInterrupt(u) && t2[i].rx then
        var u2 := ClearInterrupt(u, RxBit);
        Processed(t2, u2, RxCall(GetData(u2)))
      else if TxInterrupt(u) && t2[i].tx then
        Processed(t2, ClearTxInterrupt(u), TxCall)
      else Processed(t2, u, NoCall)
  }

  /**
   * `process_interrupt` as written: the receive path clears through `clear_rx_interrupt`,
   * whose field is declared at bit 0, so either path writes the transmit flag's bit
   * and neither writes the receive flag's.
   */
  function ProcessInterruptAsWritten(t: seq<Slot>, dev: nat, u: UartRegs): (r: Processed)
    requires TableInv(t) && dev != NoDevice
    ensures r.Unregistered? <==> SlotFor(t, dev).NoSlot?
    ensures r.Processed? ==> TableInv(r.table) && r.table == SlotFor(t, dev).table
    ensures r.Processed? ==> var s := r.table[SlotFor(t, dev).index];
      && (r.call.RxCall? <==> RxInterrupt(u) && s.rx)
      && (r.call.TxCall? <==> !(RxInterrupt(u) && s.rx) && TxInterrupt(u) && s.tx)
      && (r.call.RxCall? ==> r.call.c == GetData(u))
      && (r.call.NoCall? ==> r.regs == u)
      && (!r.call.NoCall? ==> r.regs == ClearInterrupt(u, TxBit))
    // Against the intended reading: the same call and table; on the receive path the
    // write lands on the transmit flag's bit, which the intended write leaves alone.
    ensures var c := ProcessInterrupt(t, dev, u);
      && (r.Processed? ==> r.table == c.table && r.call == c.call)
      && (r.Processed? && !r.call.RxCall? ==> r.regs == c.regs)
      && (r.Processed? && r.call.RxCall? ==> c.regs == ClearInterrupt(u, RxBit) && (!u.interrupt[TxBit] ==> c.regs != r.regs))
  {
    SlotForCorrect(t, dev, 0);
    match SlotFor(t, dev)
    case NoSlot => Unregistered
    case Claimed(i, t2) =>
      if RxInterrupt(u) && t2[i].rx then
        var u2 := ClearRxInterrupt(u);
        Processed(t2, u2, RxCall(GetData(u2)))
      else if TxInterrupt(u) && t2[i].tx then
        Processed(t2, ClearTxInterrupt(u), TxCall)
      else Processed(t2, u, NoCall)
  }

  /** `process_overrun_interrupt`: transmit overrun before receive overrun; nothing is cleared. */
  function ProcessOverrun(t: seq<Slot>, dev: nat, u: UartRegs): (r: Processed)
    requires TableInv(t) && dev != NoDevice
    ensures r.Unregistered? <==> SlotFor(t, dev).NoSlot?
    ensures r.Processed? ==> TableInv(r.table) && r.table == SlotFor(t, dev).table && r.regs == u
    ensures r.Processed? ==> var s := r.table[SlotFor(t, dev).index];
      && (r.call.TxOverrunCall? <==> u.state[TxOverrunBit] && s.txOverrun)
      && (r.call.RxOverrunCall? <==> !(u.state[TxOverrunBit] && s.txOverrun) && u.state[RxOverrunBit] && s.rxOverrun)
      && (r.call.TxOverrunCall? || r.call.RxOverrunCall? || r.call.NoCall?)
  {
    SlotForCorrect(t, dev, 0);
    match SlotFor(t, dev)
    case NoSlot => Unregistered
    case Claimed(i, t2) =>
      if StateFlag(u, TxOverrunBit) && t2[i].txOverrun then Processed(t2, u, TxOverrunCall)
      else if StateFlag(u, RxOverrunBit) && t2[i].rxOverrun then Processed(t2, u, RxOverrunCall)
      else Processed(t2, u, NoCall)
  }

  // ---------------------------------------------------------------------------
  // The vectored handlers

  /** `uart0_address` and `uart1_address`: the APB1 peripheral base 0x40000000 plus 0x4000 and 0x5000. */
  const Uart0Address: nat := 0x4000_4000
  const Uart1Address: nat := 0x4000_5000

  /** `uart_devices`: the devices in the order the overrun handler visits them. */
  const UartDevices: seq<nat> := [Uart0Address, Uart1Address]

  /** The registers of both devices. */
  datatype Devices = Devices(uart0: UartRegs, uart1: UartRegs)

  function RegsAt(d: Devices, line: nat): UartRegs
    requires line < UartCount
  {
    if line == 0 then d.uart0 else d.uart1
  }

  /**
   * The device `uart0_handler` and `uart1_handler` hand to `process_interrupt` as
   * written: both name `uart0_address`, so the second line's handler names a device
   * other than its own.
   */
  function HandlerDeviceAsWritten(line: nat): (r: nat)
    requires line < UartCount
    ensures r == UartDevices[0]
    ensures r == UartDevices[line] <==> line == 0
  {
    Uart0Address
  }

  /**
   * `uartN_handler` as written: whatever the line, the first device's slot is
   * claimed, the first device's flags decide the call, and a call clears through
   * the transmit flag's bit.
   */
  function InterruptHandlerAsWritten(t: seq<Slot>, line: nat, d: Devices): (r: Processed)
    requires TableInv(t) && line < UartCount
    ensures r.Unregistered? <==> SlotFor(t, Uart0Address).NoSlot?
    ensures r.Processed? ==> TableInv(r.table) && r.table == SlotFor(t, Uart0Address).table
    ensures r.Processed? ==> var s := r.table[SlotFor(t, Uart0Address).index];
      && s.device == Uart0Address
      && (r.call.RxCall? <==> RxInterrupt(d.uart0) && s.rx)
      && (r.call.TxCall? <==> !(RxInterrupt(d.uart0) && s.rx) && TxInterrupt(d.uart0) && s.tx)
      && (!r.call.NoCall? ==> r.regs == ClearTxInterrupt(d.uart0))
  {
    SlotForCorrect(t, Uart0Address, 0);
    ProcessInterruptAsWritten(t, HandlerDeviceAsWritten(line), d.uart0)
  }

  /** `uartN_handler` as evidently intended: line `line` processes `uart_devices[line]`. */
  function InterruptHandler(t: seq<Slot>, line: nat, d: Devices): (r: Processed)
    requires TableInv(t) && line < UartCount
    ensures r.Unregistered? <==> SlotFor(t, UartDevices[line]).NoSlot?
    ensures r.Processed? ==> TableInv(r.table) && r.table == SlotFor(t, UartDevices[line]).table
    ensures r.Processed? ==> var s := r.table[SlotFor(t, UartDevices[line]).index];
      && s.device == UartDevices[line]
      && (r.call.RxCall? <==> RxInterrupt(RegsAt(d, line)) && s.rx)
      && (r.call.TxCall? <==> !(RxInterrupt(RegsAt(d, line)) && s.rx) && TxInterrupt(RegsAt(d, line)) && s.tx)
  {
    SlotForCorrect(t, UartDevices[line], 0);
    ProcessInterrupt(t, UartDevices[line], RegsAt(d, line))
  }

  /**
   * As written, the handler of the second UART serves the first: it does exactly
   * what the first UART's handler does, and never looks at the second UART's
   * registers.
   */
  lemma Uart1HandlerServesUart0(t: seq<Slot>, d: Devices, other: UartRegs)
    requires TableInv(t)
    ensures InterruptHandlerAsWritten(t, 1, d) == InterruptHandlerAsWritten(t, 0, d)
    ensures InterruptHandlerAsWritten(t, 1, d) == InterruptHandlerAsWritten(t, 1, d.(uart1 := other))
  {
  }

  /**
   * The second UART has a receive callback and a byte waiting; the first is idle.
   * As written its handler makes no call, and claims a slot for the first UART;
   * as intended it passes the byte.
   */
  lemma Uart1ReceiveExample()
    ensures var t := [Slot(Uart1Address, false, true, false, false), EmptySlot()];
      var idle := UartRegs(Zero(), Zero(), Zero(), Zero(), Zero());
      var d := Devices(idle, idle.(interrupt := RaiseFlag(Zero(), RxBit)));
      && TableInv(t)
      && InterruptHandlerAsWritten(t, 1, d).Processed?
      && InterruptHandlerAsWritten(t, 1, d).call == NoCall
      && InterruptHandlerAsWritten(t, 1, d).table[1].device == Uart0Address
      && InterruptHandler(t, 1, d).Processed?
      && InterruptHandler(t, 1, d).call.RxCall?
  {
    var t := [Slot(Uart1Address, false, true, false, false), EmptySlot()];
    var idle := UartRegs(Zero(), Zero(), Zero(), Zero(), Zero());
    assert SlotFrom(t, Uart0Address, 1) == Claimed(1, t[1 := t[1].(device := Uart0Address)]);
    assert SlotFrom(t, Uart1Address, 0) == Claimed(0, t);
    assert !RxInterrupt(idle) && !TxInterrupt(idle);
  }

  /** The outcome of the overrun handler: the table and one dispatch per device, or a stop at `assert(false)`. */
  datatype Sweep = Swept(table: seq<Slot>, calls: seq<Dispatch>) | Halted

  /** `uart_ovr_handler`: `process_overrun_interrupt` on each of `uart_devices` in turn. */
  function OverrunHandler(t: seq<Slot>, d: Devices): (r: Sweep)
    requires TableInv(t)
    ensures r.Swept? ==> TableInv(r.table) && |r.calls| == |UartDevices| && |r.table| == |t|
    ensures r.Swept? ==> forall k | 0 <= k < |t| && t[k].device != NoDevice :: r.table[k] == t[k]
    ensures r.Swept? ==> forall n | 0 <= n < |UartDevices| ::
      (exists k | 0 <= k < |r.table| :: r.table[k].device == UartDevices[n])
    ensures r.Swept? ==> forall n | 0 <= n < |UartDevices| :: !r.calls[n].NoCall? ==>
      RegsAt(d, n).state[TxOverrunBit] || RegsAt(d, n).state[RxOverrunBit]
  {
    match ProcessOverrun(t, Uart0Address, d.uart0)
    case Unregistered => Halted
    case Processed(t1, _, c0) =>
      SlotForCorrect(t, Uart0Address, 0);
      var i0 := SlotFor(t, Uart0Address).index;
      match ProcessOverrun(t1, Uart1Address, d.uart1)
      case Unregistered => Halted
      case Processed(t2, _, c1) =>
        SlotForCorrect(t1, Uart1Address, 0);
        var i1 := SlotFor(t1, Uart1Address).index;
        assert t2[i0].device == Uart0Address;
        assert t2[i1].device == Uart1Address;
        Swept(t2, [c0, c1])
  }

  /** A table that holds no device but the two UARTs never stops the overrun handler. */
  lemma OverrunHandlerCompletes(t: seq<Slot>, d: Devices)
    requires TableInv(t)
    requires forall k | 0 <= k < |t| :: t[k].device in {NoDevice, Uart0Address, Uart1Address}
    ensures OverrunHandler(t, d).Swept?
  {
    SlotForCorrect(t, Uart0Address, 0);
    var t1 := SlotFor(t, Uart0Address).table;
    SlotForCorrect(t1, Uart1Address, 0);
  }

  // ---------------------------------------------------------------------------
  // Output settings of uart_handle

  /** `digits_per_byte`. */
  function DigitsPerByte(b: NumberBase): (r: nat)
    ensures r >= 1 && Power(BaseValue(b), r) >= 256
  {
    PowerFacts();
    match b
    case Bin => 8
    case Oct => 4
    case Dec => 3
    case Hex => 2
  }

  lemma PowerFacts()
    ensures Power(2, 7) == 128 && Power(2, 8) == 256
    ensures Power(8, 3) == 512 && Power(8, 4) == 4096
    ensures Power(10, 2) == 100 && Power(10, 3) == 1000
    ensures Power(16, 1) == 16 && Power(16, 2) == 256
  {
    assert Power(2, 2) == 4;
    assert Power(2, 4) == 16;
    assert Power(2, 6) == 64;
    assert Power(8, 2) == 64;
  }

  /** For binary, decimal and hexadecimal the count is the fewest digits that cover a byte; octal gets one more than needed. */
  lemma DigitsPerByteTight(b: NumberBase)
    ensures b != Oct ==> Power(BaseValue(b), DigitsPerByte(b) - 1) < 256
    ensures b == Oct ==> Power(BaseValue(b), DigitsPerByte(b) - 1) >= 256
  {
    PowerFacts();
  }

  /** `output_number_base_`, `output_width_` (a `std::uint8_t`) and `output_fill_`. */
  datatype OutputSettings = OutputSettings(base: NumberBase, width: nat, fill: char)

  /** The member initialisers: binary, width 0, fill `' '`. */
  function DefaultSettings(): OutputSettings
  {
    OutputSettings(Bin, 0, ' ')
  }

  /** `set_output_number_base`: store the new base, return the previous one. */
  function SetOutputNumberBase(o: OutputSettings, v: NumberBase): (r: (NumberBase, OutputSettings))
    ensures r.1.base == v && r.1.width == o.width && r.1.fill == o.fill
  {
    (o.base, o.(base := v))
  }

  /** `set_output_width`. */
  function SetOutputWidth(o: OutputSettings, v: nat): (r: (nat, OutputSettings))
    requires v < 256
    ensures r.1.width == v && r.1.base == o.base && r.1.fill == o.fill
  {
    (o.width, o.(width := v))
  }

  /** `set_output_fill`. */
  function SetOutputFill(o: OutputSettings, v: char): (r: (char, OutputSettings))
    ensures r.1.fill == v && r.1.base == o.base && r.1.width == o.width
  {
    (o.fill, o.(fill := v))
  }

  /** Each setter returns the value in force before it; passing that value back restores the settings. */
  lemma SettersReturnPrevious(o: OutputSettings, b: NumberBase, w: nat, f: char)
    requires w < 256 && o.width < 256
    ensures SetOutputNumberBase(o, b).0 == o.base
    ensures SetOutputNumberBase(SetOutputNumberBase(o, b).1, SetOutputNumberBase(o, b).0).1 == o
    ensures SetOutputWidth(o, w).0 == o.width
    ensures SetOutputWidth(SetOutputWidth(o, w).1, SetOutputWidth(o, w).0).1 == o
    ensures SetOutputFill(o, f).0 == o.fill
    ensures SetOutputFill(SetOutputFill(o, f).1, SetOutputFill(o, f).0).1 == o
  {
  }

  // ---------------------------------------------------------------------------
  // write

  /** No character of `s` is the terminating NUL. */
  predicate NoNul(s: string)
  {
    forall k | 0 <= k < |s| :: s[k] != '\0'
  }

  /** `write(char const*)`: the characters `put` one by one, up to but not including the first NUL. */
  function Transmitted(s: string): (r: string)
    ensures NoNul(r)
    ensures r == s || (|r| < |s| && s[|r|] == '\0')
    ensures r == s[..|r|]
  {
    if s == [] || s[0] == '\0' then []
    else
      var rest := Transmitted(s[1..]);
      assert [s[0]] + rest == s[..|rest| + 1];
      [s[0]] + rest
  }

  /** The characters before a NUL are sent, and nothing after it. */
  lemma {:induction false} TransmittedStopsAtNul(s: string, tail: string)
    requires NoNul(s)
    ensures Transmitted(s + ['\0'] + tail) == s
  {
    if s != [] {
      assert (s + ['\0'] + tail)[1..] == s[1..] + ['\0'] + tail;
      TransmittedStopsAtNul(s[1..], tail);
    } else {
      assert (s + ['\0'] + tail)[0] == '\0';
    }
  }

  /** The width a `std::uint8_t` output width becomes when passed as the `std::int8_t` parameter of `write`. */
  function WriteWidth(w: nat): (r: int)
    requires w < 256
    ensures -128 <= r < 128
    ensures (r - w) % 256 == 0
  {
    if w < 128 then w else w - 256
  }

  /** Output widths of 128 and above arrive negative, which `to_chars` treats as no padding. */
  lemma WideWidthIsNoPadding(w: nat, n: nat, len: nat)
    requires 128 <= w < 256
    ensures WriteWidth(w) < 0
    ensures PadCount(n, len, WriteWidth(w)) == 0
  {
  }

  /** The buffer `write(Integer, ...)` reserves as written: one character per bit and the NUL. */
  function WriteBufferAsWritten(t: IntType): (n: nat)
    ensures n > t.bits
  {
    t.bits + 1
  }

  /**
   * The buffer binary output needs at the widest width it can be given: one
   * character per bit of the promoted type, a space between adjacent groups of
   * eight, and the NUL.
   */
  function WriteBufferLength(t: IntType): (n: nat)
    requires ValidType(t)
    ensures var p := PromotedBits(t); n == p + (p - 1) / 8 + 1
    ensures n > WriteBufferAsWritten(t)
  {
    PromotedBits(t) + PromotedBits(t) / 8
  }

  /**
   * The binary branch does not consult the buffer length: with `w` digits it
   * stores more characters than the buffer holds exactly when the digits and
   * their spaces outnumber the bits.  So does every 16- or 32-bit value with no
   * width, and a narrow type given a width past its own.
   */
  lemma BinaryOverflowsBuffer(t: IntType, value: int, width: int, fill: char)
    requires ArgsValid(t, value, Bin, width)
    ensures var w := BinaryWidth(t, width);
      |ToCharsAsWritten(WriteBufferAsWritten(t), t, value, Bin, width, fill)| == w + (w - 1) / 8 + 1
    ensures var w := BinaryWidth(t, width);
      (|ToCharsAsWritten(WriteBufferAsWritten(t), t, value, Bin, width, fill)| > WriteBufferAsWritten(t)
       <==> w + (w - 1) / 8 > t.bits)
    ensures (width <= 0 && t.bits >= 16) || width > t.bits ==>
      |ToCharsAsWritten(WriteBufferAsWritten(t), t, value, Bin, width, fill)| > WriteBufferAsWritten(t)
  {
  }

  /** A `std::uint8_t` 5 in binary with width 16 stores 18 characters in the 9-character buffer. */
  lemma NarrowBinaryOverflowExample(fill: char)
    ensures WriteBufferAsWritten(IntType(8, false)) == 9
    ensures |ToCharsAsWritten(9, IntType(8, false), 5, Bin, 16, fill)| == 18
  {
    Pow2Of8();
    BinaryOverflowsBuffer(IntType(8, false), 5, 16, fill);
  }

  /**
   * The default output of `uart_handle`: any `std::uint16_t` in binary, 0 included,
   * stores 18 characters in the 17-character buffer.
   */
  lemma BinaryOverflowExample(value: int, fill: char)
    requires InRange(IntType(16, false), value)
    ensures WriteBufferAsWritten(IntType(16, false)) == 17
    ensures |ToCharsAsWritten(17, IntType(16, false), value, Bin, 0, fill)| == 18
  {
    BinaryOverflowsBuffer(IntType(16, false), value, 0, fill);
  }

  /** With the corrected buffer every call of `write(Integer, ...)` stays inside it. */
  lemma WriteBufferFits(t: IntType, value: int, base: NumberBase, width: int, fill: char)
    requires ArgsValid(t, value, base, width)
    ensures |ToChars.ToChars(WriteBufferLength(t), t, value, base, width, fill)| <= WriteBufferLength(t)
  {
    if base == Bin {
      BinaryBufferFits(t, value, width);
    } else {
      NumberTextLength(t, value, base);
      TextBufferFits(WriteBufferLength(t), t, value, base, width, fill);
    }
  }

  lemma BinaryBufferFits(t: IntType, value: int, width: int)
    requires ArgsValid(t, value, Bin, width)
    ensures |BinaryChars(t, value, width)| <= WriteBufferLength(t)
  {
    var w := BinaryWidth(t, width);
    assert (w - 1) / 8 <= (PromotedBits(t) - 1) / 8;
  }

  lemma TextBufferFits(len: nat, t: IntType, value: int, base: NumberBase, width: int, fill: char)
    requires ArgsValid(t, value, base, width) && base != Bin
    requires |NumberText(t, value, base)| < len
    ensures |ToChars.ToChars(len, t, value, base, width, fill)| <= len
  {
  }

  lemma {:induction false} MsbDigitsNoNul(v: nat, b: nat)
    requires 2 <= b <= 16
    ensures NoNul(MsbDigits(v, b))
    decreases v
  {
    if v > 0 {
      MsbDigitsNoNul(v / b, b);
      assert DigitChar(v % b) != '\0';
    }
  }

  lemma {:induction false} BinaryTextNoNul(p: nat, w: nat)
    ensures NoNul(BinaryText(p, w))
  {
    if w > 0 {
      BinaryTextNoNul(p, w - 1);
    }
  }

  /** Unless the fill character is a NUL, everything `to_chars` stores before its terminator is sent. */
  lemma WriteSendsBody(t: IntType, value: int, base: NumberBase, width: int, fill: char)
    requires ArgsValid(t, value, base, width) && (base == Bin || fill != '\0')
    ensures var b := ToChars.ToChars(WriteBufferLength(t), t, value, base, width, fill);
      |b| >= 1 && Transmitted(b) == b[..|b| - 1]
  {
    var b := ToChars.ToChars(WriteBufferLength(t), t, value, base, width, fill);
    StoredBodyNoNul(t, value, base, width, fill);
    assert b == b[..|b| - 1] + ['\0'] + [];
    TransmittedStopsAtNul(b[..|b| - 1], []);
  }

  /** `WriteSendsBody` for every call, stated for the calls it covers. */
  lemma SentBody(t: IntType, value: int, base: NumberBase, width: int, fill: char)
    requires ArgsValid(t, value, base, width)
    ensures base == Bin || fill != '\0' ==>
      var b := ToChars.ToChars(WriteBufferLength(t), t, value, base, width, fill);
      |b| >= 1 && Transmitted(b) == b[..|b| - 1]
  {
    if base == Bin || fill != '\0' {
      WriteSendsBody(t, value, base, width, fill);
    }
  }

  /** What `to_chars` stores holds no NUL before its terminator, the fill aside. */
  lemma StoredBodyNoNul(t: IntType, value: int, base: NumberBase, width: int, fill: char)
    requires ArgsValid(t, value, base, width) && (base == Bin || fill != '\0')
    ensures var b := ToChars.ToChars(WriteBufferLength(t), t, value, base, width, fill);
      |b| >= 1 && b[|b| - 1] == '\0' && NoNul(b[..|b| - 1])
  {
    if base == Bin {
      BinaryTextNoNul(Pattern(t, value), BinaryWidth(t, width));
    } else {
      TextBodyNoNul(WriteBufferLength(t), t, value, base, width, fill);
    }
  }

  lemma TextBodyNoNul(len: nat, t: IntType, value: int, base: NumberBase, width: int, fill: char)
    requires ArgsValid(t, value, base, width) && base != Bin && fill != '\0'
    ensures var b := ToChars.ToChars(len, t, value, base, width, fill);
      |b| >= 1 && b[|b| - 1] == '\0' && NoNul(b[..|b| - 1])
  {
    var b := ToChars.ToChars(len, t, value, base, width, fill);
    var text := NumberText(t, value, base);
    MsbDigitsNoNul(Magnitude(t, value, base), BaseValue(base));
    FilledTextNoNul(fill, PadCount(|text|, len, width), text);
    assert b[..|b| - 1] == Fill(fill, PadCount(|text|, len, width)) + text;
  }

  /** Padding with a fill character other than NUL keeps a text free of NULs. */
  lemma FilledTextNoNul(fill: char, n: nat, text: string)
    requires fill != '\0' && NoNul(text)
    ensures NoNul(Fill(fill, n) + text)
  {
    var s := Fill(fill, n) + text;
    forall k | 0 <= k < |s|
      ensures s[k] != '\0'
    {
      if k >= n {
        assert s[k] == text[k - n];
      }
    }
  }

  /**
   * `write(Integer, ...)` over the corrected buffer: the characters sent.  In binary they
   * are the value's low bits, spaces aside; in the other bases they are the number's text
   * after the padding, unless the fill character is itself a NUL.
   */
  function WriteNumber(t: IntType, value: int, base: NumberBase, width: int, fill: char): (r: string)
    requires ArgsValid(t, value, base, width)
    ensures base == Bin ==> Parse(StripSpaces(r), 2) == value % Pow2(BinaryWidth(t, width))
    ensures base != Bin && fill != '\0' ==> var text := NumberText(t, value, base);
      r == Fill(fill, PadCount(|text|, WriteBufferLength(t), width)) + text
  {
    SentBody(t, value, base, width, fill);
    Transmitted(ToChars.ToChars(WriteBufferLength(t), t, value, base, width, fill))
  }

  /**
   * `write(Integer, ...)` as written: `to_chars` as written into the `bit_count + 1`
   * buffer, for the calls whose stored characters fit that buffer.  Binary output is
   * what the corrected buffer sends; in the other bases the padding loop runs one
   * step too far, so a number no wider than `width` goes out with one fill character
   * more than the corrected call sends.
   */
  function WriteNumberAsWritten(t: IntType, value: int, base: NumberBase, width: int, fill: char): (r: string)
    requires CallValid(t, value, base, width)
    requires |ToCharsAsWritten(WriteBufferAsWritten(t), t, value, base, width, fill)| <= WriteBufferAsWritten(t)
    ensures base == Bin ==> r == WriteNumber(t, value, base, width, fill)
    ensures base != Bin && fill != '\0' ==> var text := TextAsWritten(t, value, base);
      r == Fill(fill, PadCountAsWritten(|text|, WriteBufferAsWritten(t), width)) + text
  {
    SentBodyAsWritten(t, value, base, width, fill);
    Transmitted(ToCharsAsWritten(WriteBufferAsWritten(t), t, value, base, width, fill))
  }

  /**
   * The two readings of `write(Integer, ...)` side by side: where the number prints
   * as its own text, one no wider than `width` goes out `width + 1` characters wide
   * as written, one fill character ahead of the corrected output, and a wider one
   * goes out the same.
   */
  lemma WriteNumberOneMoreFill(t: IntType, value: int, base: NumberBase, width: int, fill: char)
    requires CallValid(t, value, base, width) && base != Bin && fill != '\0'
    requires |ToCharsAsWritten(WriteBufferAsWritten(t), t, value, base, width, fill)| <= WriteBufferAsWritten(t)
    requires TextAsWritten(t, value, base) == NumberText(t, value, base)
    ensures var r := WriteNumberAsWritten(t, value, base, width, fill);
      var n := |NumberText(t, value, base)|;
      && (n <= width ==> |r| == width + 1 && r == [fill] + WriteNumber(t, value, base, width, fill))
      && (n > width ==> r == WriteNumber(t, value, base, width, fill))
  {
    AsWrittenLength(WriteBufferAsWritten(t), t, value, base, width, fill);
    OneMoreFill(NumberText(t, value, base), fill, WriteBufferAsWritten(t), WriteBufferLength(t), width);
  }

  /**
   * In binary `to_chars` as written stores what the corrected call stores; in the
   * other bases, unless the fill character is a NUL, its padded text is what is sent.
   */
  lemma SentBodyAsWritten(t: IntType, value: int, base: NumberBase, width: int, fill: char)
    requires CallValid(t, value, base, width)
    ensures base == Bin ==>
      ToCharsAsWritten(WriteBufferAsWritten(t), t, value, base, width, fill) == ToChars.ToChars(WriteBufferLength(t), t, value, base, width, fill)
    ensures base != Bin && fill != '\0' ==>
      var b := ToCharsAsWritten(WriteBufferAsWritten(t), t, value, base, width, fill);
      var text := TextAsWritten(t, value, base);
      Transmitted(b) == Fill(fill, PadCountAsWritten(|text|, WriteBufferAsWritten(t), width)) + text
  {
    if base != Bin && fill != '\0' {
      AsWrittenSendsBody(t, value, base, width, fill);
    }
  }

  /** Unless the fill character is a NUL, the text `to_chars` as written stores before its terminator is sent. */
  lemma AsWrittenSendsBody(t: IntType, value: int, base: NumberBase, width: int, fill: char)
    requires CallValid(t, value, base, width) && base != Bin && fill != '\0'
    ensures var b := ToCharsAsWritten(WriteBufferAsWritten(t), t, value, base, width, fill);
      var text := TextAsWritten(t, value, base);
      Transmitted(b) == Fill(fill, PadCountAsWritten(|text|, WriteBufferAsWritten(t), width)) + text
  {
    var b := ToCharsAsWritten(WriteBufferAsWritten(t), t, value, base, width, fill);
    var text := TextAsWritten(t, value, base);
    var body := Fill(fill, PadCountAsWritten(|text|, WriteBufferAsWritten(t), width)) + text;
    if text != NumberText(t, value, base) {
      assert text == "-";
    } else {
      MsbDigitsNoNul(Magnitude(t, value, base), BaseValue(base));
    }
    FilledTextNoNul(fill, PadCountAsWritten(|text|, WriteBufferAsWritten(t), width), text);
    assert b == body + ['\0'] + [];
    TransmittedStopsAtNul(body, []);
  }

  /**
   * Where the text padded as written fits a buffer of `len` characters and the
   * corrected buffer is longer, a text no wider than `width` gets one fill character
   * more as written than corrected, and a wider text gets none either way.
   */
  lemma OneMoreFill(text: string, fill: char, len: nat, len2: nat, width: int)
    requires PadCountAsWritten(|text|, len, width) + |text| + 1 <= len < len2
    ensures |text| <= width ==>
      Fill(fill, PadCountAsWritten(|text|, len, width)) + text == [fill] + (Fill(fill, PadCount(|text|, len2, width)) + text)
    ensures |text| <= width ==> PadCount(|text|, len2, width) == width - |text|
    ensures |text| > width ==> PadCountAsWritten(|text|, len, width) == 0 && PadCount(|text|, len2, width) == 0
  {
    if |text| <= width {
      assert Fill(fill, width + 1 - |text|) == [fill] + Fill(fill, width - |text|);
    }
  }

  /**
   * A `std::uint32_t` 5 in decimal with width 3 and fill `' '`: as written four
   * characters go out, `"   5"`; the corrected call sends `"  5"`.
   */
  lemma WriteNumberPaddingExample()
    ensures CallValid(IntType(32, false), 5, Dec, 3)
    ensures |ToCharsAsWritten(33, IntType(32, false), 5, Dec, 3, ' ')| == 5
    ensures WriteNumberAsWritten(IntType(32, false), 5, Dec, 3, ' ') == "   5"
    ensures WriteNumber(IntType(32, false), 5, Dec, 3, ' ') == "  5"
  {
    var t := IntType(32, false);
    Pow2Of32();
    assert Magnitude(t, 5, Dec) == 5;
    assert MsbDigits(5, 10) == MsbDigits(0, 10) + [DigitChar(5)];
    assert NumberText(t, 5, Dec) == "5";
    assert TextAsWritten(t, 5, Dec) == "5";
    AsWrittenLength(33, t, 5, Dec, 3, ' ');
    assert Fill(' ', 3) + "5" == "   5";
    assert Fill(' ', 2) + "5" == "  5";
  }
}
